=== FILE: README.md ===
# Reference manager: a Dafny model of its core logic

Reference manager lets authors record where in which books an event is
referenced, and lets readers search those references. Three Python services
sit behind two React front ends:

- the **producer** signs users in and stores their references;
- the **consumer** forwards multi-searches to Elasticsearch;
- the **admin** service lets operators filter users and references and edit
  affiliate links.

This project models the sequential logic of that system as pure Dafny
functions over immutable datatypes, and proves properties of it:

- **Admin database client** (`AdminDb`). The tri-state filter codes (1 = yes,
  2 = no, anything else = any) become `{}` or `{"$and": [...]}` filter
  documents. `update_user`'s `$set` holds exactly the supplied flags.
  `update_reference_link` edits, removes or appends the link of one type in
  every book of a given name. The lookups `get_user_by_id`, `get_operator`
  and `get_operator_by_username` are modelled too.
- **Consumer multi-search pairing** (`ConsumerSearch`). Headers and queries of
  the NDJSON body are paired into searches, and the results are collected.
- **Token and credential protocols** (`ProducerAuth`, `AdminAuth`, `Encrypt`).
  - The producer's one-time authentication token lives in a cache, modelled
    as a `map`.
  - Access tokens carry the caller's claims plus `exp`.
  - Cookie and `Authorization` header parsing.
  - The bcrypt salt derived from the operator's username.
  - JWT (`JwtLib.Jwt`), SHA-256, bcrypt and FastAPI's header splitter are
    function parameters. Nothing about them is assumed beyond what a lemma
    states in its `requires`.
- **Pydantic models** (`AdminModels`, `ProducerModels`, `AdminAuthModels`).
  Each model is a function from a document to the set of fields pydantic
  rejects. The set is empty exactly when the document is accepted.
- **Front-end state logic**. Each component is a state record with
  transition and render-decision functions. A `fetch` chain's outcome is a
  parameter (`Js.Fetch`: an answer with status and decoded body, or a
  failure that lands in `.catch`). The components are:
  - the reference draft editor (`ReferenceEditor`);
  - the pagination bar and category toggle of the search page (`SearchView`);
  - the app shell (`FrontendApp`);
  - the account page (`Account`);
  - the join page (`JoinUs`);
  - the admin users and references pages (`AdminUsers`, `AdminReferences`,
    and `AdminFilters` for the dropdowns they share).

Shared modules:

- `Wrappers`: `Option` and `Result`.
- `Js`: JavaScript values, truthiness, string order, UTF-16 lengths and
  `slice`, and fetch outcomes.
- `Text`: the `str.lower`, `str.replace` and `str.split` behaviour the
  services rely on, and decimal digit strings.
- `Lists`: first-match search, as `find_one` does it.
- `JwtLib`: claims and the PyJWT interface.
- `Pydantic`: field names and constraint helpers.

The model follows these behaviours of the code:

- The draft editor checks only that the title is present and that the
  description has at least 30 characters. It does not check a 5–100 title
  length or a 600-character description limit.
- The app shell has only the references flag and the session status. It has
  no separate exclusive view flags and no logout.
- The token search in `App.js` is a regular-expression search. It takes the
  leftmost occurrence that is followed by a non-empty value, not simply the
  first occurrence of the key.
- The admin front end's refresh sends `has_*_links` values, but the admin
  service's `update_reference_link` takes a reference id, book name, link
  type and URL. The two halves are modelled separately.

## Model

| member | source | states |
|---|---|---|
| AdminDb.TriState | python/apps/admin/admin/db_clients.py:258-268 | code 1 means "yes", 2 means "no", and every other value, None included, means "any" |
| AdminDb.FlagCondition | python/apps/admin/admin/db_clients.py:258-268 | option 1 gives `field = True`, option 2 gives `field = False`, any other option gives no condition (each an if-and-only-if) |
| AdminDb.LinkCondition | python/apps/admin/admin/db_clients.py:355-371 | option 1 gives "link_type equals name", option 2 gives `$ne` name, any other option gives no condition |
| AdminDb.Opt | python/apps/admin/admin/db_clients.py:270-275 | a builder appends at most one entry per condition |
| AdminDb.FilterOf | python/apps/admin/admin/db_clients.py:276-281 | the filter is `{}` exactly when no condition was added |
| AdminDb.UsersFilter | python/apps/admin/admin/db_clients.py:257-281 | `get_users`' filter is `{}` iff both codes are "any"; it has one conjunct per given code, requested_join first and is_author last |
| AdminDb.ReferencesFilter | python/apps/admin/admin/db_clients.py:348-386 | `get_references`' filter is `{}` iff all three codes are "any"; it has one conjunct per given code, all on `books.book_links.link_type`, in the fixed order amazon, waterstones, bookdepository |
| AdminDb.UsersFilterRoundTrip | python/apps/admin/admin/db_clients.py:257-281 | reading the users filter back gives each flag's tri-state code, so no code is lost or confused with the other flag |
| AdminDb.ReferencesFilterRoundTrip | python/apps/admin/admin/db_clients.py:348-386 | reading the references filter back gives each link type's tri-state code |
| AdminDb.GetUserById | python/apps/admin/admin/db_clients.py:300-319 | the result is a stored user with that internal id; UserDoesNotExist is raised exactly when no user has that id, never None |
| Lists.FindFirst | python/apps/admin/admin/db_clients.py:247 | `find_one`: the first matching document, and None exactly when no document matches |
| AdminDb.SetDocument | python/apps/admin/admin/db_clients.py:324-328 | the `$set` holds exactly the non-None flags, with their values |
| AdminDb.ApplySet | python/apps/admin/admin/db_clients.py:330-333 | a `$set` changes exactly the named fields of the document it is applied to |
| AdminDb.UpdateUser | python/apps/admin/admin/db_clients.py:321-335 | only the first user whose `_id` matches is changed, and only in the supplied flags (every other field of every user is kept); the modified count is 1 exactly when the collection changed |
| AdminDb.UpdateUserOmittedFlagUntouched | python/apps/admin/admin/db_clients.py:324-333 | an update that omits is_author leaves every user's is_author as it was |
| AdminDb.GetOperator | python/apps/admin/admin/db_clients.py:228-243 | the operator returned has that username and the hash `encrypt_password` makes; None is returned exactly when no stored operator has that pair |
| AdminDb.GetOperatorByUsername | python/apps/admin/admin/db_clients.py:245-255 | the operator returned has that username; None is returned exactly when no operator does |
| AdminDb.OfType | python/apps/admin/admin/db_clients.py:403-406 | selecting the links of one type never yields more links than there are |
| AdminDb.OfTypeMeaning | python/apps/admin/admin/db_clients.py:403-406 | a link is among those of type t iff it is a link of type t; there are none iff no link has type t |
| AdminDb.OfTypeConcat | python/apps/admin/admin/db_clients.py:403-406 | selecting by type distributes over concatenation |
| AdminDb.EditLinks | python/apps/admin/admin/db_clients.py:400-422 | links of other types are unchanged; with no link of the type, exactly one `{link_type, link_url}` is appended, even for an empty URL; otherwise the first link of the type is removed in place (empty URL) or replaced in place by the new link, and every other link keeps its position |
| AdminDb.EditAppendsWhenAbsent | python/apps/admin/admin/db_clients.py:416-422 | appending the new link changes no other type's links |
| AdminDb.EditAtFirstOfType | python/apps/admin/admin/db_clients.py:407-415 | editing at the first link of the type touches only that link among the links of the type, and no other type's links |
| AdminDb.EditAtSameType | python/apps/admin/admin/db_clients.py:407-415 | after the edit, the links of the type are the replacement (if any) followed by the untouched later ones |
| AdminDb.EditAtOtherType | python/apps/admin/admin/db_clients.py:407-415 | the edit leaves the links of every other type unchanged |
| AdminDb.EditLinksReplacesInPlace | python/apps/admin/admin/db_clients.py:407-415 | a replaced link keeps its position, and every other position keeps its link |
| AdminDb.EditBooks | python/apps/admin/admin/db_clients.py:400-422 | books of other names are unchanged; every book of that name gets its links edited; a matching book without `book_links` makes the update fail |
| AdminDb.UpdateReferenceLink | python/apps/admin/admin/db_clients.py:397-429 | a missing reference raises; a reference without `books`, or with a matching book without `book_links`, raises the iteration error; otherwise the reference's books become exactly the edited books, only that reference changes, it keeps its title, and the modified count is 1 exactly when the store changed |
| ConsumerSearch.PrecedingHeader | python/apps/consumer/consumer/main.py:117-122 | the pending params, when there are any, are a header |
| ConsumerSearch.Queries | python/apps/consumer/consumer/main.py:118-125 | the non-header items are items of the body and are not headers |
| ConsumerSearch.Pair | python/apps/consumer/consumer/main.py:117-131 | the loop produces exactly the search list specified item by item |
| ConsumerSearch.ExpectedBodies | python/apps/consumer/consumer/main.py:118-131 | there is one search per non-header item, and the searches' bodies are those items in input order |
| ConsumerSearch.NoParamsWithoutHeader | python/apps/consumer/consumer/main.py:127-129 | a query that does not follow a header carries no params, because the params were cleared after use |
| ConsumerSearch.EmptyObjectIsAQuery | python/apps/consumer/consumer/main.py:119 | an empty object is not a header and adds one search |
| ConsumerSearch.TrailingHeaderDropped | python/apps/consumer/consumer/main.py:117-131 | a header with no query after it adds nothing |
| ConsumerSearch.SecondHeaderWins | python/apps/consumer/consumer/main.py:121 | of two headers in a row, the first is lost |
| ConsumerSearch.CollectResponses | python/apps/consumer/consumer/main.py:140-143 | there is one response entry per result, in order, each the result's dict |
| ProducerAuth.AuthTokenPayload | python/apps/producer/producer/auth/util.py:32-38 | an authentication token carries only `exp` |
| ProducerAuth.CreateAuthToken | python/apps/producer/producer/auth/util.py:20-47 | the returned token is the signed payload and is cached under the user's internal id; other cache entries are untouched |
| ProducerAuth.ValidateAuthToken | python/apps/producer/producer/auth/util.py:50-76 | a decode failure, or no non-empty cached id, fails with UnauthorizedUser and leaves the cache alone; success returns the user looked up for the cached id and deletes the entry |
| ProducerAuth.AuthTokenIsOneTime | python/apps/producer/producer/auth/util.py:71-72 | validating a token a second time after a success fails |
| ProducerAuth.CreateThenValidate | python/apps/producer/producer/auth/util.py:20-76 | a fresh token that the JWT library still accepts validates to the user looked up for the creating user's id, and its cache entry is then gone |
| ProducerAuth.SameSecondLoginsShareToken | python/apps/producer/producer/auth/util.py:32-45 | as written: two logins in the same second get the same token, so the second login overwrites the first one's cache entry and the first token validates to the second user |
| ProducerAuth.UniqueAuthTokenPayload | python/apps/producer/producer/auth/util.py:32-38 | corrected: the payload carries `exp` and a `jti` unique to the login |
| ProducerAuth.CreateUniqueAuthToken | python/apps/producer/producer/auth/util.py:20-47 | corrected: the token is the signed unique payload, cached under the user's internal id, with other cache entries untouched |
| ProducerAuth.UniqueTokensKeepLoginsApart | python/apps/producer/producer/auth/util.py:20-76 | corrected: two logins with different `jti` values get different tokens, and the first token still validates to the first user |
| ProducerAuth.AccessPayload | python/apps/producer/producer/auth/util.py:89-91 | the access-token payload is the token data's fields plus `exp` |
| ProducerAuth.CreateAccessToken | python/apps/producer/producer/auth/util.py:79-94 | the token signs a payload of exactly `sub`, `username` and `exp`, holding the data's id, its username and the expiry |
| ProducerAuth.ValidateAccessToken | python/apps/producer/producer/auth/util.py:97-123 | every failure (decode, missing `sub`, unknown user) is UnauthorizedUser; a decoded token with a `sub` gives exactly the user the lookup returns for it, and UnauthorizedUser when the lookup finds none |
| ProducerAuth.AccessTokenRoundTrip | python/apps/producer/producer/auth/util.py:79-123 | a token issued for some data validates to the user named by its `sub` (UnauthorizedUser when there is no such user) |
| ProducerAuth.CookieBearer | python/apps/producer/producer/auth/schemes.py:18-27 | a missing or empty cookie raises UnauthorizedUser; a one-word cookie fails at the index; otherwise the second word goes to the validator |
| ProducerAuth.CookieBearerCases | python/apps/producer/producer/auth/schemes.py:18-27 | "Bearer X" validates exactly X; "X" alone is an index error |
| ProducerAuth.AuthTokenBearer | python/apps/producer/producer/auth/schemes.py:34-42 | a missing header, or a scheme that is not "bearer" in any letter case, raises UnauthorizedUser; otherwise the token goes to the one-time validator |
| ProducerAuth.BearerSchemeIgnoresCase | python/apps/producer/producer/auth/schemes.py:37 | "Bearer" and "BEARER" are accepted as the scheme, and "Basic" is not |
| AdminAuth.ValidateUserCredentials | python/apps/admin/admin/auth/util.py:17-21 | login fails with UnauthorizedUser exactly when the operator lookup returns None |
| AdminAuth.RegisteredOperatorLogsIn | python/apps/admin/admin/auth/util.py:17-21 | an operator stored with `encrypt_password`'s hash logs in with that password, and a different password is refused |
| AdminAuth.AccessPayload | python/apps/admin/admin/auth/util.py:33-36 | the payload is `sub` plus `exp` |
| AdminAuth.CreateAccessToken | python/apps/admin/admin/auth/util.py:24-40 | the token signs a payload of exactly `sub` and `exp`, holding the operator's name and the expiry |
| AdminAuth.OperatorOfClaim | python/apps/admin/admin/auth/util.py:63 | a string `sub` naming a stored operator finds that operator |
| AdminAuth.ValidateAccessTokenAsWritten | python/apps/admin/admin/auth/util.py:53-68 | as written: a decode failure or a decoded token without `sub` gives UnauthorizedUser, a missing operator gives an attribute error on None, and success is the stored operator named by `sub` |
| AdminAuth.ValidateAccessToken | python/apps/admin/admin/auth/util.py:53-68 | as intended: every failure is UnauthorizedUser, and success returns a stored operator whose username is the token's `sub` and which is the first operator found for that claim |
| AdminAuth.MissingOperatorCrashes | python/apps/admin/admin/auth/util.py:63-66 | for a valid token whose operator is gone, the code as written raises on None, while the corrected code refuses |
| AdminAuth.CorrectionOnlyChangesMissingOperator | python/apps/admin/admin/auth/util.py:63-68 | the two validators differ only where the written one crashes |
| AdminAuth.AccessTokenRoundTrip | python/apps/admin/admin/auth/util.py:24-68 | a token issued for a stored operator, while the JWT library accepts it, validates to that operator |
| AdminAuth.CookieBearer | python/apps/admin/admin/auth/schemes.py:19-29 | a missing or empty cookie gives None (anonymous) without raising; a one-word cookie fails at the index; an operator is returned only for a two-word cookie whose second word the written validator accepts, and the validator's error (including the attribute error for a deleted operator) is passed on unchanged |
| AdminAuth.CookieBearerCases | python/apps/admin/admin/auth/schemes.py:25-29 | "Bearer X" gives exactly what the written validator gives for X; it succeeds exactly when the corrected validator succeeds; "X" alone is an index error |
| Encrypt.NormaliseUsername | python/apps/admin/admin/encrypt.py:15-16 | the normalised username has no spaces and no upper-case letters, is no longer than the input, and keeps every character other than letters and spaces as often as the input has it |
| Encrypt.NormalFormIsFixed | python/apps/admin/admin/encrypt.py:15-16 | a username without spaces or capitals is its own normal form |
| Encrypt.NormaliseIdempotent | python/apps/admin/admin/encrypt.py:15-16 | normalising twice is normalising once |
| Encrypt.SaltOfDigest | python/apps/admin/admin/encrypt.py:19-24 | the salt is the digest's first 21 characters followed by 'O' |
| Encrypt.EncryptPassword | python/apps/admin/admin/encrypt.py:5-27 | the hash is bcrypt of the password under the salt of any username with the same normal form; for a genuine SHA-256 digest that salt has 22 characters and ends in 'O' |
| Encrypt.SaltShape | python/apps/admin/admin/encrypt.py:18-24 | for a SHA-256 hex digest the salt has 22 characters: 21 lower-case hex digits, then 'O' |
| Encrypt.SaltIgnoresCase | python/apps/admin/admin/encrypt.py:15 | usernames that differ only in letter case share a salt |
| Encrypt.SaltIgnoresSpaces | python/apps/admin/admin/encrypt.py:16 | inserting a space into a username does not change its salt |
| Encrypt.HashDependsOnNormalisedName | python/apps/admin/admin/encrypt.py:15-27 | two usernames with the same normal form hash a password alike |
| AdminModels.RejectedSectionFields | python/apps/admin/admin/models/db_models.py:8-11 | a section is rejected exactly on a page outside 1..9999, each field on its own bound; the producer declares its sections the same way and uses this definition |
| AdminModels.SectionOrderUnconstrained | python/apps/admin/admin/models/db_models.py:10-11 | a section may end before it starts; pages 0 and 10000 are refused |
| AdminModels.ParseLinkType | python/apps/admin/admin/models/db_models.py:14-17 | a string parses to the link type with that value, and to none when no link type has it |
| AdminModels.LinkTypeRoundTrip | python/apps/admin/admin/models/db_models.py:14-17 | each link type parses back from its value |
| AdminModels.RejectedBookFields | python/apps/admin/admin/models/db_models.py:26-31 | a book is rejected exactly when its name is outside 5–100 characters, its author outside 5–50, it has other than 1–100 valid sections, or it has links of which some is invalid; the links field is flagged exactly when some link is invalid |
| AdminModels.LinksOptional | python/apps/admin/admin/models/db_models.py:31 | a book without `book_links` is judged on its other fields alone |
| AdminModels.ParseCategory | python/apps/admin/admin/models/db_models.py:34-47 | a string parses to the category with that value, and to none when no category has it |
| AdminModels.CategoriesAreThirteen | python/apps/admin/admin/models/db_models.py:34-47 | there are exactly 13 categories, with distinct values |
| AdminModels.CategoryRoundTrip | python/apps/admin/admin/models/db_models.py:34-47 | each category parses back from its value |
| AdminModels.RejectedReferenceFields | python/apps/admin/admin/models/db_models.py:55-62 | a reference is accepted exactly when no field is rejected; the id is rejected iff it is present and not 36 characters long; the rating is rejected iff a count is negative |
| AdminModels.RejectedReferenceFieldsEach | python/apps/admin/admin/models/db_models.py:58-61 | the title is rejected iff outside 5–100 characters, the category iff not one of the 13, the description iff outside 30–600 characters, the books iff not 1–50 valid books |
| ProducerModels.RejectedBookFields | python/apps/producer/producer/models/db_models.py:14-18 | a book is rejected exactly when its name is outside 5–100 characters, its author outside 5–50, or it has other than 1–100 valid sections |
| ProducerModels.ParseCategory | python/apps/producer/producer/models/db_models.py:21-29 | a string parses to the category with that value, and to none when no category has it |
| ProducerModels.CategoriesAreEight | python/apps/producer/producer/models/db_models.py:21-29 | there are exactly 8 categories, with distinct values |
| ProducerModels.CategoryRoundTrip | python/apps/producer/producer/models/db_models.py:21-29 | each category parses back from its value |
| ProducerModels.CategoriesDiffer | python/apps/producer/producer/models/db_models.py:21-29 | every producer category is also an admin category, and five admin categories are unknown to the producer |
| ProducerModels.RejectedReferenceFields | python/apps/producer/producer/models/db_models.py:32-39 | a reference is accepted exactly when no field is rejected; the id is rejected iff present and not 36 characters long; the rating is rejected iff present and outside 1–5 |
| ProducerModels.RejectedReferenceFieldsEach | python/apps/producer/producer/models/db_models.py:35-38 | the title, category, description and book bounds are each reported exactly when they fail |
| ProducerModels.AdminBook | python/apps/producer/producer/models/db_models.py:14-18 | a producer book read by the admin model keeps its name, author and sections and has no links |
| ProducerModels.AdminAcceptsProducerBook | python/apps/producer/producer/models/db_models.py:14-18 | a book the producer accepts, the admin model accepts too |
| ProducerModels.AdminAcceptsUnratedProducerReference | python/apps/producer/producer/models/db_models.py:32-39 | an unrated reference the producer accepts, the admin model accepts too |
| AdminAuthModels.RejectedLoginFields | python/apps/admin/admin/models/auth_models.py:15-17 | a login field is rejected iff it has fewer than 4 characters |
| AdminAuthModels.FilterOptionsMatchDbCodes | python/apps/admin/admin/models/auth_models.py:20-27 | the yes and no codes (1 and 2) are exactly the ones the database client turns into true and false conditions; an omitted code filters nothing |
| AdminAuthModels.RejectedUpdateFields | python/apps/admin/admin/models/auth_models.py:30-33 | an update request is rejected iff its id has fewer than 36 characters |
| AdminAuthModels.UpdateRequestOmittingAuthorKeepsIt | python/apps/admin/admin/models/auth_models.py:30-33 | an accepted request without is_author leaves every user's author flag unchanged |
| ReferenceEditor.PageText | react/apps/frontend/src/components/References.js:74-90 | an input reads as "" exactly when it is blank |
| ReferenceEditor.Get | react/apps/frontend/src/components/References.js:100-112 | `books[name]` is undefined exactly when the name has no entry |
| ReferenceEditor.Put | react/apps/frontend/src/components/References.js:100-112 | `books[name] = sections` makes the name map to those sections and leaves every other name alone |
| ReferenceEditor.PutNames | react/apps/frontend/src/components/References.js:100-112 | assigning an existing name keeps its place, and a new name goes last |
| ReferenceEditor.Remove | react/apps/frontend/src/components/References.js:115-123 | `delete books[name]` removes only that name |
| ReferenceEditor.RemoveKeepsDistinct | react/apps/frontend/src/components/References.js:115-123 | after a removal, book names are still distinct |
| ReferenceEditor.PutKeepsDistinct | react/apps/frontend/src/components/References.js:100-112 | after an assignment, book names are still distinct |
| ReferenceEditor.InitialInv | react/apps/frontend/src/components/References.js:12-25 | the initial draft satisfies the editor's invariant |
| ReferenceEditor.SetPages | react/apps/frontend/src/components/References.js:74-90 | a page change sets that book's inputs to the typed pages and changes nothing else in the draft |
| ReferenceEditor.SetPagesInv | react/apps/frontend/src/components/References.js:74-90 | a page change keeps the invariant |
| ReferenceEditor.AddBook | react/apps/frontend/src/components/References.js:92-113 | an empty name sets the error and changes nothing else; otherwise the book maps to no sections (an existing one is overwritten) and its inputs and the name input are reset |
| ReferenceEditor.AddBookKeepsPosition | react/apps/frontend/src/components/References.js:100-112 | re-adding an existing name keeps the book order |
| ReferenceEditor.RemoveBook | react/apps/frontend/src/components/References.js:115-123 | only that book goes; other books and all page inputs stay |
| ReferenceEditor.AddBookInv | react/apps/frontend/src/components/References.js:92-113 | adding a book keeps the invariant |
| ReferenceEditor.RemoveBookInv | react/apps/frontend/src/components/References.js:115-123 | removing a book keeps the invariant |
| ReferenceEditor.SectionVerdictAsWritten | react/apps/frontend/src/components/References.js:133-146 | as written: the negative-page message exactly when a page is negative; otherwise the order message exactly when the end sorts before the start as a string; otherwise the not-an-integer message exactly when a page is blank or fractional; otherwise no error |
| ReferenceEditor.SectionVerdict | react/apps/frontend/src/components/References.js:133-146 | as intended: the same checks in the same order, each message an if-and-only-if, with the order message exactly when the start is numerically greater than the end |
| ReferenceEditor.IntegerTextIsWholeNumber | react/apps/frontend/src/components/References.js:143 | `Number.isInteger(parseFloat(page))` holds for a typed page exactly when the number it reads as is whole |
| ReferenceEditor.ApplySection | react/apps/frontend/src/components/References.js:148-163 | an error changes only the error; a pass appends the section to that book only, clears that book's inputs and changes nothing else |
| ReferenceEditor.AddSectionAsWritten | react/apps/frontend/src/components/References.js:125-164 | as written: a refused section only sets the error; an accepted one is appended exactly as typed to that book, other books and the other inputs are unchanged, and that book's inputs are blanked |
| ReferenceEditor.AddSection | react/apps/frontend/src/components/References.js:125-164 | corrected: the same, and an appended section starts no later than it ends, numerically |
| ReferenceEditor.ApplySectionInv | react/apps/frontend/src/components/References.js:125-164 | adding a section keeps the invariant |
| ReferenceEditor.NineToTenRefused | react/apps/frontend/src/components/References.js:138 | pages 9 to 10 are refused as written and accepted when corrected |
| ReferenceEditor.TenToNineAccepted | react/apps/frontend/src/components/References.js:138 | pages 10 to 9 are accepted as written and refused when corrected |
| ReferenceEditor.SameLengthPagesAgree | react/apps/frontend/src/components/References.js:133-146 | with digit strings of equal length, the written and the corrected check agree |
| ReferenceEditor.DigitOrderIsNumericOrder | react/apps/frontend/src/components/References.js:138 | on digit strings of equal length, string order is numeric order |
| ReferenceEditor.ReferenceVerdict | react/apps/frontend/src/components/References.js:173-199 | each of the five messages exactly when its check is the first to fail (title, description, description of fewer than 30 UTF-16 code units, no book, a book without sections), and no error exactly when all pass |
| ReferenceEditor.BooksList | react/apps/frontend/src/components/References.js:193-205 | the payload has one book per entry, in entry order |
| ReferenceEditor.EventDate | react/apps/frontend/src/components/References.js:207-210 | the event date is the date followed by " 00:00:00", or null when there is no date |
| ReferenceEditor.AddReference | react/apps/frontend/src/components/References.js:166-217 | a refused draft only gets the error and sends nothing; an accepted one is left alone and the payload it sends carries its title, description, books and event date |
| ReferenceEditor.PayloadCarriesSections | react/apps/frontend/src/components/References.js:193-205 | each payload book carries exactly the sections stored under its name |
| ReferenceEditor.OnPutResponse | react/apps/frontend/src/components/References.js:225-242 | any answer, even a refusal, appends the reference; a 422 also sets an error; a failed request appends nothing and sets the failure error; nothing but the listed references and the error changes, so the form is not cleared |
| ReferenceEditor.AddReferenceInv | react/apps/frontend/src/components/References.js:166-242 | submitting and its response keep the invariant |
| ReferenceEditor.EditorChecksLessThanProducer | react/apps/frontend/src/components/References.js:173-199 | the editor sends a draft whose title of one to four characters the producer will refuse |
| ReferenceEditor.EditorAcceptsPageZero | react/apps/frontend/src/components/References.js:133-146 | the editor accepts a section from page 0 to page 0, which the producer refuses |
| SearchView.RenderPagination | react/apps/frontend/src/components/Search.js:122-160 | the loop builds exactly the bar described in closed form |
| SearchView.LoopIsWindow | react/apps/frontend/src/components/Search.js:125-158 | the loop's iterations add up to the closed-form bar |
| SearchView.WindowShape | react/apps/frontend/src/components/Search.js:125-158 | zero pages give no items; otherwise page 1 is first, and the last page is last when there are two or more; there are at most 7 items; each page is active iff it is the current one, and it targets its index |
| SearchView.WindowEllipses | react/apps/frontend/src/components/Search.js:133-152 | for an existing current page, an ellipsis follows page 1 iff currentPage > 2, and one precedes the last page iff currentPage+1 < totalPages-2 |
| SearchView.WindowIncreasing | react/apps/frontend/src/components/Search.js:125-160 | page numbers strictly increase along the bar and lie in 1..totalPages |
| SearchView.ActivePagePresent | react/apps/frontend/src/components/Search.js:128-155 | for an existing current page, its button is on the bar and is the only active one |
| SearchView.ToggleCategories | react/apps/frontend/src/components/Search.js:51-61 | an empty style becomes hidden, and any other becomes shown |
| SearchView.ToggleTwice | react/apps/frontend/src/components/Search.js:51-61 | toggling changes the style, and toggling twice restores it |
| SearchView.SetCategories | react/apps/frontend/src/components/Search.js:36-48 | there is one option per category, in order, labelled with the translation of `search.categories.<c>` |
| SearchView.SetCategoriesValues | react/apps/frontend/src/components/Search.js:36-48 | the options carry back exactly the categories they were built from |
| FrontendApp.Run | react/apps/frontend/src/components/App.js:32 | `[^&]+` takes the longest prefix without '&' |
| FrontendApp.FindToken | react/apps/frontend/src/components/App.js:32 | a found token comes from the leftmost match and is exactly the non-empty run of characters other than '&' there, ended by '&' or the end of the query; none is found iff the pattern matches nowhere |
| FrontendApp.ExtractAuthToken | react/apps/frontend/src/components/App.js:32 | the token is non-empty and has no '&'; it is undefined exactly when the pattern does not match |
| FrontendApp.TokenRoundTrip | react/apps/frontend/src/components/App.js:32 | `?authToken=t` followed by nothing or by `&...` yields t, and so does `?xauthToken=t` |
| FrontendApp.EmptyValueSkipped | react/apps/frontend/src/components/App.js:32 | an empty value does not match, and the search moves on to a later key |
| FrontendApp.Requests | react/apps/frontend/src/components/App.js:35-60 | with a token: the exchange with `Bearer <token>`, then the status check once the exchange is answered; without a token: the status check alone |
| FrontendApp.StatusCheckFollowsAnyAnswer | react/apps/frontend/src/components/App.js:53-57 | the status check follows the exchange whatever its status |
| FrontendApp.OnStatus | react/apps/frontend/src/components/App.js:62-77 | the login status is stored verbatim from the answer, and a failure changes nothing |
| FrontendApp.OpenReferences | react/apps/frontend/src/components/App.js:79-83 | opening sets referencesOn and keeps the session |
| FrontendApp.CloseReferences | react/apps/frontend/src/components/App.js:85-89 | closing clears referencesOn and keeps the session |
| FrontendApp.OpenCloseRoundTrip | react/apps/frontend/src/components/App.js:79-89 | closing undoes opening, and opening undoes closing |
| FrontendApp.ViewsExclusive | react/apps/frontend/src/components/App.js:106-116 | Search and References are never both shown; opened without a session, neither is |
| FrontendApp.Render | react/apps/frontend/src/components/App.js:91-116 | the search and references views never show together; the navbar offers My References exactly with a session, and the references view only beside it; the search view shows exactly while the references view is closed |
| FrontendApp.SessionWalkthrough | react/apps/frontend/src/components/App.js:91-116 | the first page shows Login and Search; a true status shows "My References"; opening swaps Search for References, and closing swaps them back |
| FrontendApp.StatusStoredVerbatim | react/apps/frontend/src/components/App.js:68-75 | a truthy non-boolean status counts as logged in, and an absent one does not |
| Account.AddError | react/apps/frontend/src/components/Account.js:28-32 | only the error changes |
| Account.OnDetails | react/apps/frontend/src/components/Account.js:34-54 | an answer stores the details, with createdAt the longest prefix of at most 10 UTF-16 code units; a failure, or a createdAt that is not a string, only sets the error |
| Account.CreatedAtIsDate | react/apps/frontend/src/components/Account.js:48 | a timestamp whose date part is 10 code units long is shown as that date |
| Js.Utf16Length | react/apps/frontend/src/components/References.js:183 | `.length` counts UTF-16 code units: at least one and at most two per character |
| Js.Utf16LengthOfBmp | react/apps/frontend/src/components/References.js:183 | below U+10000, `.length` is the number of characters |
| Js.SliceUnits | react/apps/frontend/src/components/Account.js:48 | `slice(0, n)` is the longest prefix of at most `n` code units; below U+10000 it is the first `n` characters |
| Js.SliceOfPrefix | react/apps/frontend/src/components/Account.js:48 | slicing at the length of a prefix gives that prefix |
| Js.StringLess | react/apps/frontend/src/components/References.js:138 | `a < b` on strings holds exactly when, past their longest common prefix, `a` has ended and `b` has not, or `a`'s next character is smaller |
| Js.StringLessIrreflexive | react/apps/frontend/src/components/References.js:138 | no string is less than itself |
| Js.StringLessTotal | react/apps/frontend/src/components/References.js:138 | of two different strings, one is less than the other |
| Text.Words | python/apps/admin/admin/auth/schemes.py:25 | `split()` gives non-empty words free of separators |
| Text.WordsKeepCharacters | python/apps/admin/admin/auth/schemes.py:25 | the words, joined, are exactly the string's non-separator characters in order |
| Text.WordsOfPair | python/apps/producer/producer/auth/schemes.py:23 | two words joined by a space split back into exactly those two words |
| Account.DismissError | react/apps/frontend/src/components/Account.js:88-92 | dismissing hides the alert |
| Account.FailureThenDismiss | react/apps/frontend/src/components/Account.js:34-54 | a failed load shows the alert, and dismissing it restores the earlier state |
| Account.AccountStatusKey | react/apps/frontend/src/components/Account.js:109-111 | the label is "author" iff isAuthor is truthy, and "user" otherwise |
| Account.ExactlyOneAuthorStatus | react/apps/frontend/src/components/Account.js:115-123 | exactly one author-status cell is drawn: confirmed iff requested and author; pending iff requested and not author; not requested iff not requested |
| Account.AuthorWithoutRequest | react/apps/frontend/src/components/Account.js:109-123 | an author who never requested is labelled author but shown as not requested |
| Account.OnDelete | react/apps/frontend/src/components/Account.js:56-73 | the page reloads iff `deleted` is truthy; an answer leaves the state alone; a failure sets the delete error |
| Account.UnconfirmedDeleteIsSilent | react/apps/frontend/src/components/Account.js:66-68 | false or a missing `deleted` neither reloads nor alerts |
| JoinUs.OnJoinResponse | react/apps/frontend/src/components/JoinUs.js:16-39 | the state mirrors `requested`; the alert, the join flag and the search callbacks run, in that order, iff it is truthy; a failure changes nothing and calls nothing |
| JoinUs.CallbacksOnce | react/apps/frontend/src/components/JoinUs.js:29-36 | no callback runs twice, and the join flag is only ever set to true |
| JoinUs.RefusalIsQuiet | react/apps/frontend/src/components/JoinUs.js:25-29 | a refusal, or an answer without `requested`, calls nothing |
| AdminFilters.FilterOfKey | react/apps/admin/src/components/Users.js:24-46 | key "0" gives null, "1" gives the yes code and "2" the no code (each an if-and-only-if) |
| AdminFilters.FilterLabel | react/apps/admin/src/components/Users.js:70-82 | the title is "-" iff null, "Yes" iff 1, "No" iff 2, and undefined otherwise |
| AdminFilters.ItemTextBecomesTitle | react/apps/admin/src/components/Users.js:136-147 | choosing an item makes its text the dropdown's title |
| AdminFilters.Code | python/apps/admin/admin/models/auth_models.py:25-27 | an optional integer field: null or a missing value is None; a number is itself; a boolean is 1 or 0; a string is accepted exactly when it is an optionally signed run of digits, as that integer, and refused otherwise |
| AdminFilters.CoercedCodes | python/apps/admin/admin/models/auth_models.py:25-27 | "1" and `true` select the yes code, "+2" the no code; `false` is 0 and "-1" is -1; "yes", "" and "-" are refused |
| AdminUsers.OnFilterResponse | react/apps/admin/src/components/Users.js:48-68 | the list and the filters it was requested with are stored together on an answer, and the render throws exactly when the answer has no `users`; a failure changes nothing |
| AdminUsers.ChoiceKeepsOtherFilter | react/apps/admin/src/components/Users.js:24-46 | a dropdown choice, once answered, keeps the other filter and shows the chosen text |
| AdminUsers.DropdownsSelectDbFilter | react/apps/admin/src/components/Users.js:24-46 | the database filter holds each flag's code for the chosen key |
| AdminUsers.Checkbox | react/apps/admin/src/components/Users.js:187-199 | a checkbox is checked, and labelled "Yes", iff the flag is truthy |
| AdminUsers.ToggleRequestedJoin | react/apps/admin/src/components/Users.js:84-102 | the update names the user and carries only the requested-join flag |
| AdminUsers.ToggleIsAuthor | react/apps/admin/src/components/Users.js:104-122 | the update names the user and carries only the is-author flag |
| AdminUsers.OnUpdateResponse | react/apps/admin/src/components/Users.js:96-99 | the list is fetched again with the current filters iff `success` is truthy |
| AdminUsers.ToggleKeepsOtherFlag | react/apps/admin/src/components/Users.js:84-102 | a requested-join checkbox sends an accepted request that cannot touch any user's author flag |
| AdminReferences.OnFilterResponse | react/apps/admin/src/components/References.js:68-90 | the list and the three filters are committed together on an answer; a failure changes nothing; after an answer the render throws exactly when the answer has no `references`, or lists a reference without `books` or with a book without `book_links` |
| AdminReferences.ChoiceChangesOnlyItsDropdown | react/apps/admin/src/components/References.js:29-66 | a choice, once answered, changes only its own dropdown's filter and title |
| AdminReferences.DropdownsSelectDbFilter | react/apps/admin/src/components/References.js:29-66 | the database filter holds each link type's code for its chosen key |
| AdminReferences.InstallKeepsLastDefinition | react/apps/admin/src/components/References.js:113-183 | every defined handler name is installed, and it gets its last definition |
| AdminReferences.LaterDefinitionWins | react/apps/admin/src/components/References.js:113-183 | the component has two update handlers; `updateAmazon` sends the bookdepository flag, and no handler sends the amazon flag |
| AdminReferences.OnUpdateResponseAsWritten | react/apps/admin/src/components/References.js:127-131 | as written: a truthy success refreshes with amazon undefined and the other two filters |
| AdminReferences.OnUpdateResponse | react/apps/admin/src/components/References.js:127-131 | corrected: a truthy success refreshes with the three current filters |
| AdminReferences.RefreshDropsAmazonFilter | react/apps/admin/src/components/References.js:127-131 | with amazon "Yes", the written refresh loses the amazon filter and the corrected one keeps it |
| AdminReferences.CorrectionOnlyChangesAmazon | react/apps/admin/src/components/References.js:127-131 | the two refreshes differ only in the amazon value |
| AdminReferences.Cells | react/apps/admin/src/components/References.js:275-277 | a column draws one span per link, with the URL exactly for links of its own type |
| AdminReferences.BookCells | react/apps/admin/src/components/References.js:275 | a book without `book_links` makes `book.book_links.map`, and with it the render, throw |
| AdminReferences.ColumnShowsLinksOfItsType | react/apps/admin/src/components/References.js:275-305 | a column shows exactly the URLs of its type's links, in order |
| AdminReferences.ColumnsPartitionLinks | react/apps/admin/src/components/References.js:275-305 | a link of one of the three types shows in exactly its own column, and any other link in none |
| AdminReferences.Column | react/apps/admin/src/components/References.js:271-283 | a link column is drawn exactly when every book of the reference has `book_links`, and then holds each book's cells in order |
| AdminReferences.RenderRow | react/apps/admin/src/components/References.js:267-307 | a reference's row is drawn exactly when it has `books` and every book has `book_links`; the row carries its title and the three columns |
| AdminReferences.Rows | react/apps/admin/src/components/References.js:267-307 | the rows are drawn exactly when every listed reference can be drawn, one row per reference, in order |
| AdminReferences.Table | react/apps/admin/src/components/References.js:267-307 | the table is drawn exactly when `references` is present and every reference in it can be drawn |
| AdminReferences.BookCellsCorrected | react/apps/admin/src/components/References.js:275 | corrected: a book without `book_links` draws no spans; otherwise it draws what the written code draws |
| AdminReferences.ColumnCorrected | react/apps/admin/src/components/References.js:271-283 | corrected: one cell list per book, in order |
| AdminReferences.RenderRowCorrected | react/apps/admin/src/components/References.js:267-307 | corrected: only a reference without `books` throws, and a drawable reference's row is the written one |
| AdminReferences.ColumnsAgree | react/apps/admin/src/components/References.js:271-283 | where every book has links, the corrected column is the written one |
| AdminReferences.TableCorrected | react/apps/admin/src/components/References.js:267-307 | corrected: the table is drawn exactly when every listed reference has `books` |
| AdminReferences.CorrectionOnlyChangesCrashes | react/apps/admin/src/components/References.js:267-307 | the corrected table equals the written one wherever the written one renders |
| AdminReferences.UnlinkedBookCrashesPage | react/apps/admin/src/components/References.js:275 | a listed reference whose book has no `book_links` crashes the written page; the corrected page draws it with three empty columns |

## Left out

- HTTP, `fetch`, Motor/MongoDB sessions, Elasticsearch execution and FastAPI routing are left out. Requests are values, and outcomes are parameters.
- MongoDB's own matching of `books.book_links.link_type` against stored documents is left out. Only the filter documents are modelled.
- PyJWT, SHA-256, bcrypt and `get_authorization_scheme_param` are function parameters. Token expiry and the clock are inside the JWT `decode` parameter.
- The aiocache store is modelled as a `map`. Concurrent validations of one token are not modelled.
- Translation (`t`) is a function parameter.
- `componentDidMount` loads are not modelled. Promise ordering, overlapping clicks and double submissions are left out too: they are concurrency.
- Rendering is modelled only as the decisions the components make: which items, labels, cells and views are shown. JSX is left out.
- Logging, the exception modules and the module-level `print` in `encrypt.py` are left out.
- The admin service endpoint that receives the admin front end's `has_*_links` updates is not part of this model.
- The admin `FilterReferencesRequest` model is not part of this model. Its fields are taken to be optional integers, like `FilterUsersRequest`.
- Js.Num: holds integers only. A JSON number with a fraction is left out; pydantic's `int()` would truncate it (1.9 reads as the yes code 1).
- `Js.Value` has no arrays or objects. A `created_at` that is an array (which has `.slice`) is left out.
- ReferenceEditor.PageText: number inputs hold "" or a decimal numeral; exponent notation ("1e3") is left out.
- ReferenceEditor.Get: integer-like book names, which JavaScript objects order before other keys, are left out. Books keep insertion order.
- ReferenceEditor.AddReference: the payload is a copy of the draft's sections. The source shares the arrays, so a later mutation through the draft would show in the listed reference.
- Text.Words: `str.split()` separates on the ASCII whitespace Python's `str.isspace()` accepts (tab, line feed, vertical tab, form feed, carriage return, U+001C..U+001F and space); non-ASCII whitespace such as U+0085 and U+00A0 is not a separator in the model.
- AdminDb.UpdateUser: it matches `_id` against the given internal id, as the code does. Whether `_id` equals `internal_sub_id` in stored data is a property of the data, not of the code.
- Encrypt.NormaliseUsername: `str.lower()` is modelled on ASCII letters only; Python also lowers other cased letters (for example "É").
- Encrypt.SaltIgnoresCase: proved for usernames that differ in ASCII letter case only, because the model lowers ASCII letters only.
- ReferenceEditor.SectionVerdict: pages are compared as exact decimals; JavaScript's double rounding and `Infinity` for very long numerals are not modelled.
- ReferenceEditor.SectionVerdictAsWritten: the integer check reads the numeral exactly; JavaScript's double rounding (a long fraction that rounds to an integer) is not modelled.
- ReferenceEditor.IsIntegerText: `parseFloat` is read exactly, without double rounding or `Infinity`.
- ReferenceEditor.Put: a book named `__proto__` sets the object's prototype in JavaScript and does not become an entry; the model treats it as an ordinary name.
- ReferenceEditor.PutNames: a new name `__proto__` is not listed by JavaScript at all; the model puts it last like any other name.
- ReferenceEditor.AddBook: a book named `__proto__` is not added as an entry in JavaScript; the model adds it.
- Js.SliceUnits: when the cut falls inside a surrogate pair, JavaScript keeps the lone high surrogate; a `char` cannot hold one, so the model stops before the pair.
- Js.StringLess: compares Unicode scalar values; JavaScript compares code units, which differs only between a character above U+FFFF and one in U+E000..U+FFFF.
- AdminFilters.Code: `int()` also accepts surrounding whitespace, `_` between digits and non-ASCII decimal digits; these strings are modelled as refused.
- AdminUsers.OnFilterResponse: a `users` value that is present but not an array is not modelled; the body is either a list or missing.
- AdminReferences.OnFilterResponse: a `references` value that is present but not an array is not modelled; the body is either a list or missing.
- AdminReferences.InstallKeepsLastDefinition: the update handlers are never wired to a checkbox in the page's render. Only which handler each name ends up with is modelled.

## Findings

| source | as written | input that shows it | evidently intended | confidence | as-written member | corrected member |
|---|---|---|---|---|---|---|
| react/apps/frontend/src/components/References.js:138 | `startingPage > endingPage` compares the two input strings lexicographically | starting page "9", ending page "10": refused with "Starting page should be less than the ending page"; "10" to "9" is accepted | the pages compared as numbers | not executed | ReferenceEditor.AddSectionAsWritten, ReferenceEditor.SectionVerdictAsWritten, ReferenceEditor.NineToTenRefused | ReferenceEditor.AddSection, ReferenceEditor.SectionVerdict |
| python/apps/admin/admin/auth/util.py:66 | when no operator has the token's username, the error message reads `admin_user.username` on None | a valid token whose operator was deleted: AttributeError instead of UnauthorizedUser | raise UnauthorizedUser naming the token's username | not executed | AdminAuth.ValidateAccessTokenAsWritten, AdminAuth.MissingOperatorCrashes | AdminAuth.ValidateAccessToken |
| react/apps/admin/src/components/References.js:127-131 | the refresh after an update passes `this.state.amazon`, which is never set (the state field is `amazon_filter`) | amazon filter "Yes" and a successful update: the list is refetched with `has_amazon_links` undefined | refresh with `this.state.amazon_filter`; no checkbox is wired to these handlers in the render today, so the refresh is currently unreachable | not executed | AdminReferences.OnUpdateResponseAsWritten, AdminReferences.RefreshDropsAmazonFilter | AdminReferences.OnUpdateResponse |
| python/apps/producer/producer/auth/util.py:32-45 | the authentication token's payload is only `exp`, computed to the second, and the token is the cache key | two users logging in within the same second: both get the same token, the second `cache.set` overwrites the first, and the first user's token yields the second user | a payload unique to each login, such as a random `jti` claim | not executed | ProducerAuth.SameSecondLoginsShareToken | ProducerAuth.CreateUniqueAuthToken, ProducerAuth.UniqueTokensKeepLoginsApart |
| react/apps/admin/src/components/References.js:275 | the table maps `book.book_links` of every listed book, and the admin service returns `book_links` as null for a book stored without links, which is every book the producer service stores | one reference whose one book has no links: `null.map` throws a TypeError and the references page does not render | draw a book without links as an empty column, mapping over an empty list in place of `null` | not executed | AdminReferences.Table, AdminReferences.UnlinkedBookCrashesPage | AdminReferences.TableCorrected, AdminReferences.CorrectionOnlyChangesCrashes |

=== FILE: account.dfy ===
/** The account page of the front end
    (react/apps/frontend/src/components/Account.js): loading the account
    details, the status labels, the error alert and account deletion.

    Translation (`t`) is a function parameter; the labels are the
    translation keys the page looks up. */
module Account {
  import Js

  /** The details response, field by field as `data['...']` reads them. */
  datatype Details = Details(username: Js.Value, isAuthor: Js.Value, requestedJoin: Js.Value, createdAt: Js.Value)

  /** The component state. `createdAt` is `None` until details arrive
      (`null` in the source); `error` is whatever `addError` was given. */
  datatype AccountState = AccountState(
    username: Js.Value,
    isAuthor: Js.Value,
    requestedJoin: Js.Value,
    createdAt: Js.Value,
    error: Js.Value)

  const Initial: AccountState := AccountState(Js.Null, Js.Bool(false), Js.Bool(false), Js.Null, Js.Null)

  const ERROR_GET_DETAILS: string := "myaccount.error.getdetails"
  const ERROR_DELETE: string := "myaccount.error.delete"

  /** `addError`. */
  function AddError(s: AccountState, error: Js.Value): (r: AccountState)
    ensures r.error == error
    ensures r.(error := s.error) == s
  {
    s.(error := error)
  }

  /** The handler of `getAccountDetails`. The new state is built before it is
      stored, so when `created_at` is not a string its `.slice` throws, the
      `.catch` handler runs, and only the error changes. The same happens
      when the request or the body decoding fails. */
  function OnDetails(s: AccountState, outcome: Js.Fetch<Details>, t: string -> string): (r: AccountState)
    ensures (outcome.Failed? || !outcome.body.createdAt.Str?) ==> r == AddError(s, Js.Str(t(ERROR_GET_DETAILS)))
    ensures outcome.Responded? && outcome.body.createdAt.Str? ==>
      && r.username == outcome.body.username
      && r.isAuthor == outcome.body.isAuthor
      && r.requestedJoin == outcome.body.requestedJoin
      && r.createdAt == Js.Str(Js.SliceUnits(outcome.body.createdAt.s, 10))
      && r.error == s.error
  {
    match outcome
    case Failed => AddError(s, Js.Str(t(ERROR_GET_DETAILS)))
    case Responded(_, d) =>
      if !d.createdAt.Str? then AddError(s, Js.Str(t(ERROR_GET_DETAILS)))
      else s.(username := d.username, isAuthor := d.isAuthor, requestedJoin := d.requestedJoin,
              createdAt := Js.Str(Js.SliceUnits(d.createdAt.s, 10)))
  }

  /** An ISO timestamp is shown as its date. */
  lemma CreatedAtIsDate(s: AccountState, status: int, d: Details, date: string, time: string, t: string -> string)
    requires Js.Utf16Length(date) == 10
    requires d.createdAt == Js.Str(date + "T" + time)
    ensures OnDetails(s, Js.Responded(status, d), t).createdAt == Js.Str(date)
  {
    assert date + "T" + time == date + ("T" + time);
    Js.SliceOfPrefix(date, "T" + time);
  }

  /** The alert is shown while the error is truthy; closing it stores `null`. */
  predicate AlertShown(s: AccountState) {
    Js.Truthy(s.error)
  }

  function DismissError(s: AccountState): (r: AccountState)
    ensures !AlertShown(r)
  {
    AddError(s, Js.Null)
  }

  /** A failed load shows the alert (whenever the translation is not empty),
      and dismissing it restores the state from before the failure when no
      error was shown then. */
  lemma FailureThenDismiss(s: AccountState, t: string -> string)
    requires t(ERROR_GET_DETAILS) != ""
    requires s.error == Js.Null
    ensures AlertShown(OnDetails(s, Js.Failed, t))
    ensures DismissError(OnDetails(s, Js.Failed, t)) == s
  {
  }

  /** The "account status" cell: the author label exactly when `isAuthor` is
      truthy. */
  function AccountStatusKey(s: AccountState): (key: string)
    ensures key == "myaccount.author" || key == "myaccount.user"
    ensures key == "myaccount.author" <==> Js.Truthy(s.isAuthor)
  {
    if Js.Truthy(s.isAuthor) then "myaccount.author" else "myaccount.user"
  }

  /** The "author status" row: three conditional cells, in order. */
  function AuthorStatusCells(s: AccountState): seq<string> {
    (if Js.Truthy(s.requestedJoin) && Js.Truthy(s.isAuthor) then ["myaccount.confirmed"] else [])
    + (if Js.Truthy(s.requestedJoin) && !Js.Truthy(s.isAuthor) then ["myaccount.pending"] else [])
    + (if !Js.Truthy(s.requestedJoin) then ["myaccount.notrequested"] else [])
  }

  /** Whatever the two flags hold, exactly one author-status cell is drawn:
      confirmed for a requested and granted join, pending for a requested
      one not yet granted, not requested otherwise. */
  lemma ExactlyOneAuthorStatus(s: AccountState)
    ensures |AuthorStatusCells(s)| == 1
    ensures AuthorStatusCells(s)[0] == "myaccount.confirmed" <==> Js.Truthy(s.requestedJoin) && Js.Truthy(s.isAuthor)
    ensures AuthorStatusCells(s)[0] == "myaccount.pending" <==> Js.Truthy(s.requestedJoin) && !Js.Truthy(s.isAuthor)
    ensures AuthorStatusCells(s)[0] == "myaccount.notrequested" <==> !Js.Truthy(s.requestedJoin)
  {
  }

  /** An author who never requested to join is labelled an author but shown
      as not requested, since the two cells read different flags. */
  lemma AuthorWithoutRequest()
    ensures var s := Initial.(isAuthor := Js.Bool(true));
      AccountStatusKey(s) == "myaccount.author" && AuthorStatusCells(s) == ["myaccount.notrequested"]
  {
  }

  /** The handler of `deleteAccount`: the new state, and whether the page is
      reloaded. `body` is the response's `deleted` field. */
  function OnDelete(s: AccountState, outcome: Js.Fetch<Js.Value>, t: string -> string): (r: (AccountState, bool))
    ensures r.1 <==> outcome.Responded? && Js.Truthy(outcome.body)
    ensures outcome.Responded? ==> r.0 == s
    ensures outcome.Failed? ==> r.0 == AddError(s, Js.Str(t(ERROR_DELETE)))
  {
    match outcome
    case Failed => (AddError(s, Js.Str(t(ERROR_DELETE))), false)
    case Responded(_, deleted) => (s, Js.Truthy(deleted))
  }

  /** A response that does not confirm the deletion leaves the page as it
      was, with no alert of its own. */
  lemma UnconfirmedDeleteIsSilent(s: AccountState, status: int)
    ensures OnDelete(s, Js.Responded(status, Js.Bool(false)), x => x) == (s, false)
    ensures OnDelete(s, Js.Responded(status, Js.Undefined), x => x) == (s, false)
    ensures OnDelete(s, Js.Responded(status, Js.Bool(true)), x => x) == (s, true)
  {
  }
}

=== FILE: admin_auth.dfy ===
/** Operator login and access tokens of the admin service
    (python/apps/admin/admin/auth/util.py) and the cookie scheme that reads
    the access token from a request (python/apps/admin/admin/auth/schemes.py).

    Operators are looked up in `AdminDb`; SHA-256 and bcrypt are the function
    parameters of `Encrypt`. */
module AdminAuth {
  import opened Wrappers
  import opened JwtLib
  import Text
  import Encrypt
  import AdminDb

  datatype AuthError =
    | UnauthorizedUser
    | NoneHasNoAttribute   // `admin_user.username` read on `None`
    | IndexError           // `split()[1]` on a cookie with fewer than two words

  /** The operators table and the hashing primitives it was written with. */
  datatype Operators = Operators(rows: seq<AdminDb.AdminUser>, sha: string -> string, bcrypt: (string, string) -> string)

  /** `validate_user_credentials`: refuse unless an operator with this
      username stores the hash of this password. */
  function ValidateUserCredentials(ops: Operators, username: string, password: string): (r: Result<(), AuthError>)
    ensures r.Err? ==> r.error == UnauthorizedUser
    ensures r.Ok? <==>
      AdminDb.AdminUser(username, Encrypt.EncryptPassword(username, password, ops.sha, ops.bcrypt)) in ops.rows
  {
    if AdminDb.GetOperator(ops.rows, username, password, ops.sha, ops.bcrypt).None? then Err(UnauthorizedUser)
    else Ok(())
  }

  /** An operator whose stored hash was made by `encrypt_password` from the
      same username and password can log in, and a different password that
      hashes differently cannot. */
  lemma RegisteredOperatorLogsIn(ops: Operators, username: string, password: string, wrong: string)
    requires AdminDb.AdminUser(username, Encrypt.EncryptPassword(username, password, ops.sha, ops.bcrypt)) in ops.rows
    requires forall o :: o in ops.rows && o.username == username ==>
      o.password != Encrypt.EncryptPassword(username, wrong, ops.sha, ops.bcrypt)
    ensures ValidateUserCredentials(ops, username, password).Ok?
    ensures ValidateUserCredentials(ops, username, wrong) == Err(UnauthorizedUser)
  {
    var bad := AdminDb.AdminUser(username, Encrypt.EncryptPassword(username, wrong, ops.sha, ops.bcrypt));
    assert bad.username == username;
  }

  /** `AccessTokenData`: the operator's username. */
  datatype AccessTokenData = AccessTokenData(sub: string)

  /** `access_token_data.dict()` updated with `exp`. */
  function AccessPayload(data: AccessTokenData, exp: int): (p: Payload)
    ensures p.Keys == {"sub", "exp"}
    ensures p["sub"] == CStr(data.sub) && p["exp"] == CTime(exp)
  {
    map["sub" := CStr(data.sub)]["exp" := CTime(exp)]
  }

  /** `create_access_token`: the token signs the operator's name as `sub`
      and the expiry as `exp`, and nothing else. */
  function CreateAccessToken(jwt: Jwt, data: AccessTokenData, exp: int): (token: string)
    ensures exists p ::
      && token == jwt.encode(p) && p.Keys == {"sub", "exp"}
      && p["sub"] == CStr(data.sub) && p["exp"] == CTime(exp)
  {
    jwt.encode(AccessPayload(data, exp))
  }

  /** `get_operator_by_username` given the decoded `sub` claim: a claim that
      is not a string names no stored operator. */
  function OperatorOfClaim(ops: Operators, sub: Claim): (r: Option<AdminDb.AdminUser>)
    ensures r.Some? ==> sub.CStr? && r.value in ops.rows && r.value.username == sub.s
    ensures sub.CStr? && (exists o :: o in ops.rows && o.username == sub.s) ==> r.Some?
  {
    if sub.CStr? then AdminDb.GetOperatorByUsername(ops.rows, sub.s) else None
  }

  /** `validate_access_token` as written: when no operator has the token's
      username, line 66 formats `admin_user.username` with `admin_user` being
      `None`, so the request fails with an attribute error instead of the
      intended `UnauthorizedUser`. */
  function ValidateAccessTokenAsWritten(ops: Operators, jwt: Jwt, token: string): (r: Result<AdminDb.AdminUser, AuthError>)
    ensures jwt.decode(token).None? ==> r == Err(UnauthorizedUser)
    ensures jwt.decode(token).Some? && !HasSub(jwt.decode(token).value) ==> r == Err(UnauthorizedUser)
    ensures r.Ok? ==> (jwt.decode(token).Some? && HasSub(jwt.decode(token).value)
                       && OperatorOfClaim(ops, jwt.decode(token).value["sub"]) == Some(r.value))
    ensures (jwt.decode(token).Some? && HasSub(jwt.decode(token).value)
             && OperatorOfClaim(ops, jwt.decode(token).value["sub"]).None?) ==> r == Err(NoneHasNoAttribute)
  {
    match jwt.decode(token)
    case None => Err(UnauthorizedUser)
    case Some(payload) =>
      if !HasSub(payload) then Err(UnauthorizedUser)
      else match OperatorOfClaim(ops, payload["sub"])
        case None => Err(NoneHasNoAttribute)
        case Some(op) => Ok(op)
  }

  /** `validate_access_token` as evidently intended: every failure is
      `UnauthorizedUser`. */
  function ValidateAccessToken(ops: Operators, jwt: Jwt, token: string): (r: Result<AdminDb.AdminUser, AuthError>)
    ensures r.Err? ==> r.error == UnauthorizedUser
    ensures r.Ok? <==> (jwt.decode(token).Some? && HasSub(jwt.decode(token).value)
                        && OperatorOfClaim(ops, jwt.decode(token).value["sub"]).Some?)
    ensures r.Ok? ==> r.value in ops.rows && r.value.username == jwt.decode(token).value["sub"].s
    ensures r.Ok? ==> OperatorOfClaim(ops, jwt.decode(token).value["sub"]) == Some(r.value)
  {
    match jwt.decode(token)
    case None => Err(UnauthorizedUser)
    case Some(payload) =>
      if !HasSub(payload) then Err(UnauthorizedUser)
      else match OperatorOfClaim(ops, payload["sub"])
        case None => Err(UnauthorizedUser)
        case Some(op) => Ok(op)
  }

  /** A valid token whose operator has since been removed: the code as
      written answers with an attribute error, the corrected one refuses. */
  lemma MissingOperatorCrashes(ops: Operators, jwt: Jwt, token: string, username: string)
    requires jwt.decode(token).Some? && "sub" in jwt.decode(token).value
    requires jwt.decode(token).value["sub"] == CStr(username)
    requires forall o :: o in ops.rows ==> o.username != username
    ensures ValidateAccessTokenAsWritten(ops, jwt, token) == Err(NoneHasNoAttribute)
    ensures ValidateAccessToken(ops, jwt, token) == Err(UnauthorizedUser)
  {
  }

  /** The two differ only in that error. */
  lemma CorrectionOnlyChangesMissingOperator(ops: Operators, jwt: Jwt, token: string)
    ensures ValidateAccessTokenAsWritten(ops, jwt, token) != ValidateAccessToken(ops, jwt, token) ==>
      (ValidateAccessTokenAsWritten(ops, jwt, token) == Err(NoneHasNoAttribute)
       && ValidateAccessToken(ops, jwt, token) == Err(UnauthorizedUser))
  {
  }

  /** A token the library accepts as issued for a stored operator validates
      to that operator. */
  lemma AccessTokenRoundTrip(ops: Operators, jwt: Jwt, op: AdminDb.AdminUser, exp: int)
    requires op in ops.rows
    requires forall o :: o in ops.rows && o.username == op.username ==> o == op
    requires jwt.decode(CreateAccessToken(jwt, AccessTokenData(op.username), exp))
      == Some(AccessPayload(AccessTokenData(op.username), exp))
    ensures ValidateAccessToken(ops, jwt, CreateAccessToken(jwt, AccessTokenData(op.username), exp)) == Ok(op)
  {
  }

  /** `AccessTokenCookieBearer`: no cookie means no operator (`None`), not a
      refusal; otherwise the second word of the cookie is validated by
      `validate_access_token` as written, so a token whose operator is gone
      ends in the attribute error. */
  function CookieBearer(cookie: Option<string>, ops: Operators, jwt: Jwt): (r: Result<Option<AdminDb.AdminUser>, AuthError>)
    ensures (cookie.None? || cookie == Some("")) ==> r == Ok(None)
    ensures cookie.Some? && cookie.value != "" && |Text.Words(cookie.value)| < 2 ==> r == Err(IndexError)
    ensures r.Ok? && r.value.Some? ==> (cookie.Some? && |Text.Words(cookie.value)| >= 2
                                        && ValidateAccessTokenAsWritten(ops, jwt, Text.Words(cookie.value)[1]) == Ok(r.value.value))
    ensures cookie.Some? && |Text.Words(cookie.value)| >= 2 && ValidateAccessTokenAsWritten(ops, jwt, Text.Words(cookie.value)[1]).Err?
      ==> r == Err(ValidateAccessTokenAsWritten(ops, jwt, Text.Words(cookie.value)[1]).error)
  {
    if cookie.None? || cookie.value == "" then Ok(None)
    else
      var words := Text.Words(cookie.value);
      if |words| < 2 then Err(IndexError)
      else match ValidateAccessTokenAsWritten(ops, jwt, words[1])
        case Err(e) => Err(e)
        case Ok(op) => Ok(Some(op))
  }

  /** "Bearer X" gives X's operator or the error validating X raises, so a
      removed operator surfaces as the attribute error; a one-word cookie
      fails at the index. */
  lemma CookieBearerCases(scheme: string, token: string, ops: Operators, jwt: Jwt)
    requires Text.IsWord(scheme) && Text.IsWord(token)
    ensures CookieBearer(Some(scheme + " " + token), ops, jwt)
      == (match ValidateAccessTokenAsWritten(ops, jwt, token)
          case Ok(op) => Ok(Some(op))
          case Err(e) => Err(e))
    ensures CookieBearer(Some(scheme + " " + token), ops, jwt).Ok? <==> ValidateAccessToken(ops, jwt, token).Ok?
    ensures CookieBearer(Some(token), ops, jwt) == Err(IndexError)
  {
    Text.WordsOfPair(scheme, token);
    Text.WordsOfWord(token);
    CorrectionOnlyChangesMissingOperator(ops, jwt, token);
  }
}

=== FILE: admin_auth_models.dfy ===
/** The request models of the admin service's login and user endpoints
    (python/apps/admin/admin/models/auth_models.py). */
module AdminAuthModels {
  import opened Wrappers
  import opened Pydantic
  import AdminDb

  /** `LoginRequest`: both fields `constr(min_length=4)`. */
  datatype LoginRequest = LoginRequest(username: string, password: string)

  function RejectedLoginFields(req: LoginRequest): (fs: set<Field>)
    ensures fs <= {Username, Password}
    ensures Username in fs <==> |req.username| < 4
    ensures Password in fs <==> |req.password| < 4
  {
    Report(|req.username| >= 4, Username) + Report(|req.password| >= 4, Password)
  }

  /** `FilterOptions`: the codes the admin front end sends for "yes" and "no". */
  const FILTER_YES := 1
  const FILTER_NO := 2

  /** `FilterUsersRequest`: both codes optional, any integer accepted. */
  datatype FilterUsersRequest = FilterUsersRequest(requestedJoin: Option<int>, isAuthor: Option<int>)

  /** The filter options are exactly the codes the database client turns
      into conditions: "yes" asks for the flag set, "no" for it cleared, and
      an omitted code asks for nothing. */
  lemma FilterOptionsMatchDbCodes(field: string)
    ensures AdminDb.FlagCondition(field, Some(FILTER_YES)) == Some(AdminDb.Condition(field, AdminDb.Eq(AdminDb.BoolValue(true))))
    ensures AdminDb.FlagCondition(field, Some(FILTER_NO)) == Some(AdminDb.Condition(field, AdminDb.Eq(AdminDb.BoolValue(false))))
    ensures AdminDb.FlagCondition(field, None).None?
    ensures AdminDb.UsersFilter(None, None) == AdminDb.MatchAll
  {
  }

  /** `UpdateUserRequest`: an id of at least 36 characters and two
      optional flags. */
  datatype UpdateUserRequest = UpdateUserRequest(internalSubId: string, requestedJoin: Option<bool>, isAuthor: Option<bool>)

  function RejectedUpdateFields(req: UpdateUserRequest): (fs: set<Field>)
    ensures fs <= {InternalSubId}
    ensures fs == {} <==> |req.internalSubId| >= 36
  {
    Report(|req.internalSubId| >= 36, InternalSubId)
  }

  /** An accepted update request that omits a flag leaves that flag alone
      in the stored user. */
  lemma UpdateRequestOmittingAuthorKeepsIt(users: seq<AdminDb.UserDoc>, req: UpdateUserRequest)
    requires RejectedUpdateFields(req) == {} && req.isAuthor.None?
    ensures var (users', _) := AdminDb.UpdateUser(users, req.internalSubId, req.requestedJoin, req.isAuthor);
      |users'| == |users| && forall k :: 0 <= k < |users| ==> users'[k].isAuthor == users[k].isAuthor
  {
  }
}

=== FILE: admin_db.dfy ===
/** The query and update documents the admin service's MongoDB client builds
    (python/apps/admin/admin/db_clients.py).

    Documents are Dafny values: a filter is either the empty document `{}` or
    `{"$and": [conditions]}`; a `$set` is a map from field name to value; a
    reference is a record holding its list of books, each with an optional
    list of affiliate links. How MongoDB matches a filter against stored
    documents is not modelled; `update_one` and `find_one` are modelled on a
    collection given as a sequence (or a map keyed by `_id`). */
module AdminDb {
  import opened Wrappers
  import Lists
  import Encrypt

  // ---------------------------------------------------------------------------
  // Filter documents
  // ---------------------------------------------------------------------------

  datatype Scalar = BoolValue(b: bool) | StrValue(s: string)

  /** The right-hand side of a condition: a literal, or `{"$ne": literal}`. */
  datatype Test = Eq(v: Scalar) | Ne(v: Scalar)

  /** A one-field condition `{field: test}`. */
  datatype Condition = Condition(field: string, test: Test)

  /** `{}` (matches everything) or `{"$and": conds}`. */
  datatype Filter = MatchAll | And(conds: seq<Condition>)

  const REQUESTED_JOIN := "requested_join"
  const IS_AUTHOR := "is_author"
  const LINK_TYPE_PATH := "books.book_links.link_type"

  const AMAZON := "amazon"
  const WATERSTONES := "waterstones"
  const BOOKDEPOSITORY := "bookdepository"

  /** A tri-state code: 1 asks for "yes", 2 for "no"; every other value,
      `None` included, means "any". */
  function TriState(option: Option<int>): (t: Option<int>)
    ensures t == Some(1) <==> option == Some(1)
    ensures t == Some(2) <==> option == Some(2)
    ensures t.None? <==> option != Some(1) && option != Some(2)
  {
    if option == Some(1) || option == Some(2) then option else None
  }

  /** The condition a boolean user flag contributes to the `get_users` filter. */
  function FlagCondition(field: string, option: Option<int>): (c: Option<Condition>)
    ensures option == Some(1) <==> c == Some(Condition(field, Eq(BoolValue(true))))
    ensures option == Some(2) <==> c == Some(Condition(field, Eq(BoolValue(false))))
    ensures c.None? <==> TriState(option).None?
  {
    if option == Some(1) then Some(Condition(field, Eq(BoolValue(true))))
    else if option == Some(2) then Some(Condition(field, Eq(BoolValue(false))))
    else None
  }

  /** The condition a link type contributes to the `get_references` filter. */
  function LinkCondition(linkType: string, option: Option<int>): (c: Option<Condition>)
    ensures option == Some(1) <==> c == Some(Condition(LINK_TYPE_PATH, Eq(StrValue(linkType))))
    ensures option == Some(2) <==> c == Some(Condition(LINK_TYPE_PATH, Ne(StrValue(linkType))))
    ensures c.None? <==> TriState(option).None?
  {
    if option == Some(1) then Some(Condition(LINK_TYPE_PATH, Eq(StrValue(linkType))))
    else if option == Some(2) then Some(Condition(LINK_TYPE_PATH, Ne(StrValue(linkType))))
    else None
  }

  /** The condition list a builder appends to: one entry when a condition
      was produced, none otherwise. */
  function Opt(c: Option<Condition>): (cs: seq<Condition>)
    ensures |cs| <= 1
  {
    if c.Some? then [c.value] else []
  }

  /** `{"$and": conds}` when some condition was added, `{}` otherwise. */
  function FilterOf(conds: seq<Condition>): (f: Filter)
    ensures f.MatchAll? <==> conds == []
  {
    if |conds| == 0 then MatchAll else And(conds)
  }

  /** The conditions of a filter, `{}` having none. */
  function Conditions(f: Filter): seq<Condition> {
    match f
    case MatchAll => []
    case And(cs) => cs
  }

  /** The filter `get_users(requested_join, is_author)` sends to `find`. */
  function UsersFilter(requestedJoin: Option<int>, isAuthor: Option<int>): (f: Filter)
    ensures f.MatchAll? <==> TriState(requestedJoin).None? && TriState(isAuthor).None?
    ensures |Conditions(f)| == (if TriState(requestedJoin).Some? then 1 else 0)
                             + (if TriState(isAuthor).Some? then 1 else 0)
    ensures TriState(requestedJoin).Some? ==> Conditions(f)[0].field == REQUESTED_JOIN
    ensures TriState(isAuthor).Some? ==> Conditions(f)[|Conditions(f)| - 1].field == IS_AUTHOR
  {
    FilterOf(Opt(FlagCondition(REQUESTED_JOIN, requestedJoin)) + Opt(FlagCondition(IS_AUTHOR, isAuthor)))
  }

  /** The filter `get_references(amazon, waterstones, bookdepository)` sends
      to `find`: every condition is on the link-type path, and the link types
      appear in the fixed order amazon, waterstones, bookdepository. */
  function ReferencesFilter(amazon: Option<int>, waterstones: Option<int>, bookdepository: Option<int>): (f: Filter)
    ensures f.MatchAll? <==> TriState(amazon).None? && TriState(waterstones).None? && TriState(bookdepository).None?
    ensures |Conditions(f)| == (if TriState(amazon).Some? then 1 else 0)
                             + (if TriState(waterstones).Some? then 1 else 0)
                             + (if TriState(bookdepository).Some? then 1 else 0)
    ensures forall c :: c in Conditions(f) ==> c.field == LINK_TYPE_PATH
    ensures forall i, j :: 0 <= i < j < |Conditions(f)| ==>
      LinkRank(Conditions(f)[i]) < LinkRank(Conditions(f)[j])
  {
    FilterOf(Opt(LinkCondition(AMAZON, amazon)) + Opt(LinkCondition(WATERSTONES, waterstones))
             + Opt(LinkCondition(BOOKDEPOSITORY, bookdepository)))
  }

  /** Position of a condition's link type in the order the builder uses. */
  function LinkRank(c: Condition): nat {
    var t := c.test.v;
    if t == StrValue(AMAZON) then 0
    else if t == StrValue(WATERSTONES) then 1
    else if t == StrValue(BOOKDEPOSITORY) then 2
    else 3
  }

  /** Reads back the tri-state code a filter holds for a user flag: the
      inverse of `FlagCondition`. */
  function FlagOf(f: Filter, field: string): Option<int> {
    if Condition(field, Eq(BoolValue(true))) in Conditions(f) then Some(1)
    else if Condition(field, Eq(BoolValue(false))) in Conditions(f) then Some(2)
    else None
  }

  /** Reads back the tri-state code a references filter holds for a link
      type: the inverse of `LinkCondition`. */
  function LinkFlagOf(f: Filter, linkType: string): Option<int> {
    if Condition(LINK_TYPE_PATH, Eq(StrValue(linkType))) in Conditions(f) then Some(1)
    else if Condition(LINK_TYPE_PATH, Ne(StrValue(linkType))) in Conditions(f) then Some(2)
    else None
  }

  /** Both flags survive the trip through the users filter: option 1 reads
      back as "yes", 2 as "no", anything else as "any", and the two fields
      never interfere. */
  lemma UsersFilterRoundTrip(requestedJoin: Option<int>, isAuthor: Option<int>)
    ensures FlagOf(UsersFilter(requestedJoin, isAuthor), REQUESTED_JOIN) == TriState(requestedJoin)
    ensures FlagOf(UsersFilter(requestedJoin, isAuthor), IS_AUTHOR) == TriState(isAuthor)
  {
    var a, b := Opt(FlagCondition(REQUESTED_JOIN, requestedJoin)), Opt(FlagCondition(IS_AUTHOR, isAuthor));
    assert Conditions(UsersFilter(requestedJoin, isAuthor)) == a + b;
    assert REQUESTED_JOIN != IS_AUTHOR;
  }

  /** Each link type survives the trip through the references filter:
      option 1 reads back as "has links", 2 as "has none", anything else as
      "any", and the three link types never interfere. */
  lemma ReferencesFilterRoundTrip(amazon: Option<int>, waterstones: Option<int>, bookdepository: Option<int>)
    ensures LinkFlagOf(ReferencesFilter(amazon, waterstones, bookdepository), AMAZON) == TriState(amazon)
    ensures LinkFlagOf(ReferencesFilter(amazon, waterstones, bookdepository), WATERSTONES) == TriState(waterstones)
    ensures LinkFlagOf(ReferencesFilter(amazon, waterstones, bookdepository), BOOKDEPOSITORY) == TriState(bookdepository)
  {
    var a := Opt(LinkCondition(AMAZON, amazon));
    var w := Opt(LinkCondition(WATERSTONES, waterstones));
    var b := Opt(LinkCondition(BOOKDEPOSITORY, bookdepository));
    assert Conditions(ReferencesFilter(amazon, waterstones, bookdepository)) == a + w + b;
    assert |AMAZON| == 6 && |WATERSTONES| == 11 && |BOOKDEPOSITORY| == 14;
  }

  // ---------------------------------------------------------------------------
  // Users
  // ---------------------------------------------------------------------------

  /** A stored user; `docId` is MongoDB's `_id`, which `update_user` matches. */
  datatype UserDoc = UserDoc(
    docId: string,
    internalSubId: string,
    username: string,
    isAuthor: bool,
    requestedJoin: bool)

  datatype DbError =
    | UserDoesNotExist(id: string)
    | NoneHasNoAttribute   // `None.get(...)`: the reference was not found
    | NoneIsNotIterable    // `for ... in None`: no books, or a matching book has no links

  /** `get_user_by_id`: the first user with that internal id, or
      `UserDoesNotExist` (never `None`). */
  function GetUserById(users: seq<UserDoc>, internalSubId: string): (r: Result<UserDoc, DbError>)
    ensures r.Ok? ==> r.value in users && r.value.internalSubId == internalSubId
    ensures r.Err? <==> forall j :: 0 <= j < |users| ==> users[j].internalSubId != internalSubId
    ensures r.Err? ==> r.error == UserDoesNotExist(internalSubId)
  {
    match Lists.FindFirst(users, (u: UserDoc) => u.internalSubId == internalSubId)
    case Some(u) => Ok(u)
    case None => Err(UserDoesNotExist(internalSubId))
  }

  /** The `$set` document of `update_user`: exactly the supplied flags. */
  function SetDocument(requestedJoin: Option<bool>, isAuthor: Option<bool>): (fields: map<string, bool>)
    ensures REQUESTED_JOIN in fields <==> requestedJoin.Some?
    ensures IS_AUTHOR in fields <==> isAuthor.Some?
    ensures fields.Keys <= {REQUESTED_JOIN, IS_AUTHOR}
    ensures requestedJoin.Some? ==> fields[REQUESTED_JOIN] == requestedJoin.value
    ensures isAuthor.Some? ==> fields[IS_AUTHOR] == isAuthor.value
  {
    var withJoin: map<string, bool> := if requestedJoin.Some? then map[REQUESTED_JOIN := requestedJoin.value] else map[];
    if isAuthor.Some? then withJoin[IS_AUTHOR := isAuthor.value] else withJoin
  }

  /** A `$set` applied to one user document: named fields take the new
      value, every other field is kept. */
  function ApplySet(u: UserDoc, fields: map<string, bool>): (v: UserDoc)
    ensures v.requestedJoin == (if REQUESTED_JOIN in fields then fields[REQUESTED_JOIN] else u.requestedJoin)
    ensures v.isAuthor == (if IS_AUTHOR in fields then fields[IS_AUTHOR] else u.isAuthor)
    ensures v.docId == u.docId && v.internalSubId == u.internalSubId && v.username == u.username
  {
    u.(requestedJoin := if REQUESTED_JOIN in fields then fields[REQUESTED_JOIN] else u.requestedJoin,
       isAuthor := if IS_AUTHOR in fields then fields[IS_AUTHOR] else u.isAuthor)
  }

  /** `update_user`: `update_one({'_id': id}, {'$set': ...})` on the users
      collection. Returns the new collection and `modified_count`. */
  function UpdateUser(users: seq<UserDoc>, id: string, requestedJoin: Option<bool>, isAuthor: Option<bool>)
    : (r: (seq<UserDoc>, nat))
    ensures |r.0| == |users|
    ensures r.1 <= 1
    ensures forall j :: 0 <= j < |users| && users[j].docId != id ==> r.0[j] == users[j]
    ensures forall j :: 0 <= j < |users| ==>
      r.0[j].requestedJoin == (if IsTarget(users, id, j) && requestedJoin.Some? then requestedJoin.value else users[j].requestedJoin)
    ensures forall j :: 0 <= j < |users| ==>
      r.0[j].isAuthor == (if IsTarget(users, id, j) && isAuthor.Some? then isAuthor.value else users[j].isAuthor)
    ensures r.1 == 1 <==> r.0 != users
    ensures forall j :: 0 <= j < |users| ==>
      r.0[j] == users[j].(requestedJoin := r.0[j].requestedJoin, isAuthor := r.0[j].isAuthor)
  {
    match Lists.FirstIndex(users, (u: UserDoc) => u.docId == id)
    case None => (users, 0)
    case Some(k) =>
      var updated := users[k := ApplySet(users[k], SetDocument(requestedJoin, isAuthor))];
      (updated, if updated != users then 1 else 0)
  }

  /** The user `update_one` touches: the first whose `_id` matches. */
  predicate IsTarget(users: seq<UserDoc>, id: string, j: int) {
    0 <= j < |users| && Lists.FirstIndex(users, (u: UserDoc) => u.docId == id) == Some(j)
  }

  /** An update that omits a flag leaves that flag alone on every user. */
  lemma UpdateUserOmittedFlagUntouched(users: seq<UserDoc>, id: string, isAuthor: Option<bool>)
    ensures forall j :: 0 <= j < |users| ==>
      UpdateUser(users, id, None, isAuthor).0[j].requestedJoin == users[j].requestedJoin
  {
  }

  // ---------------------------------------------------------------------------
  // Operators
  // ---------------------------------------------------------------------------

  /** A stored admin operator: username and bcrypt hash. */
  datatype AdminUser = AdminUser(username: string, password: string)

  /** `get_operator`: the first operator whose username matches and whose
      stored hash equals the hash of the supplied password. */
  function GetOperator(operators: seq<AdminUser>, username: string, password: string,
                       sha: string -> string, bcrypt: (string, string) -> string): (r: Option<AdminUser>)
    ensures r.Some? ==> r.value in operators && r.value.username == username
    ensures r.Some? ==> r.value.password == Encrypt.EncryptPassword(username, password, sha, bcrypt)
    ensures r.None? <==> AdminUser(username, Encrypt.EncryptPassword(username, password, sha, bcrypt)) !in operators
  {
    var hashed := Encrypt.EncryptPassword(username, password, sha, bcrypt);
    Lists.FindFirst(operators, (o: AdminUser) => o.username == username && o.password == hashed)
  }

  /** `get_operator_by_username`: the first operator with that username. */
  function GetOperatorByUsername(operators: seq<AdminUser>, username: string): (r: Option<AdminUser>)
    ensures r.Some? ==> r.value in operators && r.value.username == username
    ensures r.None? <==> forall o :: o in operators ==> o.username != username
  {
    Lists.FindFirst(operators, (o: AdminUser) => o.username == username)
  }

  // ---------------------------------------------------------------------------
  // Reference links
  // ---------------------------------------------------------------------------

  datatype Link = Link(linkType: string, linkUrl: string)

  /** A stored book; `links` is `None` when the document has no `book_links`. */
  datatype BookDoc = BookDoc(name: string, author: string, links: Option<seq<Link>>)

  /** A stored reference; `books` is `None` when the document has no `books`. */
  datatype ReferenceDoc = ReferenceDoc(title: string, books: Option<seq<BookDoc>>)

  /** The links of one type, in order. */
  function OfType(links: seq<Link>, t: string): (r: seq<Link>)
    ensures |r| <= |links|
  {
    if |links| == 0 then []
    else (if links[0].linkType == t then [links[0]] else []) + OfType(links[1..], t)
  }

  /** `OfType` keeps exactly the links of the requested type. */
  lemma {:induction false} OfTypeMeaning(links: seq<Link>, t: string)
    ensures forall l :: l in OfType(links, t) <==> l in links && l.linkType == t
    ensures OfType(links, t) == [] <==> forall i :: 0 <= i < |links| ==> links[i].linkType != t
    decreases |links|
  {
    if |links| > 0 {
      OfTypeMeaning(links[1..], t);
      assert links == [links[0]] + links[1..];
    }
  }

  lemma {:induction false} OfTypeConcat(a: seq<Link>, b: seq<Link>, t: string)
    ensures OfType(a + b, t) == OfType(a, t) + OfType(b, t)
    decreases |a|
  {
    if |a| == 0 {
      assert a + b == b;
    } else {
      assert (a + b)[0] == a[0];
      assert (a + b)[1..] == a[1..] + b;
      OfTypeConcat(a[1..], b, t);
    }
  }

  /** What `update_reference_link` does to one matching book's links: the
      first link of type `t` gets the new URL, or is removed when the URL is
      empty; when there is none, `{t, url}` is appended (even for an empty
      URL). Links of every other type are untouched. */
  function EditLinks(links: seq<Link>, t: string, url: string): (r: seq<Link>)
    ensures forall u :: u != t ==> OfType(r, u) == OfType(links, u)
    ensures OfType(links, t) == [] ==> r == links + [Link(t, url)]
    ensures OfType(links, t) != [] && url == "" ==>
      OfType(r, t) == OfType(links, t)[1..] && |r| == |links| - 1
    ensures OfType(links, t) != [] && url != "" ==>
      OfType(r, t) == [Link(t, url)] + OfType(links, t)[1..] && |r| == |links|
    ensures FirstOfType(links, t).Some? && url == "" ==>
      var k := FirstOfType(links, t).value; r == links[..k] + links[k + 1..]
    ensures FirstOfType(links, t).Some? && url != "" ==>
      var k := FirstOfType(links, t).value; r == links[..k] + [Link(t, url)] + links[k + 1..]
  {
    match FirstOfType(links, t)
    case None =>
      OfTypeMeaning(links, t);
      EditAppendsWhenAbsent(links, t, url);
      links + [Link(t, url)]
    case Some(k) =>
      EditAtFirstOfType(links, t, url, k);
      EditAt(links, k, t, url)
  }

  /** The position of the first link of type `t`, if any. */
  function FirstOfType(links: seq<Link>, t: string): Option<nat> {
    Lists.FirstIndex(links, (l: Link) => l.linkType == t)
  }

  /** The in-place edit at position `k`: removal for an empty URL, otherwise
      the same link with the new URL. */
  function EditAt(links: seq<Link>, k: nat, t: string, url: string): seq<Link>
    requires k < |links|
  {
    if url == "" then links[..k] + links[k + 1..]
    else links[..k] + [Link(t, url)] + links[k + 1..]
  }

  lemma EditAppendsWhenAbsent(links: seq<Link>, t: string, url: string)
    ensures forall u :: u != t ==> OfType(links + [Link(t, url)], u) == OfType(links, u)
  {
    forall u | u != t
      ensures OfType(links + [Link(t, url)], u) == OfType(links, u)
    {
      OfTypeConcat(links, [Link(t, url)], u);
      assert OfType([Link(t, url)], u) == [];
    }
  }

  lemma OfTypeAround(before: seq<Link>, x: Link, after: seq<Link>, u: string)
    ensures OfType(before + [x] + after, u) == OfType(before, u) + OfType([x], u) + OfType(after, u)
  {
    OfTypeConcat(before + [x], after, u);
    OfTypeConcat(before, [x], u);
  }

  lemma EditAtFirstOfType(links: seq<Link>, t: string, url: string, k: nat)
    requires k < |links| && links[k].linkType == t
    requires forall j :: 0 <= j < k ==> links[j].linkType != t
    ensures forall u :: u != t ==> OfType(EditAt(links, k, t, url), u) == OfType(links, u)
    ensures OfType(links, t) != []
    ensures url == "" ==> OfType(EditAt(links, k, t, url), t) == OfType(links, t)[1..]
    ensures url != "" ==> OfType(EditAt(links, k, t, url), t) == [Link(t, url)] + OfType(links, t)[1..]
  {
    EditAtSameType(links, t, url, k);
    forall u | u != t
      ensures OfType(EditAt(links, k, t, url), u) == OfType(links, u)
    {
      EditAtOtherType(links, t, url, k, u);
    }
  }

  lemma EditAtSameType(links: seq<Link>, t: string, url: string, k: nat)
    requires k < |links| && links[k].linkType == t
    requires forall j :: 0 <= j < k ==> links[j].linkType != t
    ensures OfType(links, t) == [links[k]] + OfType(links[k + 1..], t)
    ensures url == "" ==> OfType(EditAt(links, k, t, url), t) == OfType(links[k + 1..], t)
    ensures url != "" ==> OfType(EditAt(links, k, t, url), t) == [Link(t, url)] + OfType(links[k + 1..], t)
  {
    var before, hit, after := links[..k], links[k], links[k + 1..];
    SplitAt(links, k);
    NoneOfTypeBefore(links, t, k);
    OfTypeAround(before, hit, after, t);
    assert OfType([hit], t) == [hit];
    if url == "" {
      RemovedOfSameType(links, t, k);
    } else {
      ReplacedOfSameType(links, t, k, url);
    }
  }

  lemma RemovedOfSameType(links: seq<Link>, t: string, k: nat)
    requires k < |links|
    requires forall j :: 0 <= j < k ==> links[j].linkType != t
    ensures OfType(EditAt(links, k, t, ""), t) == OfType(links[k + 1..], t)
  {
    NoneOfTypeBefore(links, t, k);
    OfTypeConcat(links[..k], links[k + 1..], t);
  }

  lemma ReplacedOfSameType(links: seq<Link>, t: string, k: nat, url: string)
    requires k < |links| && url != ""
    requires forall j :: 0 <= j < k ==> links[j].linkType != t
    ensures OfType(EditAt(links, k, t, url), t) == [Link(t, url)] + OfType(links[k + 1..], t)
  {
    var before, after := links[..k], links[k + 1..];
    assert EditAt(links, k, t, url) == before + [Link(t, url)] + after;
    NoneOfTypeBefore(links, t, k);
    OfTypeAround(before, Link(t, url), after, t);
    assert OfType([Link(t, url)], t) == [Link(t, url)];
  }

  lemma SplitAt(links: seq<Link>, k: nat)
    requires k < |links|
    ensures links == links[..k] + [links[k]] + links[k + 1..]
  {
  }

  lemma NoneOfTypeBefore(links: seq<Link>, t: string, k: nat)
    requires k <= |links|
    requires forall j :: 0 <= j < k ==> links[j].linkType != t
    ensures OfType(links[..k], t) == []
  {
    assert forall j :: 0 <= j < |links[..k]| ==> links[..k][j].linkType != t;
    OfTypeMeaning(links[..k], t);
  }

  lemma EditAtOtherType(links: seq<Link>, t: string, url: string, k: nat, u: string)
    requires k < |links| && links[k].linkType == t && u != t
    ensures OfType(EditAt(links, k, t, url), u) == OfType(links, u)
  {
    var before, hit, after := links[..k], links[k], links[k + 1..];
    assert links == before + [hit] + after;
    OfTypeAround(before, hit, after, u);
    assert OfType([hit], u) == [];
    if url == "" {
      assert EditAt(links, k, t, url) == before + after;
      OfTypeConcat(before, after, u);
    } else {
      assert EditAt(links, k, t, url) == before + [Link(t, url)] + after;
      OfTypeAround(before, Link(t, url), after, u);
      assert OfType([Link(t, url)], u) == [];
    }
  }

  /** A replaced link keeps its position; every other position is kept. */
  lemma EditLinksReplacesInPlace(links: seq<Link>, t: string, url: string, k: nat)
    requires FirstOfType(links, t) == Some(k)
    requires url != ""
    ensures |EditLinks(links, t, url)| == |links|
    ensures EditLinks(links, t, url)[k] == Link(t, url)
    ensures forall j :: 0 <= j < |links| && j != k ==> EditLinks(links, t, url)[j] == links[j]
  {
  }

  /** The loop over `reference_doc["books"]`: every book named `bookName` has
      its links edited; it raises when such a book has no link list. */
  function EditBooks(books: seq<BookDoc>, bookName: string, t: string, url: string)
    : (r: Result<seq<BookDoc>, DbError>)
    ensures r.Err? <==> exists i :: 0 <= i < |books| && books[i].name == bookName && books[i].links.None?
    ensures r.Err? ==> r.error == NoneIsNotIterable
    ensures r.Ok? ==> |r.value| == |books|
    ensures r.Ok? ==> forall i :: 0 <= i < |books| && books[i].name != bookName ==> r.value[i] == books[i]
    ensures r.Ok? ==> forall i :: 0 <= i < |books| && books[i].name == bookName ==>
      r.value[i] == books[i].(links := Some(EditLinks(books[i].links.value, t, url)))
  {
    if |books| == 0 then Ok([])
    else
      var b := books[0];
      if b.name == bookName && b.links.None? then Err(NoneIsNotIterable)
      else
        var head := if b.name == bookName then b.(links := Some(EditLinks(b.links.value, t, url))) else b;
        match EditBooks(books[1..], bookName, t, url)
        case Err(e) => Err(e)
        case Ok(rest) => Ok([head] + rest)
  }

  /** `update_reference_link` on a collection keyed by `_id`: the new
      collection and `modified_count`, or the error the code raises. */
  function UpdateReferenceLink(store: map<string, ReferenceDoc>, referenceId: string,
                               bookName: string, t: string, url: string)
    : (r: Result<(map<string, ReferenceDoc>, nat), DbError>)
    ensures referenceId !in store ==> r == Err(NoneHasNoAttribute)
    ensures r.Ok? ==> r.value.0.Keys == store.Keys
    ensures r.Ok? ==> forall id :: id in store && id != referenceId ==> r.value.0[id] == store[id]
    ensures r.Ok? ==> r.value.0[referenceId].title == store[referenceId].title
    ensures r.Ok? ==>
      && store[referenceId].books.Some?
      && EditBooks(store[referenceId].books.value, bookName, t, url).Ok?
      && r.value.0[referenceId].books == Some(EditBooks(store[referenceId].books.value, bookName, t, url).value)
    ensures referenceId in store && r.Err? ==> r.error == NoneIsNotIterable
    ensures r.Ok? ==> (r.value.1 == 1 <==> r.value.0 != store) && r.value.1 <= 1
    ensures referenceId in store && store[referenceId].books.None? ==> r == Err(NoneIsNotIterable)
    ensures referenceId in store && store[referenceId].books.Some? ==>
      (r.Err? <==> exists b :: b in store[referenceId].books.value && b.name == bookName && b.links.None?)
  {
    if referenceId !in store then Err(NoneHasNoAttribute)
    else
      var doc := store[referenceId];
      if doc.books.None? then Err(NoneIsNotIterable)
      else
        match EditBooks(doc.books.value, bookName, t, url)
        case Err(e) => Err(e)
        case Ok(books) =>
          var updated := store[referenceId := doc.(books := Some(books))];
          Ok((updated, if updated != store then 1 else 0))
  }
}

=== FILE: admin_filters.dfy ===
/** The filter dropdowns shared by the admin front end's users page
    (react/apps/admin/src/components/Users.js) and references page
    (react/apps/admin/src/components/References.js): both map an item's key
    to a filter value and a filter value to the dropdown's title with the
    same code. */
module AdminFilters {
  import opened Wrappers
  import Js
  import AdminAuthModels
  import Text

  /** The `filterOption` chosen for a dropdown item's `eventKey`: "0" is
      `null`, "1" and "2" are the numbers; any other key leaves the variable
      `undefined`. */
  function FilterOfKey(key: string): (v: Js.Value)
    ensures key == "0" <==> v == Js.Null
    ensures key == "1" <==> v == Js.Num(AdminAuthModels.FILTER_YES)
    ensures key == "2" <==> v == Js.Num(AdminAuthModels.FILTER_NO)
    ensures DropdownValue(v)
  {
    if key == "0" then Js.Null
    else if key == "1" then Js.Num(1)
    else if key == "2" then Js.Num(2)
    else Js.Undefined
  }

  /** The values a dropdown can put in a filter. */
  predicate DropdownValue(v: Js.Value) {
    v == Js.Null || v == Js.Undefined || v == Js.Num(1) || v == Js.Num(2)
  }

  /** The dropdown title for a filter value; a value other than `null`, 1
      and 2 gives `undefined` (`None`). */
  function FilterLabel(v: Js.Value): (title: Option<string>)
    ensures title == Some("-") <==> v == Js.Null
    ensures title == Some("Yes") <==> v == Js.Num(1)
    ensures title == Some("No") <==> v == Js.Num(2)
    ensures title.None? <==> !(v == Js.Null || v == Js.Num(1) || v == Js.Num(2))
  {
    if v == Js.Null then Some("-")
    else if v == Js.Num(1) then Some("Yes")
    else if v == Js.Num(2) then Some("No")
    else None
  }

  /** The items of a dropdown: their keys and their texts. */
  const DropdownItems: seq<(string, string)> := [("1", "Yes"), ("2", "No"), ("0", "-")]

  /** Choosing an item makes the dropdown's title that item's text. */
  lemma ItemTextBecomesTitle()
    ensures forall i :: 0 <= i < |DropdownItems| ==>
      FilterLabel(FilterOfKey(DropdownItems[i].0)) == Some(DropdownItems[i].1)
  {
  }

  /** A string `int()` converts: an optional sign, then ASCII digits. */
  predicate IsIntegerString(s: string) {
    if |s| > 0 && (s[0] == '-' || s[0] == '+') then |s| > 1 && Text.AllDigits(s[1..])
    else |s| > 0 && Text.AllDigits(s)
  }

  /** The integer such a string denotes. */
  function IntegerStringValue(s: string): int
    requires IsIntegerString(s)
  {
    if s[0] == '-' then -(Text.DigitsValue(s[1..]) as int)
    else if s[0] == '+' then Text.DigitsValue(s[1..])
    else Text.DigitsValue(s)
  }

  /** A filter value as the service reads it from the JSON body into an
      `Optional[int]` field: `null` and an omitted (`undefined`) field are
      `None`; a number is the code; pydantic coerces a boolean and an integer
      string to their integer and refuses any other string (`Err`, answered
      with 422). */
  function Code(v: Js.Value): (c: Result<Option<int>, ()>)
    ensures c == Ok(None) <==> v.Null? || v.Undefined?
    ensures v.Num? ==> c == Ok(Some(v.n))
    ensures v.Bool? ==> c == Ok(Some(if v.b then 1 else 0))
    ensures v.Str? ==> (c.Err? <==> !IsIntegerString(v.s))
    ensures v.Str? && IsIntegerString(v.s) ==> c == Ok(Some(IntegerStringValue(v.s)))
  {
    match v
    case Undefined => Ok(None)
    case Null => Ok(None)
    case Num(n) => Ok(Some(n))
    case Bool(b) => Ok(Some(if b then 1 else 0))
    case Str(s) => if IsIntegerString(s) then Ok(Some(IntegerStringValue(s))) else Err(())
  }

  /** The string "1" and `true` select like the number 1, "2" like 2, and a
      word is refused. */
  lemma CoercedCodes()
    ensures Code(Js.Str("1")) == Code(Js.Bool(true)) == Code(Js.Num(AdminAuthModels.FILTER_YES))
    ensures Code(Js.Str("+2")) == Code(Js.Num(AdminAuthModels.FILTER_NO))
    ensures Code(Js.Bool(false)) == Ok(Some(0)) && Code(Js.Str("-1")) == Ok(Some(-1))
    ensures Code(Js.Str("yes")).Err? && Code(Js.Str("")).Err? && Code(Js.Str("-")).Err?
  {
    assert Text.DigitsValue("1") == 1 by {
      assert Text.DigitsValue("1") == Text.DigitValue('1') * Text.Pow10(0) + Text.DigitsValue("");
    }
    assert Text.DigitsValue("2") == 2 by {
      assert Text.DigitsValue("2") == Text.DigitValue('2') * Text.Pow10(0) + Text.DigitsValue("");
    }
    assert "+2"[1..] == "2";
    assert "-1"[1..] == "1";
    assert !Text.IsDigit('y');
  }

  /** The codes a key leads to: "1" and "2" give the yes and no codes, any
      other key none. */
  function KeyCode(key: string): Option<int> {
    if key == "1" then Some(AdminAuthModels.FILTER_YES)
    else if key == "2" then Some(AdminAuthModels.FILTER_NO)
    else None
  }

}

=== FILE: admin_models.dfy ===
/** The document models of the admin service
    (python/apps/admin/admin/models/db_models.py).

    Each model has a `Valid...` predicate (the constraints as declared) and
    a `Rejected...` function (the set of top-level fields pydantic reports);
    enum fields arrive as strings. */
module AdminModels {
  import opened Wrappers
  import opened Pydantic

  // ---------------------------------------------------------------------------
  // BookSection
  // ---------------------------------------------------------------------------

  datatype BookSection = BookSection(startingPage: int, endingPage: int)

  /** `conint(gt=0, lt=10000)`. */
  predicate ValidPage(p: int) {
    0 < p < 10000
  }

  predicate ValidSection(s: BookSection) {
    ValidPage(s.startingPage) && ValidPage(s.endingPage)
  }

  function RejectedSectionFields(s: BookSection): (fs: set<Field>)
    ensures fs <= {StartingPage, EndingPage}
    ensures fs == {} <==> ValidSection(s)
    ensures StartingPage in fs <==> !(1 <= s.startingPage <= 9999)
    ensures EndingPage in fs <==> !(1 <= s.endingPage <= 9999)
  {
    Report(ValidPage(s.startingPage), StartingPage) + Report(ValidPage(s.endingPage), EndingPage)
  }

  /** Nothing relates the two pages: a section may end before it starts. */
  lemma SectionOrderUnconstrained()
    ensures ValidSection(BookSection(9999, 1))
    ensures !ValidSection(BookSection(0, 1)) && !ValidSection(BookSection(1, 10000))
  {
  }

  // ---------------------------------------------------------------------------
  // BookLink
  // ---------------------------------------------------------------------------

  datatype BookLinkType = Amazon | BookDepository | Waterstones

  function LinkTypeValue(t: BookLinkType): string {
    match t
    case Amazon => "amazon"
    case BookDepository => "bookdepository"
    case Waterstones => "waterstones"
  }

  /** `BookLinkType(s)`: the member whose value is `s`. */
  function ParseLinkType(s: string): (t: Option<BookLinkType>)
    ensures t.Some? ==> LinkTypeValue(t.value) == s
    ensures t.None? ==> forall k :: LinkTypeValue(k) != s
  {
    if s == "amazon" then Some(Amazon)
    else if s == "bookdepository" then Some(BookDepository)
    else if s == "waterstones" then Some(Waterstones)
    else None
  }

  lemma LinkTypeRoundTrip(t: BookLinkType)
    ensures ParseLinkType(LinkTypeValue(t)) == Some(t)
  {
  }

  datatype BookLink = BookLink(linkType: string, linkUrl: string)

  predicate ValidLink(l: BookLink) {
    ParseLinkType(l.linkType).Some?
  }

  // ---------------------------------------------------------------------------
  // Book
  // ---------------------------------------------------------------------------

  datatype Book = Book(name: string, author: string, sections: seq<BookSection>, links: Option<seq<BookLink>>)

  predicate ValidBook(b: Book) {
    && LengthWithin(b.name, 5, 100)
    && LengthWithin(b.author, 5, 50)
    && 1 <= |b.sections| <= 100
    && (forall s :: s in b.sections ==> ValidSection(s))
    && (b.links.Some? ==> forall l :: l in b.links.value ==> ValidLink(l))
  }

  function RejectedBookFields(b: Book): (fs: set<Field>)
    ensures fs <= {Name, Author, BookSections, BookLinks}
    ensures fs == {} <==> ValidBook(b)
    ensures Name in fs <==> !(5 <= |b.name| <= 100)
    ensures Author in fs <==> !(5 <= |b.author| <= 50)
    ensures BookSections in fs <==>
      (|b.sections| == 0 || |b.sections| > 100 || exists k :: 0 <= k < |b.sections| && !ValidSection(b.sections[k]))
    ensures BookLinks in fs <==>
      b.links.Some? && exists k :: 0 <= k < |b.links.value| && !ValidLink(b.links.value[k])
  {
    Report(LengthWithin(b.name, 5, 100), Name)
    + Report(LengthWithin(b.author, 5, 50), Author)
    + Report(1 <= |b.sections| <= 100 && forall s :: s in b.sections ==> ValidSection(s), BookSections)
    + Report(b.links.None? || forall l :: l in b.links.value ==> ValidLink(l), BookLinks)
  }

  /** A book without `book_links` is judged on its other fields alone. */
  lemma LinksOptional(b: Book)
    ensures ValidBook(b.(links := None)) <==> RejectedBookFields(b) - {BookLinks} == {}
  {
  }

  // ---------------------------------------------------------------------------
  // Category
  // ---------------------------------------------------------------------------

  datatype Category =
    | Arts | Business | ComputerScience | FoodDrinks | Health | History | Literature
    | Sciences | SocialSciences | Sports | Technology | Travel | Other

  function CategoryValue(c: Category): string {
    match c
    case Arts => "arts"
    case Business => "business"
    case ComputerScience => "computer_science"
    case FoodDrinks => "food_drinks"
    case Health => "health"
    case History => "history"
    case Literature => "literature"
    case Sciences => "sciences"
    case SocialSciences => "social_sciences"
    case Sports => "sports"
    case Technology => "technology"
    case Travel => "travel"
    case Other => "other"
  }

  /** `Category(s)`. */
  function ParseCategory(s: string): (c: Option<Category>)
    ensures c.Some? ==> CategoryValue(c.value) == s
    ensures c.None? ==> forall k :: CategoryValue(k) != s
  {
    if s == "arts" then Some(Arts)
    else if s == "business" then Some(Business)
    else if s == "computer_science" then Some(ComputerScience)
    else if s == "food_drinks" then Some(FoodDrinks)
    else if s == "health" then Some(Health)
    else if s == "history" then Some(History)
    else if s == "literature" then Some(Literature)
    else if s == "sciences" then Some(Sciences)
    else if s == "social_sciences" then Some(SocialSciences)
    else if s == "sports" then Some(Sports)
    else if s == "technology" then Some(Technology)
    else if s == "travel" then Some(Travel)
    else if s == "other" then Some(Other)
    else None
  }

  const AllCategories: seq<Category> :=
    [Arts, Business, ComputerScience, FoodDrinks, Health, History, Literature,
     Sciences, SocialSciences, Sports, Technology, Travel, Other]

  /** Exactly thirteen categories, each with its own value. */
  lemma CategoriesAreThirteen()
    ensures |AllCategories| == 13
    ensures forall c :: c in AllCategories
    ensures forall i, j :: 0 <= i < j < |AllCategories| ==> CategoryValue(AllCategories[i]) != CategoryValue(AllCategories[j])
  {
    forall c ensures c in AllCategories {
      match c
      case Arts => assert AllCategories[0] == c;
      case Business => assert AllCategories[1] == c;
      case ComputerScience => assert AllCategories[2] == c;
      case FoodDrinks => assert AllCategories[3] == c;
      case Health => assert AllCategories[4] == c;
      case History => assert AllCategories[5] == c;
      case Literature => assert AllCategories[6] == c;
      case Sciences => assert AllCategories[7] == c;
      case SocialSciences => assert AllCategories[8] == c;
      case Sports => assert AllCategories[9] == c;
      case Technology => assert AllCategories[10] == c;
      case Travel => assert AllCategories[11] == c;
      case Other => assert AllCategories[12] == c;
    }
  }

  lemma CategoryRoundTrip(c: Category)
    ensures ParseCategory(CategoryValue(c)) == Some(c)
  {
  }

  // ---------------------------------------------------------------------------
  // Rating and Reference
  // ---------------------------------------------------------------------------

  datatype Rating = Rating(positive: int, negative: int)

  /** `conint(gt=-1)` on both counts. */
  predicate ValidRating(r: Rating) {
    r.positive > -1 && r.negative > -1
  }

  datatype Reference = Reference(
    referenceId: Option<string>,
    title: string,
    category: string,
    description: string,
    books: seq<Book>,
    rating: Option<Rating>)

  predicate ValidReference(r: Reference) {
    && (r.referenceId.Some? ==> LengthWithin(r.referenceId.value, 36, 36))
    && LengthWithin(r.title, 5, 100)
    && ParseCategory(r.category).Some?
    && LengthWithin(r.description, 30, 600)
    && 1 <= |r.books| <= 50
    && (forall b :: b in r.books ==> ValidBook(b))
    && (r.rating.Some? ==> ValidRating(r.rating.value))
  }

  function RejectedReferenceFields(r: Reference): (fs: set<Field>)
    ensures fs <= {ReferenceId, Title, CategoryField, Description, Books, RatingField}
    ensures fs == {} <==> ValidReference(r)
    ensures ReferenceId in fs <==> r.referenceId.Some? && |r.referenceId.value| != 36
    ensures RatingField in fs <==> r.rating.Some? && (r.rating.value.positive < 0 || r.rating.value.negative < 0)
  {
    Report(r.referenceId.None? || LengthWithin(r.referenceId.value, 36, 36), ReferenceId)
    + Report(LengthWithin(r.title, 5, 100), Title)
    + Report(ParseCategory(r.category).Some?, CategoryField)
    + Report(LengthWithin(r.description, 30, 600), Description)
    + Report(1 <= |r.books| <= 50 && forall b :: b in r.books ==> ValidBook(b), Books)
    + Report(r.rating.None? || ValidRating(r.rating.value), RatingField)
  }

  /** Each of these fields is reported exactly when its own constraint fails. */
  lemma RejectedReferenceFieldsEach(r: Reference)
    ensures Title in RejectedReferenceFields(r) <==> !(5 <= |r.title| <= 100)
    ensures CategoryField in RejectedReferenceFields(r) <==> forall c :: CategoryValue(c) != r.category
    ensures Description in RejectedReferenceFields(r) <==> !(30 <= |r.description| <= 600)
    ensures Books in RejectedReferenceFields(r) <==>
      (|r.books| == 0 || |r.books| > 50 || exists k :: 0 <= k < |r.books| && !ValidBook(r.books[k]))
  {
  }
}

=== FILE: admin_references.dfy ===
/** The references page of the admin front end
    (react/apps/admin/src/components/References.js): three link-type filter
    dropdowns, the reference list they select, the per-type link columns,
    and the link-flag update handlers. */
module AdminReferences {
  import opened Wrappers
  import Js
  import AdminDb
  import opened AdminFilters

  // ---------------------------------------------------------------------------
  // Filters
  // ---------------------------------------------------------------------------

  /** The component state; the three filters hold `null`, 1, 2 or
      `undefined`, and `references` is `None` when the last answer had no
      `references` field, so the state holds `undefined`. */
  datatype RefsState = RefsState(
    references: Option<seq<AdminDb.ReferenceDoc>>,
    amazonFilter: Js.Value,
    waterstonesFilter: Js.Value,
    bookdepositoryFilter: Js.Value)

  const Initial: RefsState := RefsState(Some([]), Js.Null, Js.Null, Js.Null)

  /** A listed reference the table can draw: it has `books`, and every
      book has `book_links`. */
  predicate Drawable(reference: AdminDb.ReferenceDoc) {
    reference.books.Some? && forall j :: 0 <= j < |reference.books.value| ==> reference.books.value[j].links.Some?
  }

  /** The render maps over `references`, each reference's `books` and each
      book's `book_links`, and throws on the first that is `undefined` or
      `null`. */
  predicate RenderThrows(s: RefsState) {
    Table(s).None?
  }

  /** `handleFilter`'s request: the body's `has_amazon_links`,
      `has_waterstones_links` and `has_bookdepository_links`. */
  datatype FilterRequest = FilterRequest(amazon: Js.Value, waterstones: Js.Value, bookdepository: Js.Value)

  datatype Dropdown = AmazonDropdown | WaterstonesDropdown | BookDepositoryDropdown

  /** `handleAmazonFilter`, `handleWaterstonesFilter` and
      `handleBookDepositoryFilter`: the chosen dropdown takes the item's
      value, the other two keep theirs. */
  function Select(s: RefsState, d: Dropdown, key: string): FilterRequest {
    match d
    case AmazonDropdown => FilterRequest(FilterOfKey(key), s.waterstonesFilter, s.bookdepositoryFilter)
    case WaterstonesDropdown => FilterRequest(s.amazonFilter, FilterOfKey(key), s.bookdepositoryFilter)
    case BookDepositoryDropdown => FilterRequest(s.amazonFilter, s.waterstonesFilter, FilterOfKey(key))
  }

  /** The title of each dropdown. */
  function Titles(s: RefsState): (Option<string>, Option<string>, Option<string>) {
    (FilterLabel(s.amazonFilter), FilterLabel(s.waterstonesFilter), FilterLabel(s.bookdepositoryFilter))
  }

  /** The handler of `handleFilter`: on an answer the list and the three
      filter values the request was sent with are stored together; a failed
      request changes nothing. `body` is the response's `references` field,
      `None` when the answer has none (an error body, whatever its status),
      after which the page cannot render. */
  function OnFilterResponse(s: RefsState, req: FilterRequest, outcome: Js.Fetch<Option<seq<AdminDb.ReferenceDoc>>>)
    : (r: RefsState)
    ensures outcome.Failed? ==> r == s
    ensures outcome.Responded? ==>
      r == RefsState(outcome.body, req.amazon, req.waterstones, req.bookdepository)
    ensures outcome.Responded? ==>
      (RenderThrows(r) <==>
        outcome.body.None? || exists i :: 0 <= i < |outcome.body.value| && !Drawable(outcome.body.value[i]))
  {
    match outcome
    case Failed => s
    case Responded(_, refs) => RefsState(refs, req.amazon, req.waterstones, req.bookdepository)
  }

  /** A choice on one dropdown, once answered, gives that dropdown the
      chosen item's title and leaves the other two titles as they were. */
  lemma ChoiceChangesOnlyItsDropdown(s: RefsState, d: Dropdown, key: string, status: int,
                                     refs: Option<seq<AdminDb.ReferenceDoc>>)
    requires key == "0" || key == "1" || key == "2"
    ensures var r := OnFilterResponse(s, Select(s, d, key), Js.Responded(status, refs));
      var chosen := Some(if key == "1" then "Yes" else if key == "2" then "No" else "-");
      && r.references == refs
      && Titles(r).0 == (if d == AmazonDropdown then chosen else Titles(s).0)
      && Titles(r).1 == (if d == WaterstonesDropdown then chosen else Titles(s).1)
      && Titles(r).2 == (if d == BookDepositoryDropdown then chosen else Titles(s).2)
  {
  }

  /** The filter the admin service builds from a request: each field is read
      as an optional code, and a field that does not validate refuses the
      whole request. */
  function DbFilter(req: FilterRequest): (r: Result<AdminDb.Filter, ()>)
    ensures r.Ok? <==> Code(req.amazon).Ok? && Code(req.waterstones).Ok? && Code(req.bookdepository).Ok?
  {
    match (Code(req.amazon), Code(req.waterstones), Code(req.bookdepository))
    case (Ok(a), Ok(w), Ok(b)) => Ok(AdminDb.ReferencesFilter(a, w, b))
    case _ => Err(())
  }

  /** From dropdowns to database: the three chosen keys arrive as the
      three link-type conditions, each with its own key's code. */
  lemma DropdownsSelectDbFilter(amazonKey: string, waterstonesKey: string, bookdepositoryKey: string)
    ensures var f := DbFilter(FilterRequest(FilterOfKey(amazonKey), FilterOfKey(waterstonesKey), FilterOfKey(bookdepositoryKey))).value;
      && AdminDb.LinkFlagOf(f, AdminDb.AMAZON) == KeyCode(amazonKey)
      && AdminDb.LinkFlagOf(f, AdminDb.WATERSTONES) == KeyCode(waterstonesKey)
      && AdminDb.LinkFlagOf(f, AdminDb.BOOKDEPOSITORY) == KeyCode(bookdepositoryKey)
  {
    AdminDb.ReferencesFilterRoundTrip(Code(FilterOfKey(amazonKey)).value, Code(FilterOfKey(waterstonesKey)).value,
                                      Code(FilterOfKey(bookdepositoryKey)).value);
  }

  // ---------------------------------------------------------------------------
  // Link-flag updates
  // ---------------------------------------------------------------------------

  /** The flag an update handler sends in its body. */
  datatype LinkField = HasAmazonLinks | HasWaterstonesLinks | HasBookDepositoryLinks

  /** A class field definition: a handler name and the flag it sends. */
  datatype Definition = Definition(name: string, sends: LinkField)

  /** The update handlers in source order; the third is a second
      `updateAmazon`. */
  const UpdateDefinitions: seq<Definition> := [
    Definition("updateAmazon", HasAmazonLinks),
    Definition("updateWaterstones", HasWaterstonesLinks),
    Definition("updateAmazon", HasBookDepositoryLinks)
  ]

  /** Class fields are assigned in order, so a later definition under the
      same name replaces an earlier one. */
  function Install(defs: seq<Definition>): map<string, LinkField>
    decreases |defs|
  {
    if |defs| == 0 then map[]
    else
      var last := defs[|defs| - 1];
      Install(defs[..|defs| - 1])[last.name := last.sends]
  }

  /** Every defined name gets a handler, only defined names do, and each
      installed handler is the last definition of its name. */
  lemma {:induction false} InstallKeepsLastDefinition(defs: seq<Definition>)
    ensures forall i :: 0 <= i < |defs| ==> defs[i].name in Install(defs)
    ensures forall n :: n in Install(defs) ==> exists i :: 0 <= i < |defs| && defs[i].name == n
    ensures forall i :: 0 <= i < |defs| && LastOfName(defs, i) ==> Install(defs)[defs[i].name] == defs[i].sends
    decreases |defs|
  {
    if |defs| > 0 {
      var init := defs[..|defs| - 1];
      var last := defs[|defs| - 1];
      InstallKeepsLastDefinition(init);
      var h := Install(defs);
      assert h == Install(init)[last.name := last.sends];
      forall i | 0 <= i < |defs| ensures defs[i].name in h {
        if i < |defs| - 1 {
          assert init[i] == defs[i];
        }
      }
      forall n | n in h ensures exists i :: 0 <= i < |defs| && defs[i].name == n {
        if n != last.name {
          var i :| 0 <= i < |init| && init[i].name == n;
          assert defs[i] == init[i];
        }
      }
      forall i | 0 <= i < |defs| && LastOfName(defs, i) ensures h[defs[i].name] == defs[i].sends {
        if i < |defs| - 1 {
          assert init[i] == defs[i];
          assert defs[|defs| - 1].name != defs[i].name;
          assert LastOfName(init, i);
        }
      }
    }
  }

  /** No later definition has the same name as definition `i`. */
  predicate LastOfName(defs: seq<Definition>, i: int)
    requires 0 <= i < |defs|
  {
    forall j :: i < j < |defs| ==> defs[j].name != defs[i].name
  }

  /** The component ends up with two update handlers, `updateAmazon` sends
      `has_bookdepository_links`, and no handler sends `has_amazon_links`. */
  lemma LaterDefinitionWins()
    ensures Install(UpdateDefinitions).Keys == {"updateAmazon", "updateWaterstones"}
    ensures Install(UpdateDefinitions)["updateAmazon"] == HasBookDepositoryLinks
    ensures Install(UpdateDefinitions)["updateWaterstones"] == HasWaterstonesLinks
    ensures forall n :: n in Install(UpdateDefinitions) ==> Install(UpdateDefinitions)[n] != HasAmazonLinks
  {
    var defs := UpdateDefinitions;
    InstallKeepsLastDefinition(defs);
    var h := Install(defs);
    assert LastOfName(defs, 1) && LastOfName(defs, 2);
    forall n | n in h ensures n == "updateAmazon" || n == "updateWaterstones" {
      var i :| 0 <= i < |defs| && defs[i].name == n;
    }
  }

  /** The refresh after a successful update as written: the amazon value is
      read from `this.state.amazon`, a key the state never has, so it is
      `undefined`. */
  function OnUpdateResponseAsWritten(s: RefsState, outcome: Js.Fetch<Js.Value>): (next: Option<FilterRequest>)
    ensures next.Some? <==> outcome.Responded? && Js.Truthy(outcome.body)
    ensures next.Some? ==> (next.value.amazon == Js.Undefined
      && next.value.waterstones == s.waterstonesFilter && next.value.bookdepository == s.bookdepositoryFilter)
  {
    match outcome
    case Responded(_, success) =>
      if Js.Truthy(success) then Some(FilterRequest(Js.Undefined, s.waterstonesFilter, s.bookdepositoryFilter))
      else None
    case Failed => None
  }

  /** The refresh as evidently intended: the list is fetched again with the
      three current filters. */
  function OnUpdateResponse(s: RefsState, outcome: Js.Fetch<Js.Value>): (next: Option<FilterRequest>)
    ensures next.Some? <==> outcome.Responded? && Js.Truthy(outcome.body)
    ensures next.Some? ==> next.value == FilterRequest(s.amazonFilter, s.waterstonesFilter, s.bookdepositoryFilter)
  {
    match outcome
    case Responded(_, success) =>
      if Js.Truthy(success) then Some(FilterRequest(s.amazonFilter, s.waterstonesFilter, s.bookdepositoryFilter))
      else None
    case Failed => None
  }

  /** With "Has Amazon links: Yes" selected, a successful update refreshes
      the list without the amazon condition and leaves the dropdown without
      a title; the corrected refresh keeps both. The other two dropdowns
      hold values their items put there. */
  lemma RefreshDropsAmazonFilter(s: RefsState, status: int, status': int, refs: Option<seq<AdminDb.ReferenceDoc>>)
    requires s.amazonFilter == Js.Num(1)
    requires DropdownValue(s.waterstonesFilter) && DropdownValue(s.bookdepositoryFilter)
    ensures var req := OnUpdateResponseAsWritten(s, Js.Responded(status, Js.Bool(true))).value;
      && AdminDb.LinkFlagOf(DbFilter(req).value, AdminDb.AMAZON).None?
      && Titles(OnFilterResponse(s, req, Js.Responded(status', refs))).0.None?
    ensures var req := OnUpdateResponse(s, Js.Responded(status, Js.Bool(true))).value;
      && AdminDb.LinkFlagOf(DbFilter(req).value, AdminDb.AMAZON) == Some(1)
      && Titles(OnFilterResponse(s, req, Js.Responded(status', refs))) == Titles(s)
  {
    var bad := OnUpdateResponseAsWritten(s, Js.Responded(status, Js.Bool(true))).value;
    AdminDb.ReferencesFilterRoundTrip(Code(bad.amazon).value, Code(bad.waterstones).value, Code(bad.bookdepository).value);
    var good := OnUpdateResponse(s, Js.Responded(status, Js.Bool(true))).value;
    AdminDb.ReferencesFilterRoundTrip(Code(good.amazon).value, Code(good.waterstones).value, Code(good.bookdepository).value);
  }

  /** The corrected refresh is the as-written one except for the amazon
      value. */
  lemma CorrectionOnlyChangesAmazon(s: RefsState, outcome: Js.Fetch<Js.Value>)
    ensures OnUpdateResponse(s, outcome).Some? == OnUpdateResponseAsWritten(s, outcome).Some?
    ensures OnUpdateResponse(s, outcome).Some? ==>
      OnUpdateResponse(s, outcome).value == OnUpdateResponseAsWritten(s, outcome).value.(amazon := s.amazonFilter)
  {
  }

  // ---------------------------------------------------------------------------
  // Link columns
  // ---------------------------------------------------------------------------

  /** The spans a link column draws for one book: per link, its URL when
      the link has the column's type and `null` otherwise. */
  function Cells(links: seq<AdminDb.Link>, t: string): (cells: seq<Option<string>>)
    ensures |cells| == |links|
    ensures forall i :: 0 <= i < |links| ==>
      (cells[i].Some? <==> links[i].linkType == t) && (cells[i].Some? ==> cells[i].value == links[i].linkUrl)
  {
    if |links| == 0 then []
    else [if links[0].linkType == t then Some(links[0].linkUrl) else None] + Cells(links[1..], t)
  }

  /** A book's cells in a column; a book without `book_links` makes
      `book.book_links.map` throw, which is `None` here. */
  function BookCells(book: AdminDb.BookDoc, t: string): (cells: Option<seq<Option<string>>>)
    ensures cells.Some? <==> book.links.Some?
  {
    if book.links.None? then None else Some(Cells(book.links.value, t))
  }

  /** One link column of a row: each book's cells in turn, or `None` once a
      book's `book_links.map` throws. */
  function Column(books: seq<AdminDb.BookDoc>, t: string): (c: Option<seq<seq<Option<string>>>>)
    ensures c.Some? <==> forall j :: 0 <= j < |books| ==> books[j].links.Some?
    ensures c.Some? ==> |c.value| == |books| && forall j :: 0 <= j < |books| ==> BookCells(books[j], t) == Some(c.value[j])
    decreases |books|
  {
    if |books| == 0 then Some([])
    else
      var head, rest := BookCells(books[0], t), Column(books[1..], t);
      assert forall j :: 1 <= j < |books| ==> books[j] == books[1..][j - 1];
      if head.Some? && rest.Some? then Some([head.value] + rest.value) else None
  }

  /** A row of the table: the title and the amazon, waterstones and
      bookdepository columns. */
  datatype Row = Row(title: string, amazon: seq<seq<Option<string>>>,
                     waterstones: seq<seq<Option<string>>>, bookdepository: seq<seq<Option<string>>>)

  /** One reference's row, or `None` when drawing it throws. */
  function RenderRow(reference: AdminDb.ReferenceDoc): (r: Option<Row>)
    ensures r.Some? <==> Drawable(reference)
    ensures r.Some? ==> r.value.title == reference.title
    ensures r.Some? ==>
      && Column(reference.books.value, AdminDb.AMAZON) == Some(r.value.amazon)
      && Column(reference.books.value, AdminDb.WATERSTONES) == Some(r.value.waterstones)
      && Column(reference.books.value, AdminDb.BOOKDEPOSITORY) == Some(r.value.bookdepository)
  {
    if reference.books.None? then None
    else
      var books := reference.books.value;
      match (Column(books, AdminDb.AMAZON), Column(books, AdminDb.WATERSTONES), Column(books, AdminDb.BOOKDEPOSITORY))
      case (Some(a), Some(w), Some(d)) => Some(Row(reference.title, a, w, d))
      case _ => None
  }

  /** The rows of the listed references in order, or `None` once one throws. */
  function Rows(refs: seq<AdminDb.ReferenceDoc>): (r: Option<seq<Row>>)
    ensures r.Some? <==> forall i :: 0 <= i < |refs| ==> Drawable(refs[i])
    ensures r.Some? ==> |r.value| == |refs| && forall i :: 0 <= i < |refs| ==> RenderRow(refs[i]) == Some(r.value[i])
    decreases |refs|
  {
    if |refs| == 0 then Some([])
    else
      var head, rest := RenderRow(refs[0]), Rows(refs[1..]);
      assert forall i :: 1 <= i < |refs| ==> refs[i] == refs[1..][i - 1];
      if head.Some? && rest.Some? then Some([head.value] + rest.value) else None
  }

  /** The table body as the render draws it, or `None` when it throws. */
  function Table(s: RefsState): (t: Option<seq<Row>>)
    ensures t.Some? <==> s.references.Some? && forall i :: 0 <= i < |s.references.value| ==> Drawable(s.references.value[i])
    ensures t.Some? ==> |t.value| == |s.references.value|
    ensures t.Some? ==> forall i :: 0 <= i < |t.value| ==> RenderRow(s.references.value[i]) == Some(t.value[i])
  {
    if s.references.None? then None else Rows(s.references.value)
  }

  // ---------------------------------------------------------------------------
  // Corrected table: a book without links draws an empty column
  // ---------------------------------------------------------------------------

  /** `(book.book_links || []).map(...)`: a book without `book_links` draws
      no spans instead of throwing. */
  function BookCellsCorrected(book: AdminDb.BookDoc, t: string): (cells: seq<Option<string>>)
    ensures book.links.None? ==> cells == []
    ensures book.links.Some? ==> BookCells(book, t) == Some(cells)
  {
    if book.links.None? then [] else Cells(book.links.value, t)
  }

  function ColumnCorrected(books: seq<AdminDb.BookDoc>, t: string): (c: seq<seq<Option<string>>>)
    ensures |c| == |books|
    ensures forall j :: 0 <= j < |books| ==> c[j] == BookCellsCorrected(books[j], t)
  {
    seq(|books|, j requires 0 <= j < |books| => BookCellsCorrected(books[j], t))
  }

  /** The corrected row: only a reference without `books` still throws. */
  function RenderRowCorrected(reference: AdminDb.ReferenceDoc): (r: Option<Row>)
    ensures r.Some? <==> reference.books.Some?
    ensures Drawable(reference) ==> r == RenderRow(reference)
  {
    if reference.books.None? then None
    else
      var books := reference.books.value;
      var r := Some(Row(reference.title, ColumnCorrected(books, AdminDb.AMAZON),
                        ColumnCorrected(books, AdminDb.WATERSTONES), ColumnCorrected(books, AdminDb.BOOKDEPOSITORY)));
      if Drawable(reference) then
        ColumnsAgree(books, AdminDb.AMAZON);
        ColumnsAgree(books, AdminDb.WATERSTONES);
        ColumnsAgree(books, AdminDb.BOOKDEPOSITORY);
        r
      else r
  }

  /** Where every book has links, the corrected column is the written one. */
  lemma ColumnsAgree(books: seq<AdminDb.BookDoc>, t: string)
    requires forall j :: 0 <= j < |books| ==> books[j].links.Some?
    ensures Column(books, t) == Some(ColumnCorrected(books, t))
  {
    var c, cc := Column(books, t).value, ColumnCorrected(books, t);
    forall j | 0 <= j < |books|
      ensures c[j] == cc[j]
    {
      assert BookCells(books[j], t) == Some(c[j]);
      assert BookCells(books[j], t) == Some(BookCellsCorrected(books[j], t));
    }
    assert c == cc;
  }

  /** The corrected table, or `None` when it throws. */
  function TableCorrected(s: RefsState): (t: Option<seq<Row>>)
    ensures t.Some? <==> s.references.Some? && forall i :: 0 <= i < |s.references.value| ==> s.references.value[i].books.Some?
    ensures t.Some? ==> |t.value| == |s.references.value|
    ensures t.Some? ==> forall i :: 0 <= i < |t.value| ==> RenderRowCorrected(s.references.value[i]) == Some(t.value[i])
  {
    if s.references.None? then None
    else
      var refs := s.references.value;
      if forall i :: 0 <= i < |refs| ==> refs[i].books.Some? then
        Some(seq(|refs|, i requires 0 <= i < |refs| => RenderRowCorrected(refs[i]).value))
      else None
  }

  /** The corrected table differs from the written one only where the
      written one throws. */
  lemma CorrectionOnlyChangesCrashes(s: RefsState)
    ensures !RenderThrows(s) ==> TableCorrected(s) == Table(s)
  {
    if !RenderThrows(s) {
      var refs := s.references.value;
      assert forall i :: 0 <= i < |refs| ==> refs[i].books.Some?;
      var t, tc := Table(s).value, TableCorrected(s).value;
      forall i | 0 <= i < |t|
        ensures tc[i] == t[i]
      {
        assert Drawable(refs[i]);
        assert RenderRowCorrected(refs[i]) == RenderRow(refs[i]);
      }
      assert tc == t;
    }
  }

  /** As written, a listed book without `book_links` (every book the
      producer stores) crashes the page; corrected, the reference is drawn
      with empty link columns. */
  lemma UnlinkedBookCrashesPage(title: string, name: string, author: string, status: int)
    ensures var book := AdminDb.BookDoc(name, author, None);
      var r := OnFilterResponse(Initial, FilterRequest(Js.Null, Js.Null, Js.Null),
                                Js.Responded(status, Some([AdminDb.ReferenceDoc(title, Some([book]))])));
      RenderThrows(r) && TableCorrected(r) == Some([Row(title, [[]], [[]], [[]])])
  {
    var book := AdminDb.BookDoc(name, author, None);
    var reference := AdminDb.ReferenceDoc(title, Some([book]));
    assert reference.books.value[0] == book;
    assert !Drawable(reference);
    assert ColumnCorrected([book], AdminDb.AMAZON) == [[]];
    assert ColumnCorrected([book], AdminDb.WATERSTONES) == [[]];
    assert ColumnCorrected([book], AdminDb.BOOKDEPOSITORY) == [[]];
    assert RenderRowCorrected(reference) == Some(Row(title, [[]], [[]], [[]]));
    var r := OnFilterResponse(Initial, FilterRequest(Js.Null, Js.Null, Js.Null),
                              Js.Responded(status, Some([reference])));
    assert r.references == Some([reference]);
    assert Table(r).None?;
    assert TableCorrected(r).value[0] == Row(title, [[]], [[]], [[]]);
    assert TableCorrected(r).value == [Row(title, [[]], [[]], [[]])];
    assert RenderThrows(r);
  }

  /** The URLs shown, in order. */
  function Shown(cells: seq<Option<string>>): seq<string> {
    if |cells| == 0 then []
    else (if cells[0].Some? then [cells[0].value] else []) + Shown(cells[1..])
  }

  function Urls(links: seq<AdminDb.Link>): seq<string> {
    if |links| == 0 then [] else [links[0].linkUrl] + Urls(links[1..])
  }

  /** A column shows exactly the URLs of the book's links of its type, in
      their stored order. */
  lemma {:induction false} ColumnShowsLinksOfItsType(links: seq<AdminDb.Link>, t: string)
    ensures Shown(Cells(links, t)) == Urls(AdminDb.OfType(links, t))
    decreases |links|
  {
    if |links| > 0 {
      ColumnShowsLinksOfItsType(links[1..], t);
      var c := Cells(links, t);
      assert c[1..] == Cells(links[1..], t);
      if links[0].linkType == t {
        assert AdminDb.OfType(links, t) == [links[0]] + AdminDb.OfType(links[1..], t);
        assert Urls([links[0]] + AdminDb.OfType(links[1..], t))[1..] == Urls(AdminDb.OfType(links[1..], t)) by {
          assert ([links[0]] + AdminDb.OfType(links[1..], t))[1..] == AdminDb.OfType(links[1..], t);
        }
      } else {
        assert AdminDb.OfType(links, t) == AdminDb.OfType(links[1..], t);
      }
    }
  }

  /** The three columns split a book's links: a link of one of the three
      types shows its URL in exactly that column, a link of any other type
      in none. */
  lemma ColumnsPartitionLinks(links: seq<AdminDb.Link>, i: nat)
    requires i < |links|
    ensures var shownIn := (if Cells(links, AdminDb.AMAZON)[i].Some? then 1 else 0)
      + (if Cells(links, AdminDb.WATERSTONES)[i].Some? then 1 else 0)
      + (if Cells(links, AdminDb.BOOKDEPOSITORY)[i].Some? then 1 else 0);
      shownIn == (if links[i].linkType in {AdminDb.AMAZON, AdminDb.WATERSTONES, AdminDb.BOOKDEPOSITORY} then 1 else 0)
  {
    var t := links[i].linkType;
    LinkTypesDistinct();
    assert Cells(links, AdminDb.AMAZON)[i].Some? <==> t == AdminDb.AMAZON;
    assert Cells(links, AdminDb.WATERSTONES)[i].Some? <==> t == AdminDb.WATERSTONES;
    assert Cells(links, AdminDb.BOOKDEPOSITORY)[i].Some? <==> t == AdminDb.BOOKDEPOSITORY;
  }

  /** The three link types are different strings: they start differently. */
  lemma LinkTypesDistinct()
    ensures AdminDb.AMAZON != AdminDb.WATERSTONES
    ensures AdminDb.AMAZON != AdminDb.BOOKDEPOSITORY
    ensures AdminDb.WATERSTONES != AdminDb.BOOKDEPOSITORY
  {
    assert AdminDb.AMAZON[0] == 'a' && AdminDb.WATERSTONES[0] == 'w' && AdminDb.BOOKDEPOSITORY[0] == 'b';
  }
}

=== FILE: admin_users.dfy ===
/** The users page of the admin front end
    (react/apps/admin/src/components/Users.js): the two filter dropdowns,
    the user list they select, and the checkboxes that update a user.

    Filter values are JavaScript values: `null`, 1 and 2 are the ones the
    dropdowns produce. */
module AdminUsers {
  import opened Wrappers
  import Js
  import AdminDb
  import AdminAuthModels
  import opened AdminFilters

  // ---------------------------------------------------------------------------
  // State and requests
  // ---------------------------------------------------------------------------

  /** A user as listed by the admin service. */
  datatype UserRow = UserRow(username: string, internalSubId: string, requestedJoin: Js.Value, isAuthor: Js.Value)

  /** The component state; `users` is `None` when the last answer had no
      `users` field, so the state holds `undefined`. */
  datatype UsersState = UsersState(users: Option<seq<UserRow>>, requestedJoinFilter: Js.Value, isAuthorFilter: Js.Value)

  const Initial: UsersState := UsersState(Some([]), Js.Null, Js.Null)

  /** The render maps over `users`, which throws on `undefined`. */
  predicate RenderThrows(s: UsersState) {
    s.users.None?
  }

  /** A request the page sends: the filtered list (the filter values it was
      sent with) or an update of one flag of one user. */
  datatype Request =
    | FilterUsers(requestedJoin: Js.Value, isAuthor: Js.Value)
    | UpdateUser(body: AdminAuthModels.UpdateUserRequest)

  /** `handleRequestJoinFilter`: the chosen requested-join value with the
      current is-author value. */
  function SelectRequestedJoin(s: UsersState, key: string): Request {
    FilterUsers(FilterOfKey(key), s.isAuthorFilter)
  }

  /** `handleIsAuthorFilter`: the current requested-join value with the
      chosen is-author value. */
  function SelectIsAuthor(s: UsersState, key: string): Request {
    FilterUsers(s.requestedJoinFilter, FilterOfKey(key))
  }

  /** The handler of `handleFilter`: on an answer the user list and the
      filter values the request was sent with are stored together; a failed
      request changes nothing. `body` is the response's `users` field, `None`
      when the answer has none (an error body, whatever its status), after
      which the page cannot render. */
  function OnFilterResponse(s: UsersState, requestedJoin: Js.Value, isAuthor: Js.Value, outcome: Js.Fetch<Option<seq<UserRow>>>)
    : (r: UsersState)
    ensures outcome.Failed? ==> r == s
    ensures outcome.Responded? ==> r == UsersState(outcome.body, requestedJoin, isAuthor)
    ensures outcome.Responded? ==> (RenderThrows(r) <==> outcome.body.None?)
  {
    match outcome
    case Failed => s
    case Responded(_, users) => UsersState(users, requestedJoin, isAuthor)
  }

  /** A filter choice answered by the service keeps the other filter and
      shows the chosen item's text as the title. */
  lemma ChoiceKeepsOtherFilter(s: UsersState, key: string, status: int, users: Option<seq<UserRow>>)
    requires key == "0" || key == "1" || key == "2"
    ensures var req := SelectRequestedJoin(s, key);
      var r := OnFilterResponse(s, req.requestedJoin, req.isAuthor, Js.Responded(status, users));
      r.isAuthorFilter == s.isAuthorFilter && r.users == users
      && FilterLabel(r.requestedJoinFilter) == Some(if key == "1" then "Yes" else if key == "2" then "No" else "-")
    ensures var req := SelectIsAuthor(s, key);
      var r := OnFilterResponse(s, req.requestedJoin, req.isAuthor, Js.Responded(status, users));
      r.requestedJoinFilter == s.requestedJoinFilter && r.users == users
      && FilterLabel(r.isAuthorFilter) == Some(if key == "1" then "Yes" else if key == "2" then "No" else "-")
  {
  }

  /** From dropdown to database: the filter the service builds for two
      chosen keys holds, for each flag, exactly the code of its key, so "Yes"
      selects users with the flag set, "No" those without, and "-" does not
      filter. */
  lemma DropdownsSelectDbFilter(joinKey: string, authorKey: string)
    ensures var f := AdminDb.UsersFilter(Code(FilterOfKey(joinKey)).value, Code(FilterOfKey(authorKey)).value);
      AdminDb.FlagOf(f, AdminDb.REQUESTED_JOIN) == KeyCode(joinKey)
      && AdminDb.FlagOf(f, AdminDb.IS_AUTHOR) == KeyCode(authorKey)
  {
    AdminDb.UsersFilterRoundTrip(Code(FilterOfKey(joinKey)).value, Code(FilterOfKey(authorKey)).value);
  }

  // ---------------------------------------------------------------------------
  // Checkboxes
  // ---------------------------------------------------------------------------

  /** A flag's checkbox: checked and labelled "Yes" exactly when the flag is
      truthy. */
  function Checkbox(flag: Js.Value): (r: (bool, string))
    ensures r.0 <==> Js.Truthy(flag)
    ensures r.1 == (if r.0 then "Yes" else "No")
  {
    if Js.Truthy(flag) then (true, "Yes") else (false, "No")
  }

  /** `updateRequestedJoin`: the body names the user and the new
      requested-join value only. */
  function ToggleRequestedJoin(user: UserRow, checked: bool): (req: Request)
    ensures req.UpdateUser? && req.body.internalSubId == user.internalSubId
    ensures req.body.requestedJoin == Some(checked) && req.body.isAuthor.None?
  {
    UpdateUser(AdminAuthModels.UpdateUserRequest(user.internalSubId, Some(checked), None))
  }

  /** `updateIsAuthor`: the body names the user and the new is-author value
      only. */
  function ToggleIsAuthor(user: UserRow, checked: bool): (req: Request)
    ensures req.UpdateUser? && req.body.internalSubId == user.internalSubId
    ensures req.body.isAuthor == Some(checked) && req.body.requestedJoin.None?
  {
    UpdateUser(AdminAuthModels.UpdateUserRequest(user.internalSubId, None, Some(checked)))
  }

  /** The handler of an update: when the answer's `success` is truthy, the
      list is fetched again with the filters current at that moment;
      otherwise, and on failure, nothing follows. */
  function OnUpdateResponse(s: UsersState, outcome: Js.Fetch<Js.Value>): (next: Option<Request>)
    ensures next.Some? <==> outcome.Responded? && Js.Truthy(outcome.body)
    ensures next.Some? ==> next.value == FilterUsers(s.requestedJoinFilter, s.isAuthorFilter)
  {
    match outcome
    case Responded(_, success) =>
      if Js.Truthy(success) then Some(FilterUsers(s.requestedJoinFilter, s.isAuthorFilter)) else None
    case Failed => None
  }

  /** A requested-join checkbox change sends an update the service accepts
      for a well-formed id, and it cannot touch the user's author flag. */
  lemma ToggleKeepsOtherFlag(user: UserRow, checked: bool, stored: seq<AdminDb.UserDoc>)
    requires |user.internalSubId| >= 36
    ensures var req := ToggleRequestedJoin(user, checked);
      AdminAuthModels.RejectedUpdateFields(req.body) == {}
      && var (stored', _) := AdminDb.UpdateUser(stored, req.body.internalSubId, req.body.requestedJoin, req.body.isAuthor);
         forall k :: 0 <= k < |stored| ==> stored'[k].isAuthor == stored[k].isAuthor
  {
    AdminAuthModels.UpdateRequestOmittingAuthorKeepsIt(stored, ToggleRequestedJoin(user, checked).body);
  }
}

=== FILE: consumer_search.dfy ===
/** The request pairing of the consumer's `/search` endpoint
    (python/apps/consumer/consumer/main.py).

    The body is NDJSON in the shape Elasticsearch's `_msearch` expects:
    optional header objects (index, preference, ...) each followed by a query
    object. The endpoint rebuilds a multi-search from the decoded list: a
    non-empty object without a "query" key is a header and becomes the
    pending params; every other object becomes one search, carrying the
    pending params if there are any, which are then cleared. */
module ConsumerSearch {
  import opened Wrappers

  datatype Json =
    | JNull
    | JBool(b: bool)
    | JNum(n: int)
    | JStr(s: string)
    | JArray(items: seq<Json>)
    | JObject(fields: map<string, Json>)

  /** One decoded NDJSON line. */
  type Object = map<string, Json>

  /** `item and 'query' not in item`: a non-empty object with no query. */
  predicate IsHeader(item: Object) {
    |item| > 0 && "query" !in item
  }

  /** One search of the multi-search: its body and the params it carries. */
  datatype SearchRequest = SearchRequest(body: Object, params: Option<Object>)

  function Last<T>(s: seq<T>): T
    requires |s| > 0
  {
    s[|s| - 1]
  }

  /** The header immediately before the next item, if the last item read was one. */
  function PrecedingHeader(read: seq<Object>): (h: Option<Object>)
    ensures h.Some? ==> IsHeader(h.value)
  {
    if |read| > 0 && IsHeader(Last(read)) then Some(Last(read)) else None
  }

  /** The searches a body should produce, stated item by item: a header adds
      nothing; any other item adds one search whose params are the item just
      before it when that item is a header. */
  function Expected(items: seq<Object>): (searches: seq<SearchRequest>)
  {
    if |items| == 0 then []
    else
      var read, item := items[..|items| - 1], Last(items);
      Expected(read) + (if IsHeader(item) then [] else [SearchRequest(item, PrecedingHeader(read))])
  }

  /** The items that are not headers, in input order. */
  function Queries(items: seq<Object>): (qs: seq<Object>)
    ensures forall q :: q in qs ==> q in items && !IsHeader(q)
  {
    if |items| == 0 then []
    else
      var read, item := items[..|items| - 1], Last(items);
      Queries(read) + (if IsHeader(item) then [] else [item])
  }

  /** The loop of `search` (lines 117-131), with `ms.add` appending to a list. */
  method Pair(items: seq<Object>) returns (searches: seq<SearchRequest>)
    ensures searches == Expected(items)
  {
    var params: Option<Object> := None;
    searches := [];
    var i := 0;
    while i < |items|
      invariant 0 <= i <= |items|
      invariant searches == Expected(items[..i])
      invariant params == PrecedingHeader(items[..i])
    {
      var item := items[i];
      assert items[..i + 1][..i] == items[..i];
      if IsHeader(item) {
        params := Some(item);
      } else {
        var search := SearchRequest(item, None);
        if params.Some? {
          search := search.(params := params);
          params := None;
        }
        searches := searches + [search];
      }
      i := i + 1;
    }
    assert items[..i] == items;
  }

  /** One search per non-header item, with the items as bodies in input order. */
  lemma {:induction false} ExpectedBodies(items: seq<Object>)
    ensures |Expected(items)| == |Queries(items)|
    ensures forall k :: 0 <= k < |Expected(items)| ==> Expected(items)[k].body == Queries(items)[k]
    decreases |items|
  {
    if |items| > 0 {
      ExpectedBodies(items[..|items| - 1]);
    }
  }

  /** Params attach only to the search right after a header: a search made
      from an item preceded by a non-header carries none. */
  lemma NoParamsWithoutHeader(read: seq<Object>, previous: Object, item: Object)
    requires !IsHeader(previous) && !IsHeader(item)
    ensures Last(Expected(read + [previous] + [item])) == SearchRequest(item, None)
  {
    var s := read + [previous] + [item];
    assert s[..|s| - 1] == read + [previous];
  }

  /** An empty object is not a header: it adds a search with no params of its own. */
  lemma EmptyObjectIsAQuery(read: seq<Object>)
    ensures |Expected(read + [map[]])| == |Expected(read)| + 1
  {
    assert (read + [map[]])[..|read|] == read;
  }

  /** A header with no query after it is dropped. */
  lemma TrailingHeaderDropped(read: seq<Object>, header: Object)
    requires IsHeader(header)
    ensures Expected(read + [header]) == Expected(read)
  {
    assert (read + [header])[..|read|] == read;
  }

  /** Of two headers in a row only the second counts: the first is lost
      whatever follows. */
  lemma {:induction false} SecondHeaderWins(read: seq<Object>, h1: Object, h2: Object, rest: seq<Object>)
    requires IsHeader(h1) && IsHeader(h2)
    ensures Expected(read + [h1, h2] + rest) == Expected(read + [h2] + rest)
    decreases |rest|
  {
    var a, b := read + [h1, h2] + rest, read + [h2] + rest;
    if |rest| == 0 {
      assert a[..|a| - 1] == read + [h1];
      assert (read + [h1])[..|read|] == read;
      assert b[..|b| - 1] == read;
    } else {
      var rest' := rest[..|rest| - 1];
      assert a[..|a| - 1] == read + [h1, h2] + rest';
      assert b[..|b| - 1] == read + [h2] + rest';
      SecondHeaderWins(read, h1, h2, rest');
      assert PrecedingHeader(a[..|a| - 1]) == PrecedingHeader(b[..|b| - 1]);
    }
  }

  /** The response body: one entry per result, in order (lines 140-143);
      `toDict` is the client library's conversion of one result. */
  method CollectResponses<R>(results: seq<R>, toDict: R -> Json) returns (responses: seq<Json>)
    ensures |responses| == |results|
    ensures forall k :: 0 <= k < |results| ==> responses[k] == toDict(results[k])
  {
    responses := [];
    for i := 0 to |results|
      invariant |responses| == i
      invariant forall k :: 0 <= k < i ==> responses[k] == toDict(results[k])
    {
      responses := responses + [toDict(results[i])];
    }
  }
}

=== FILE: encrypt.dfy ===
/** Password hashing for admin operators (python/apps/admin/admin/encrypt.py and
    the identical `_encrypt_password` in admin/db_clients.py).

    The salt is derived from the username: lower-cased, spaces removed, hashed
    with SHA-256, cut to 21 hex digits and closed with 'O', as bcrypt wants a
    22-character salt whose last character is one of ".Oeu". SHA-256 and bcrypt
    themselves are parameters: `sha` returns the hex digest of its input and
    `bcrypt(salt, password)` the bcrypt hash. */
module Encrypt {
  import Text

  predicate IsHexDigit(c: char) {
    '0' <= c <= '9' || 'a' <= c <= 'f'
  }

  /** What `hashlib.sha256(...).hexdigest()` returns: 64 lower-case hex digits. */
  predicate IsSha256Hex(d: string) {
    |d| == 64 && forall i :: 0 <= i < |d| ==> IsHexDigit(d[i])
  }

  /** The username as it enters the salt: lower-cased, every space removed. */
  function NormaliseUsername(username: string): (n: string)
    ensures ' ' !in n
    ensures forall i :: 0 <= i < |n| ==> !('A' <= n[i] <= 'Z')
    ensures |n| <= |username|
    ensures forall c :: c != ' ' && !('A' <= c <= 'Z') && !('a' <= c <= 'z') ==>
      multiset(n)[c] == multiset(username)[c]
  {
    var lowered := Text.Lower(username);
    var n := Text.RemoveSpaces(lowered);
    RemoveSpacesKeepsLower(lowered);
    forall c | c != ' ' && !('A' <= c <= 'Z') && !('a' <= c <= 'z')
      ensures multiset(n)[c] == multiset(username)[c]
    {
      Text.LowerKeepsOthers(username, c);
    }
    n
  }

  /** A username already in normal form (no spaces, no capitals) is its own
      normal form. */
  lemma NormalFormIsFixed(username: string)
    requires ' ' !in username
    requires forall i :: 0 <= i < |username| ==> !('A' <= username[i] <= 'Z')
    ensures NormaliseUsername(username) == username
  {
    assert Text.Lower(username) == username;
    Text.RemoveSpacesOfSpaceless(username);
  }

  /** Normalising twice is normalising once. */
  lemma NormaliseIdempotent(username: string)
    ensures NormaliseUsername(NormaliseUsername(username)) == NormaliseUsername(username)
  {
    NormalFormIsFixed(NormaliseUsername(username));
  }

  /** The 22-character salt cut from a digest: at most 21 characters of it, then 'O'. */
  function SaltOfDigest(digest: string): (salt: string)
    ensures |salt| > 0 && salt[|salt| - 1] == 'O'
    ensures |digest| > 21 ==> |salt| == 22 && salt[..21] == digest[..21]
    ensures |digest| <= 21 ==> salt == digest + "O"
  {
    (if |digest| > 21 then digest[..21] else digest) + "O"
  }

  /** The salt `encrypt_password` hands to bcrypt for this username. */
  function Salt(username: string, sha: string -> string): string {
    SaltOfDigest(sha(NormaliseUsername(username)))
  }

  /** `encrypt_password(username, password)`. */
  function EncryptPassword(username: string, password: string,
                           sha: string -> string, bcrypt: (string, string) -> string): (h: string)
    ensures forall other :: NormaliseUsername(other) == NormaliseUsername(username) ==>
      h == bcrypt(Salt(other, sha), password)
    ensures IsSha256Hex(sha(NormaliseUsername(username))) ==>
      exists salt :: |salt| == 22 && salt[21] == 'O' && h == bcrypt(salt, password)
  {
    if IsSha256Hex(sha(NormaliseUsername(username))) then
      SaltShape(username, sha);
      bcrypt(Salt(username, sha), password)
    else
      bcrypt(Salt(username, sha), password)
  }

  /** Given a genuine SHA-256 hex digest, the salt is 22 characters: 21
      lower-case hex digits followed by 'O'. */
  lemma SaltShape(username: string, sha: string -> string)
    requires IsSha256Hex(sha(NormaliseUsername(username)))
    ensures |Salt(username, sha)| == 22
    ensures Salt(username, sha)[21] == 'O'
    ensures forall i :: 0 <= i < 21 ==> IsHexDigit(Salt(username, sha)[i])
  {
    var d := sha(NormaliseUsername(username));
    var salt := Salt(username, sha);
    assert salt == d[..21] + "O";
    forall i | 0 <= i < 21
      ensures IsHexDigit(salt[i])
    {
      assert salt[i] == d[i];
    }
  }

  /** Upper- and lower-case spellings of a username share one salt. */
  lemma SaltIgnoresCase(username: string, sha: string -> string)
    ensures Salt(Text.Lower(username), sha) == Salt(username, sha)
  {
    assert Text.Lower(Text.Lower(username)) == Text.Lower(username);
  }

  /** Inserting a space anywhere in a username does not change its salt. */
  lemma SaltIgnoresSpaces(before: string, after: string, sha: string -> string)
    ensures Salt(before + " " + after, sha) == Salt(before + after, sha)
  {
    var lb, la := Text.Lower(before), Text.Lower(after);
    LowerConcat(before, " " + after);
    LowerConcat(" ", after);
    assert before + " " + after == before + (" " + after);
    assert Text.Lower(" ") == " ";
    LowerConcat(before, after);
    RemoveSpacesConcat(lb, " " + la);
    RemoveSpacesConcat(" ", la);
    assert Text.RemoveSpaces(" ") == "";
    RemoveSpacesConcat(lb, la);
    assert NormaliseUsername(before + " " + after) == NormaliseUsername(before + after);
  }

  lemma LowerConcat(a: string, b: string)
    ensures Text.Lower(a + b) == Text.Lower(a) + Text.Lower(b)
  {
  }

  /** The hash depends on the username only through its normalised form, so
      two spellings that normalise alike produce the same stored password;
      operator lookup relies on this. */
  lemma HashDependsOnNormalisedName(u1: string, u2: string, password: string,
                                    sha: string -> string, bcrypt: (string, string) -> string)
    requires NormaliseUsername(u1) == NormaliseUsername(u2)
    ensures EncryptPassword(u1, password, sha, bcrypt) == EncryptPassword(u2, password, sha, bcrypt)
  {
  }

  lemma {:induction false} RemoveSpacesConcat(a: string, b: string)
    ensures Text.RemoveSpaces(a + b) == Text.RemoveSpaces(a) + Text.RemoveSpaces(b)
    decreases |a|
  {
    if |a| == 0 {
      assert a + b == b;
    } else {
      assert (a + b)[0] == a[0];
      assert (a + b)[1..] == a[1..] + b;
      RemoveSpacesConcat(a[1..], b);
    }
  }

  lemma {:induction false} RemoveSpacesKeepsLower(s: string)
    requires forall i :: 0 <= i < |s| ==> !('A' <= s[i] <= 'Z')
    ensures forall i :: 0 <= i < |Text.RemoveSpaces(s)| ==> !('A' <= Text.RemoveSpaces(s)[i] <= 'Z')
    decreases |s|
  {
    if |s| > 0 {
      RemoveSpacesKeepsLower(s[1..]);
    }
  }
}

=== FILE: frontend_app.dfy ===
/** The shell of the front end (react/apps/frontend/src/components/App.js):
    reading the one-time authentication token from the page's query string,
    the requests that establish the session, and which views are shown. */
module FrontendApp {
  import opened Wrappers
  import Js

  // ---------------------------------------------------------------------------
  // The authentication token in the query string
  // ---------------------------------------------------------------------------

  const AUTH_KEY: string := "authToken="

  /** The pattern `authToken=([^&]+)` matches at position `i`: the key, then
      at least one character other than '&'. */
  predicate MatchAt(query: string, i: int) {
    0 <= i && i + |AUTH_KEY| < |query| && query[i..i + |AUTH_KEY|] == AUTH_KEY && query[i + |AUTH_KEY|] != '&'
  }

  /** `[^&]+` taken greedily: the longest prefix without '&'. */
  function Run(s: string): (r: string)
    ensures r <= s
    ensures forall k :: 0 <= k < |r| ==> r[k] != '&'
    ensures |r| == |s| || s[|r|] == '&'
  {
    if |s| == 0 || s[0] == '&' then [] else [s[0]] + Run(s[1..])
  }

  /** `t` is the run `[^&]+` captures at position `k` of `query`: it is
      there, holds no '&', and is followed by '&' or the end. */
  predicate CapturedAt(query: string, k: int, t: string) {
    0 <= k && k + |t| <= |query| && query[k..k + |t|] == t
    && (forall c :: 0 <= c < |t| ==> t[c] != '&')
    && (k + |t| == |query| || query[k + |t|] == '&')
  }

  lemma RunIsCaptured(query: string, k: nat)
    requires k <= |query|
    ensures CapturedAt(query, k, Run(query[k..]))
  {
    var t := Run(query[k..]);
    assert query[k..][..|t|] == t;
    assert query[k..k + |t|] == query[k..][..|t|];
  }

  /** The regular expression search from position `from` on: the first
      position where the pattern matches wins, and the token is the run it
      captures there. */
  function FindToken(query: string, from: nat): (r: Option<string>)
    ensures r.Some? ==> |r.value| > 0
    ensures r.None? ==> forall i :: from <= i ==> !MatchAt(query, i)
    ensures r.Some? ==> exists i :: (from <= i && MatchAt(query, i)
      && (forall j :: from <= j < i ==> !MatchAt(query, j))
      && CapturedAt(query, i + |AUTH_KEY|, r.value))
    decreases |query| - from
  {
    if from + |AUTH_KEY| >= |query| then None
    else if MatchAt(query, from) then
      RunIsCaptured(query, from + |AUTH_KEY|);
      Some(Run(query[from + |AUTH_KEY|..]))
    else FindToken(query, from + 1)
  }

  /** `(window.location.search.match(/authToken=([^&]+)/) || [])[1]`: the
      captured group of the leftmost match, or `undefined` (`None`). A token
      found is never empty and holds no '&'. */
  function ExtractAuthToken(query: string): (r: Option<string>)
    ensures r.Some? ==> |r.value| > 0 && forall k :: 0 <= k < |r.value| ==> r.value[k] != '&'
    ensures r.None? <==> forall i :: 0 <= i ==> !MatchAt(query, i)
  {
    FindToken(query, 0)
  }

  /** The pattern matches at no position from `from` up to `until`. */
  predicate NoMatchBetween(query: string, from: nat, until: nat)
    decreases until - from
  {
    from >= until || (!MatchAt(query, from) && NoMatchBetween(query, from + 1, until))
  }

  lemma {:induction false} NoMatchBetweenOfAll(query: string, from: nat, until: nat)
    requires forall j :: from <= j < until ==> !MatchAt(query, j)
    ensures NoMatchBetween(query, from, until)
    decreases until - from
  {
    if from < until {
      NoMatchBetweenOfAll(query, from + 1, until);
    }
  }

  /** The search passes over positions where the pattern does not match. */
  lemma {:induction false} SkipTo(query: string, from: nat, until: nat)
    requires from <= until && until + |AUTH_KEY| < |query|
    requires NoMatchBetween(query, from, until)
    ensures FindToken(query, from) == FindToken(query, until)
    decreases until - from
  {
    if from < until {
      FindTokenStep(query, from);
      SkipTo(query, from + 1, until);
    }
  }

  /** One step of the search: a position where the pattern does not match
      hands over to the next one. */
  lemma FindTokenStep(query: string, from: nat)
    requires from + |AUTH_KEY| < |query| && !MatchAt(query, from)
    ensures FindToken(query, from) == FindToken(query, from + 1)
  {
  }

  /** The pattern cannot match where the character is not an 'a'. */
  lemma NoMatchWithoutA(query: string, i: nat)
    requires i < |query| && query[i] != 'a'
    ensures !MatchAt(query, i)
  {
    if i + |AUTH_KEY| < |query| {
      assert query[i..i + |AUTH_KEY|][0] == query[i];
    }
  }

  lemma {:induction false} RunOfToken(token: string, rest: string)
    requires forall k :: 0 <= k < |token| ==> token[k] != '&'
    requires rest == [] || rest[0] == '&'
    ensures Run(token + rest) == token
    decreases |token|
  {
    if |token| == 0 {
      assert token + rest == rest;
    } else {
      assert (token + rest)[1..] == token[1..] + rest;
      RunOfToken(token[1..], rest);
    }
  }

  /** The pattern's first match after a prefix where it does not match
      captures the token up to the next '&'. */
  lemma FirstMatchAfter(prefix: string, token: string, rest: string)
    requires |token| > 0 && forall k :: 0 <= k < |token| ==> token[k] != '&'
    requires rest == [] || rest[0] == '&'
    requires forall j :: 0 <= j < |prefix| ==> !MatchAt(prefix + AUTH_KEY + token + rest, j)
    ensures ExtractAuthToken(prefix + AUTH_KEY + token + rest) == Some(token)
  {
    var q := prefix + AUTH_KEY + token + rest;
    var i := |prefix|;
    assert q[i..i + |AUTH_KEY|] == AUTH_KEY;
    assert q[i + |AUTH_KEY|..] == token + rest;
    assert q[i + |AUTH_KEY|] == token[0];
    RunOfToken(token, rest);
    NoMatchBetweenOfAll(q, 0, i);
    SkipTo(q, 0, i);
  }

  /** A query string `?authToken=<t>`, optionally followed by `&...`, yields
      exactly `t`; the match is unanchored, so a longer parameter name that
      ends in `authToken` matches too. */
  lemma TokenRoundTrip(token: string, rest: string)
    requires |token| > 0 && forall k :: 0 <= k < |token| ==> token[k] != '&'
    requires rest == [] || rest[0] == '&'
    ensures ExtractAuthToken("?" + AUTH_KEY + token + rest) == Some(token)
    ensures ExtractAuthToken("?x" + AUTH_KEY + token + rest) == Some(token)
  {
    forall j | 0 <= j < |"?"| ensures !MatchAt("?" + AUTH_KEY + token + rest, j) {
      NoMatchWithoutA("?" + AUTH_KEY + token + rest, j);
    }
    FirstMatchAfter("?", token, rest);
    forall j | 0 <= j < |"?x"| ensures !MatchAt("?x" + AUTH_KEY + token + rest, j) {
      NoMatchWithoutA("?x" + AUTH_KEY + token + rest, j);
    }
    FirstMatchAfter("?x", token, rest);
  }

  /** An empty value does not match, and the search moves on to a later
      occurrence of the key. */
  lemma EmptyValueSkipped()
    ensures ExtractAuthToken("authToken=&authToken=x") == Some("x")
    ensures ExtractAuthToken("authToken=") == None
  {
    var prefix := "authToken=&";
    var q := prefix + AUTH_KEY + "x" + "";
    assert q == "authToken=&authToken=x";
    forall j | 0 <= j < |prefix| ensures !MatchAt(q, j) {
      if j > 0 {
        NoMatchWithoutA(q, j);
      }
    }
    FirstMatchAfter(prefix, "x", "");
  }

  // ---------------------------------------------------------------------------
  // Session requests
  // ---------------------------------------------------------------------------

  /** The requests `authenticate` leads to: the token exchange, sent with an
      `Authorization: Bearer <token>` header, and the session status check. */
  datatype Request = Exchange(authorization: string) | StatusCheck

  /** The requests `authenticate` issues once the token has been read,
      when the token exchange (if any) ends with `exchange`: with a token,
      the exchange and then, once it has answered with any status, the
      status check; without a token, the status check alone. */
  function Requests(token: Option<string>, exchange: Js.Fetch<()>): (calls: seq<Request>)
    ensures token.None? ==> calls == [StatusCheck]
    ensures token.Some? ==> |calls| >= 1 && calls[0] == Exchange("Bearer " + token.value)
    ensures token.Some? ==> (StatusCheck in calls <==> exchange.Responded?)
    ensures |calls| <= 2 && (|calls| == 2 ==> calls[1] == StatusCheck)
  {
    match token
    case None => [StatusCheck]
    case Some(t) => [Exchange("Bearer " + t)] + (if exchange.Responded? then [StatusCheck] else [])
  }

  /** `authenticate` for a page whose query string is `query`. */
  function Authenticate(query: string, exchange: Js.Fetch<()>): seq<Request> {
    Requests(ExtractAuthToken(query), exchange)
  }

  /** Every status code of the exchange leads to the status check, including
      the refusals. */
  lemma StatusCheckFollowsAnyAnswer(token: string, status: int)
    ensures Requests(Some(token), Js.Responded(status, ())) == [Exchange("Bearer " + token), StatusCheck]
  {
  }

  // ---------------------------------------------------------------------------
  // State and views
  // ---------------------------------------------------------------------------

  /** The component state that decides what is shown. `userLoggedIn` holds
      whatever the status response said, not necessarily a boolean. */
  datatype AppState = AppState(userLoggedIn: Js.Value, referencesOn: bool)

  const Initial: AppState := AppState(Js.Bool(false), false)

  /** `checkUserSessionStatus`'s handler: `body` is the response's
      `userLoggedIn` field (`Undefined` when absent). A failed request or an
      undecodable body changes nothing. */
  function OnStatus(s: AppState, outcome: Js.Fetch<Js.Value>): (r: AppState)
    ensures outcome.Failed? ==> r == s
    ensures outcome.Responded? ==> r.userLoggedIn == outcome.body
    ensures r.referencesOn == s.referencesOn
  {
    match outcome
    case Failed => s
    case Responded(_, v) => s.(userLoggedIn := v)
  }

  function OpenReferences(s: AppState): (r: AppState)
    ensures r.referencesOn && r.userLoggedIn == s.userLoggedIn
  {
    s.(referencesOn := true)
  }

  function CloseReferences(s: AppState): (r: AppState)
    ensures !r.referencesOn && r.userLoggedIn == s.userLoggedIn
  {
    s.(referencesOn := false)
  }

  /** Opening and closing are inverse on a closed view, and closing undoes
      opening from any state with the view closed. */
  lemma OpenCloseRoundTrip(s: AppState)
    ensures CloseReferences(OpenReferences(s)) == s.(referencesOn := false)
    ensures !s.referencesOn ==> CloseReferences(OpenReferences(s)) == s
    ensures s.referencesOn ==> OpenReferences(CloseReferences(s)) == s
  {
  }

  datatype NavItem = MyReferencesButton | LoginButton

  /** What `render` draws: the navbar entry, and whether Search and
      References are mounted. */
  datatype View = View(nav: NavItem, search: bool, references: bool)

  function Render(s: AppState): (v: View)
    ensures !(v.search && v.references)
    ensures v.references ==> v.nav == MyReferencesButton
    ensures v.nav == MyReferencesButton <==> Js.Truthy(s.userLoggedIn)
    ensures v.search <==> !s.referencesOn
  {
    View(
      if Js.Truthy(s.userLoggedIn) then MyReferencesButton else LoginButton,
      !s.referencesOn,
      Js.Truthy(s.userLoggedIn) && s.referencesOn)
  }

  /** The two main views never show together; with the references view open
      and no session, the page shows neither. */
  lemma ViewsExclusive(s: AppState)
    ensures !(Render(s).search && Render(s).references)
    ensures s.referencesOn && !Js.Truthy(s.userLoggedIn) ==> !Render(s).search && !Render(s).references
  {
  }

  /** The page as first drawn shows the login entry and the search view;
      a session status of `true` turns the entry into "My References";
      following it swaps the search view for the references view, and
      closing swaps them back. */
  lemma SessionWalkthrough(status: int)
    ensures Render(Initial) == View(LoginButton, true, false)
    ensures var s := OnStatus(Initial, Js.Responded(status, Js.Bool(true)));
      Render(s) == View(MyReferencesButton, true, false)
      && Render(OpenReferences(s)) == View(MyReferencesButton, false, true)
      && Render(CloseReferences(OpenReferences(s))) == Render(s)
  {
  }

  /** A status response that is truthy without being `true` (say the string
      "no") still counts as logged in, since the field is stored verbatim. */
  lemma StatusStoredVerbatim(status: int)
    ensures Render(OnStatus(Initial, Js.Responded(status, Js.Str("no")))).nav == MyReferencesButton
    ensures Render(OnStatus(Initial, Js.Responded(status, Js.Undefined))).nav == LoginButton
  {
  }
}

=== FILE: join_us.dfy ===
/** The "join us" page of the front end
    (react/apps/frontend/src/components/JoinUs.js): asking to become an
    author, and what the page does with the answer. */
module JoinUs {
  import Js

  /** The parent's callbacks the page calls, as the calls they make. */
  datatype Callback = SetAlert(message: string) | SetRequestedJoin(value: bool) | SetSearchOn

  datatype JoinState = JoinState(requested: Js.Value)

  const Initial: JoinState := JoinState(Js.Bool(false))

  /** The alert text: the source breaks the literal with a backslash at the
      end of a line, which keeps the indentation of the next line inside
      the string. */
  const PROCESSING_MESSAGE: string :=
    "We are processing your request! In the meantime you can continue searching. "
    + "\t\t\t\t\tVisit 'My Account' to check the status of your request"

  /** The callbacks run for a successful join. */
  const JoinedCallbacks: seq<Callback> := [SetAlert(PROCESSING_MESSAGE), SetRequestedJoin(true), SetSearchOn]

  /** The handler of `joinRequest`: `body` is the response's `requested`
      field. The state mirrors it; when it is truthy the three callbacks run
      once each, in order; a failed request changes nothing and calls
      nothing. */
  function OnJoinResponse(s: JoinState, outcome: Js.Fetch<Js.Value>): (r: (JoinState, seq<Callback>))
    ensures outcome.Failed? ==> r == (s, [])
    ensures outcome.Responded? ==> r.0.requested == outcome.body
    ensures |r.1| > 0 <==> outcome.Responded? && Js.Truthy(outcome.body)
    ensures |r.1| > 0 ==> r.1 == JoinedCallbacks
  {
    match outcome
    case Failed => (s, [])
    case Responded(_, requested) =>
      (JoinState(requested), if Js.Truthy(requested) then JoinedCallbacks else [])
  }

  /** Each callback runs at most once, and the join flag is only ever set to
      true. */
  lemma CallbacksOnce(s: JoinState, outcome: Js.Fetch<Js.Value>)
    ensures forall i, j :: 0 <= i < j < |OnJoinResponse(s, outcome).1| ==>
      OnJoinResponse(s, outcome).1[i] != OnJoinResponse(s, outcome).1[j]
    ensures forall v :: SetRequestedJoin(v) in OnJoinResponse(s, outcome).1 ==> v
  {
  }

  /** A refused request (`requested: false`) leaves the page quiet, and one
      without the field stores `undefined`. */
  lemma RefusalIsQuiet(status: int)
    ensures OnJoinResponse(Initial, Js.Responded(status, Js.Bool(false))) == (Initial, [])
    ensures OnJoinResponse(Initial, Js.Responded(status, Js.Undefined)) == (JoinState(Js.Undefined), [])
  {
  }
}

=== FILE: js.dfy ===
/** The slice of JavaScript value semantics the React components depend on:
    JSON values read out of a response body, truthiness, strict string
    comparison, and the two ways a `fetch` chain can end. */
module Js {

  /** A JSON-decoded field as the components see it; `Undefined` is what
      `data['key']` yields when the key is absent. */
  datatype Value =
    | Undefined
    | Null
    | Bool(b: bool)
    | Num(n: int)
    | Str(s: string)

  /** JavaScript truthiness: `undefined`, `null`, `false`, `0` and `""` are falsy. */
  predicate Truthy(v: Value) {
    match v
    case Undefined => false
    case Null => false
    case Bool(b) => b
    case Num(n) => n != 0
    case Str(s) => s != ""
  }

  /** `a < b` on two JavaScript strings: lexicographic order, where a
      proper prefix is smaller. Characters are compared by their Unicode
      scalar values; JavaScript compares UTF-16 code units, which orders the
      same except between a character above U+FFFF and one in
      U+E000..U+FFFF. */
  function StringLess(a: string, b: string): (r: bool)
    ensures var k := CommonPrefix(a, b);
      r <==> k < |b| && (k == |a| || a[k] < b[k])
    decreases |a|
  {
    if |a| == 0 then |b| > 0
    else if |b| == 0 then false
    else if a[0] != b[0] then a[0] < b[0]
    else StringLess(a[1..], b[1..])
  }

  /** The length of the longest common prefix of `a` and `b`. */
  function CommonPrefix(a: string, b: string): (k: nat)
    ensures k <= |a| && k <= |b|
    ensures a[..k] == b[..k]
    ensures k < |a| && k < |b| ==> a[k] != b[k]
    decreases |a|
  {
    if |a| == 0 || |b| == 0 || a[0] != b[0] then 0
    else
      var k := CommonPrefix(a[1..], b[1..]);
      assert a[..k + 1] == [a[0]] + a[1..][..k];
      assert b[..k + 1] == [b[0]] + b[1..][..k];
      k + 1
  }

  /** The string order is irreflexive. */
  lemma {:induction false} StringLessIrreflexive(a: string)
    ensures !StringLess(a, a)
    decreases |a|
  {
    if |a| > 0 {
      StringLessIrreflexive(a[1..]);
    }
  }

  /** The string order is total on distinct strings. */
  lemma {:induction false} StringLessTotal(a: string, b: string)
    requires a != b
    ensures StringLess(a, b) || StringLess(b, a)
    decreases |a|
  {
    if |a| > 0 && |b| > 0 && a[0] == b[0] {
      assert a == [a[0]] + a[1..];
      assert b == [b[0]] + b[1..];
      StringLessTotal(a[1..], b[1..]);
    }
  }

  /** The UTF-16 code units a character takes: two above U+FFFF. */
  function Units(c: char): (n: nat)
    ensures 1 <= n <= 2
  {
    if c as int >= 0x1_0000 then 2 else 1
  }

  /** `s.length`: the number of UTF-16 code units. */
  function Utf16Length(s: string): (n: nat)
    ensures |s| <= n <= 2 * |s|
  {
    if |s| == 0 then 0 else Units(s[0]) + Utf16Length(s[1..])
  }

  /** Below U+10000 every character is one code unit. */
  lemma {:induction false} Utf16LengthOfBmp(s: string)
    requires forall i :: 0 <= i < |s| ==> s[i] as int < 0x1_0000
    ensures Utf16Length(s) == |s|
    decreases |s|
  {
    if |s| > 0 {
      Utf16LengthOfBmp(s[1..]);
    }
  }

  /** `s.slice(0, n)` on whole characters: the longest prefix that takes at
      most `n` code units. */
  function SliceUnits(s: string, n: nat): (r: string)
    ensures r <= s
    ensures Utf16Length(r) <= n
    ensures r == s || Utf16Length(r) + Units(s[|r|]) > n
    ensures (forall i :: 0 <= i < |s| ==> Units(s[i]) == 1) ==> r == (if |s| <= n then s else s[..n])
  {
    if |s| == 0 || Units(s[0]) > n then ""
    else
      var rest := SliceUnits(s[1..], n - Units(s[0]));
      assert ([s[0]] + rest)[1..] == rest;
      [s[0]] + rest
  }

  /** Slicing a string at the length of one of its prefixes gives that
      prefix. */
  lemma {:induction false} SliceOfPrefix(a: string, b: string)
    ensures SliceUnits(a + b, Utf16Length(a)) == a
    decreases |a|
  {
    if |a| == 0 {
      assert a + b == b;
    } else {
      var s, tail := a + b, a[1..];
      assert s[0] == a[0];
      assert s[1..] == tail + b;
      var m := Utf16Length(tail);
      assert Utf16Length(a) == Units(a[0]) + m;
      SliceUnitsStep(s, Utf16Length(a));
      SliceOfPrefix(tail, b);
      assert SliceUnits(s[1..], m) == tail;
      assert a == [a[0]] + tail;
    }
  }

  /** One step of `SliceUnits`: a first character that fits is kept. */
  lemma SliceUnitsStep(s: string, n: nat)
    requires |s| > 0 && Units(s[0]) <= n
    ensures SliceUnits(s, n) == [s[0]] + SliceUnits(s[1..], n - Units(s[0]))
  {
  }

  /** How a `fetch(...).then(r => r.json()).then(...)` chain ends: either the
      server answered with a status and a decoded body, or the request or the
      body decoding failed and the `.catch` handler runs. */
  datatype Fetch<T> = Responded(status: int, body: T) | Failed

  /** `response.ok`: a status in the range 200-299. */
  predicate Ok(status: int) {
    200 <= status < 300
  }
}

=== FILE: jwt.dfy ===
/** PyJWT as both services use it. `encode` signs a payload; `decode`
    verifies a token and answers `None` where PyJWT raises `PyJWTError`
    (bad signature, expired `exp`, malformed token), so signature checking,
    expiry and the clock all live inside `decode`. */
module JwtLib {
  import opened Wrappers

  /** A claim value as `payload.get(...)` sees it: `None`, a string, or a time. */
  datatype Claim = CNull | CStr(s: string) | CTime(t: int)

  type Payload = map<string, Claim>

  datatype Jwt = Jwt(encode: Payload -> string, decode: string -> Option<Payload>)

  /** `payload.get("sub")` is neither missing nor `None`. */
  predicate HasSub(p: Payload) {
    "sub" in p && p["sub"] != CNull
  }
}

=== FILE: lists.dfy ===
/** Sequence searches shared by the lookups of the model (`find_one`,
    `Array.find`-style loops that stop at the first hit). */
module Lists {
  import opened Wrappers

  /** The position of the first element satisfying `p`, if any. */
  function FirstIndex<T>(s: seq<T>, p: T -> bool): (r: Option<nat>)
    ensures r.Some? ==> r.value < |s| && p(s[r.value])
    ensures r.Some? ==> forall j :: 0 <= j < r.value ==> !p(s[j])
    ensures r.None? <==> forall j :: 0 <= j < |s| ==> !p(s[j])
  {
    if |s| == 0 then None
    else if p(s[0]) then Some(0)
    else match FirstIndex(s[1..], p)
      case None => None
      case Some(k) => Some(k + 1)
  }

  /** The first element satisfying `p`, if any (`find_one` over a collection). */
  function FindFirst<T>(s: seq<T>, p: T -> bool): (r: Option<T>)
    ensures r.Some? ==> r.value in s && p(r.value)
    ensures r.None? <==> forall j :: 0 <= j < |s| ==> !p(s[j])
    ensures r.Some? ==> exists k :: 0 <= k < |s| && s[k] == r.value && forall j :: 0 <= j < k ==> !p(s[j])
  {
    match FirstIndex(s, p)
    case None => None
    case Some(k) => Some(s[k])
  }
}

=== FILE: producer_auth.dfy ===
/** Token protocols of the producer service: the one-time authentication
    token cache and the access token (python/apps/producer/producer/auth/util.py),
    and the two FastAPI security schemes that extract tokens from a request
    (python/apps/producer/producer/auth/schemes.py).

    The cache is a map from token to internal user id. The user lookup of
    the producer's database client is a function parameter. */
module ProducerAuth {
  import opened Wrappers
  import opened JwtLib
  import Text

  datatype User = User(internalSubId: string, username: string, isAuthor: bool, requestedJoin: bool)

  datatype AuthError =
    | UnauthorizedUser
    | IndexError   // `split()[1]` on a cookie with fewer than two words

  /** The auth-token cache: token -> internal user id. */
  type Cache = map<string, string>

  // ---------------------------------------------------------------------------
  // One-time authentication token
  // ---------------------------------------------------------------------------

  /** The payload of an authentication token: just the expiry. */
  function AuthTokenPayload(exp: int): (p: Payload)
    ensures p.Keys == {"exp"} && p["exp"] == CTime(exp)
  {
    map["exp" := CTime(exp)]
  }

  /** `create_internal_auth_token`: sign `{exp}` and cache token -> user id.
      Returns the new cache and the token. */
  function CreateAuthToken(cache: Cache, jwt: Jwt, exp: int, user: User): (r: (Cache, string))
    ensures r.1 == jwt.encode(AuthTokenPayload(exp))
    ensures r.1 in r.0 && r.0[r.1] == user.internalSubId
    ensures r.0.Keys == cache.Keys + {r.1}
    ensures forall t :: t in cache && t != r.1 ==> r.0[t] == cache[t]
  {
    var token := jwt.encode(AuthTokenPayload(exp));
    (cache[token := user.internalSubId], token)
  }

  /** `validate_internal_auth_token`: the result (the looked-up user, which
      the code does not check for `None`) and the cache afterwards. */
  function ValidateAuthToken(cache: Cache, jwt: Jwt, token: string, lookup: string -> Option<User>)
    : (r: (Result<Option<User>, AuthError>, Cache))
    ensures jwt.decode(token).None? ==> r == (Err(UnauthorizedUser), cache)
    ensures (token !in cache || cache[token] == "") ==> r == (Err(UnauthorizedUser), cache)
    ensures r.0.Err? ==> r.0.error == UnauthorizedUser && r.1 == cache
    ensures r.0.Ok? <==> jwt.decode(token).Some? && token in cache && cache[token] != ""
    ensures r.0.Ok? ==> r.0.value == lookup(cache[token]) && r.1 == cache - {token}
  {
    if jwt.decode(token).None? then (Err(UnauthorizedUser), cache)
    else if token !in cache || cache[token] == "" then (Err(UnauthorizedUser), cache)
    else (Ok(lookup(cache[token])), cache - {token})
  }

  /** An authentication token works once: after a successful validation the
      same token is refused. */
  lemma AuthTokenIsOneTime(cache: Cache, jwt: Jwt, token: string, lookup: string -> Option<User>)
    requires ValidateAuthToken(cache, jwt, token, lookup).0.Ok?
    ensures ValidateAuthToken(ValidateAuthToken(cache, jwt, token, lookup).1, jwt, token, lookup).0
      == Err(UnauthorizedUser)
  {
  }

  /** A freshly created token, still accepted by the JWT library, validates
      to the user it was created for, and the cache forgets it. */
  lemma CreateThenValidate(cache: Cache, jwt: Jwt, exp: int, user: User, lookup: string -> Option<User>)
    requires user.internalSubId != ""
    requires jwt.decode(jwt.encode(AuthTokenPayload(exp))).Some?
    ensures var (cache', token) := CreateAuthToken(cache, jwt, exp, user);
      ValidateAuthToken(cache', jwt, token, lookup) == (Ok(lookup(user.internalSubId)), cache - {token})
  {
    var (cache', token) := CreateAuthToken(cache, jwt, exp, user);
    assert cache'[token] == user.internalSubId;
    assert cache' - {token} == cache - {token};
  }

  /** The payload holds nothing but the expiry, in whole seconds, so two
      logins in the same second sign the same payload and get the same
      token. The second login overwrites the first's cache entry, and the
      first user's token then signs in the second user. */
  lemma SameSecondLoginsShareToken(cache: Cache, jwt: Jwt, exp: int, first: User, second: User,
                                   lookup: string -> Option<User>)
    requires second.internalSubId != ""
    requires jwt.decode(jwt.encode(AuthTokenPayload(exp))).Some?
    ensures var (cache1, token1) := CreateAuthToken(cache, jwt, exp, first);
      var (cache2, token2) := CreateAuthToken(cache1, jwt, exp, second);
      token1 == token2 && ValidateAuthToken(cache2, jwt, token1, lookup).0 == Ok(lookup(second.internalSubId))
  {
  }

  /** The token as evidently intended, a key that names one login: the
      payload also carries `jti`, an id the caller draws fresh for every
      login. */
  function UniqueAuthTokenPayload(exp: int, jti: string): (p: Payload)
    ensures p.Keys == {"exp", "jti"} && p["exp"] == CTime(exp) && p["jti"] == CStr(jti)
  {
    map["exp" := CTime(exp), "jti" := CStr(jti)]
  }

  /** `create_internal_auth_token` with the login's id in the payload. */
  function CreateUniqueAuthToken(cache: Cache, jwt: Jwt, exp: int, jti: string, user: User): (r: (Cache, string))
    ensures r.1 == jwt.encode(UniqueAuthTokenPayload(exp, jti))
    ensures r.1 in r.0 && r.0[r.1] == user.internalSubId
    ensures r.0.Keys == cache.Keys + {r.1}
    ensures forall t :: t in cache && t != r.1 ==> r.0[t] == cache[t]
  {
    var token := jwt.encode(UniqueAuthTokenPayload(exp, jti));
    (cache[token := user.internalSubId], token)
  }

  /** With distinct ids, two logins in the same second get distinct tokens,
      and each token signs in its own user. */
  lemma UniqueTokensKeepLoginsApart(cache: Cache, jwt: Jwt, exp: int, jti1: string, jti2: string,
                                    first: User, second: User, lookup: string -> Option<User>)
    requires jti1 != jti2 && first.internalSubId != ""
    requires jwt.decode(jwt.encode(UniqueAuthTokenPayload(exp, jti1))) == Some(UniqueAuthTokenPayload(exp, jti1))
    requires jwt.decode(jwt.encode(UniqueAuthTokenPayload(exp, jti2))) == Some(UniqueAuthTokenPayload(exp, jti2))
    ensures var (cache1, token1) := CreateUniqueAuthToken(cache, jwt, exp, jti1, first);
      var (cache2, token2) := CreateUniqueAuthToken(cache1, jwt, exp, jti2, second);
      token1 != token2 && ValidateAuthToken(cache2, jwt, token1, lookup).0 == Ok(lookup(first.internalSubId))
  {
    var p1, p2 := UniqueAuthTokenPayload(exp, jti1), UniqueAuthTokenPayload(exp, jti2);
    assert p1["jti"] != p2["jti"];
  }

  // ---------------------------------------------------------------------------
  // Access token
  // ---------------------------------------------------------------------------

  /** `InternalAccessTokenData`. */
  datatype AccessTokenData = AccessTokenData(sub: string, username: string)

  /** `access_token_data.dict()` updated with `exp`. */
  function AccessPayload(data: AccessTokenData, exp: int): (p: Payload)
    ensures p.Keys == {"sub", "username", "exp"}
    ensures p["sub"] == CStr(data.sub) && p["username"] == CStr(data.username)
    ensures p["exp"] == CTime(exp)
  {
    map["sub" := CStr(data.sub), "username" := CStr(data.username)]["exp" := CTime(exp)]
  }

  /** `create_internal_access_token`: the token signs the user's internal
      id as `sub`, the username and the expiry, and nothing else. */
  function CreateAccessToken(jwt: Jwt, data: AccessTokenData, exp: int): (token: string)
    ensures exists p ::
      && token == jwt.encode(p) && p.Keys == {"sub", "username", "exp"}
      && p["sub"] == CStr(data.sub) && p["username"] == CStr(data.username) && p["exp"] == CTime(exp)
  {
    jwt.encode(AccessPayload(data, exp))
  }

  /** `validate_internal_access_token`: `lookup` is
      `get_user_by_internal_sub_id`, given the `sub` claim as decoded. */
  function ValidateAccessToken(jwt: Jwt, token: string, lookup: Claim -> Option<User>): (r: Result<User, AuthError>)
    ensures jwt.decode(token).None? ==> r == Err(UnauthorizedUser)
    ensures jwt.decode(token).Some? && !HasSub(jwt.decode(token).value) ==> r == Err(UnauthorizedUser)
    ensures r.Err? ==> r.error == UnauthorizedUser
    ensures r.Ok? ==> exists p :: jwt.decode(token) == Some(p) && "sub" in p && lookup(p["sub"]) == Some(r.value)
    ensures jwt.decode(token).Some? && HasSub(jwt.decode(token).value) ==>
      r == (match lookup(jwt.decode(token).value["sub"])
            case Some(u) => Ok(u)
            case None => Err(UnauthorizedUser))
  {
    match jwt.decode(token)
    case None => Err(UnauthorizedUser)
    case Some(payload) =>
      if !HasSub(payload) then Err(UnauthorizedUser)
      else match lookup(payload["sub"])
        case None => Err(UnauthorizedUser)
        case Some(user) => Ok(user)
  }

  /** A token the library accepts as issued validates to the user named by
      its `sub`, or is refused when no such user exists. */
  lemma AccessTokenRoundTrip(jwt: Jwt, data: AccessTokenData, exp: int, lookup: Claim -> Option<User>)
    requires jwt.decode(CreateAccessToken(jwt, data, exp)) == Some(AccessPayload(data, exp))
    ensures ValidateAccessToken(jwt, CreateAccessToken(jwt, data, exp), lookup) ==
      (if lookup(CStr(data.sub)).Some? then Ok(lookup(CStr(data.sub)).value) else Err(UnauthorizedUser))
  {
  }

  // ---------------------------------------------------------------------------
  // Security schemes
  // ---------------------------------------------------------------------------

  /** `AccessTokenCookieBearer`: the `access_token` cookie holds
      "Bearer <token>"; the second word is validated. */
  function CookieBearer(cookie: Option<string>, jwt: Jwt, lookup: Claim -> Option<User>): (r: Result<User, AuthError>)
    ensures (cookie.None? || cookie == Some("")) ==> r == Err(UnauthorizedUser)
    ensures cookie.Some? && cookie.value != "" && |Text.Words(cookie.value)| < 2 ==> r == Err(IndexError)
    ensures cookie.Some? && |Text.Words(cookie.value)| >= 2 ==>
      r == ValidateAccessToken(jwt, Text.Words(cookie.value)[1], lookup)
  {
    if cookie.None? || cookie.value == "" then Err(UnauthorizedUser)
    else
      var words := Text.Words(cookie.value);
      if |words| < 2 then Err(IndexError)
      else ValidateAccessToken(jwt, words[1], lookup)
  }

  /** "Bearer X" hands X to the validator; a one-word cookie fails at the
      index instead. */
  lemma CookieBearerCases(scheme: string, token: string, jwt: Jwt, lookup: Claim -> Option<User>)
    requires Text.IsWord(scheme) && Text.IsWord(token)
    ensures CookieBearer(Some(scheme + " " + token), jwt, lookup) == ValidateAccessToken(jwt, token, lookup)
    ensures CookieBearer(Some(token), jwt, lookup) == Err(IndexError)
  {
    Text.WordsOfPair(scheme, token);
    Text.WordsOfWord(token);
  }

  /** `AuthTokenBearer`: the `Authorization` header must use the bearer
      scheme (any letter case); the token is then validated against the
      cache. `schemeParam` is FastAPI's `get_authorization_scheme_param`. */
  function AuthTokenBearer(authorization: Option<string>, schemeParam: string -> (string, string),
                           cache: Cache, jwt: Jwt, lookup: string -> Option<User>)
    : (r: (Result<Option<User>, AuthError>, Cache))
    ensures (authorization.None? || authorization == Some("")) ==> r == (Err(UnauthorizedUser), cache)
    ensures authorization.Some? && Text.Lower(schemeParam(authorization.value).0) != "bearer" ==>
      r == (Err(UnauthorizedUser), cache)
    ensures r.0.Ok? ==> authorization.Some? && Text.Lower(schemeParam(authorization.value).0) == "bearer"
    ensures authorization.Some? && authorization.value != "" && Text.Lower(schemeParam(authorization.value).0) == "bearer" ==>
      r == ValidateAuthToken(cache, jwt, schemeParam(authorization.value).1, lookup)
  {
    if authorization.None? || authorization.value == "" then (Err(UnauthorizedUser), cache)
    else
      var (scheme, token) := schemeParam(authorization.value);
      if Text.Lower(scheme) != "bearer" then (Err(UnauthorizedUser), cache)
      else ValidateAuthToken(cache, jwt, token, lookup)
  }

  /** The scheme name is matched without regard to letter case. */
  lemma BearerSchemeIgnoresCase()
    ensures Text.Lower("Bearer") == "bearer" && Text.Lower("BEARER") == "bearer"
    ensures Text.Lower("Basic") != "bearer"
  {
    assert Text.Lower("Basic")[0] == 'b' && Text.Lower("Basic")[1] == 'a';
  }
}

=== FILE: producer_models.dfy ===
/** The document models of the producer service
    (python/apps/producer/producer/models/db_models.py). They mirror the
    admin models with three differences: books carry no links, there are
    eight categories instead of thirteen, and the rating is a single score
    from 1 to 5 instead of a pair of counts. */
module ProducerModels {
  import opened Wrappers
  import opened Pydantic
  import AdminModels

  /** Sections are declared exactly as in the admin service
      (`conint(gt=0, lt=10000)` on both pages, nothing relating them), so
      the admin definition and its validator are the producer's too. */
  type BookSection = AdminModels.BookSection

  datatype Book = Book(name: string, author: string, sections: seq<BookSection>)

  predicate ValidBook(b: Book) {
    && LengthWithin(b.name, 5, 100)
    && LengthWithin(b.author, 5, 50)
    && 1 <= |b.sections| <= 100
    && (forall s :: s in b.sections ==> AdminModels.ValidSection(s))
  }

  function RejectedBookFields(b: Book): (fs: set<Field>)
    ensures fs <= {Name, Author, BookSections}
    ensures fs == {} <==> ValidBook(b)
    ensures Name in fs <==> !(5 <= |b.name| <= 100)
    ensures Author in fs <==> !(5 <= |b.author| <= 50)
    ensures BookSections in fs <==>
      (|b.sections| == 0 || |b.sections| > 100 || exists k :: 0 <= k < |b.sections| && !AdminModels.ValidSection(b.sections[k]))
  {
    Report(LengthWithin(b.name, 5, 100), Name)
    + Report(LengthWithin(b.author, 5, 50), Author)
    + Report(1 <= |b.sections| <= 100 && forall s :: s in b.sections ==> AdminModels.ValidSection(s), BookSections)
  }

  datatype Category = History | Sciences | ComputerScience | Literature | Arts | Sports | Travel | Other

  function CategoryValue(c: Category): string {
    match c
    case History => "history"
    case Sciences => "sciences"
    case ComputerScience => "computer_science"
    case Literature => "literature"
    case Arts => "arts"
    case Sports => "sports"
    case Travel => "travel"
    case Other => "other"
  }

  /** `Category(s)`. */
  function ParseCategory(s: string): (c: Option<Category>)
    ensures c.Some? ==> CategoryValue(c.value) == s
    ensures c.None? ==> forall k :: CategoryValue(k) != s
  {
    if s == "history" then Some(History)
    else if s == "sciences" then Some(Sciences)
    else if s == "computer_science" then Some(ComputerScience)
    else if s == "literature" then Some(Literature)
    else if s == "arts" then Some(Arts)
    else if s == "sports" then Some(Sports)
    else if s == "travel" then Some(Travel)
    else if s == "other" then Some(Other)
    else None
  }

  const AllCategories: seq<Category> := [History, Sciences, ComputerScience, Literature, Arts, Sports, Travel, Other]

  /** Exactly eight categories, each with its own value. */
  lemma CategoriesAreEight()
    ensures |AllCategories| == 8
    ensures forall c :: c in AllCategories
    ensures forall i, j :: 0 <= i < j < |AllCategories| ==> CategoryValue(AllCategories[i]) != CategoryValue(AllCategories[j])
  {
    forall c ensures c in AllCategories {
      match c
      case History => assert AllCategories[0] == c;
      case Sciences => assert AllCategories[1] == c;
      case ComputerScience => assert AllCategories[2] == c;
      case Literature => assert AllCategories[3] == c;
      case Arts => assert AllCategories[4] == c;
      case Sports => assert AllCategories[5] == c;
      case Travel => assert AllCategories[6] == c;
      case Other => assert AllCategories[7] == c;
    }
  }

  lemma CategoryRoundTrip(c: Category)
    ensures ParseCategory(CategoryValue(c)) == Some(c)
  {
  }

  /** The two services' category sets differ: every producer category is an
      admin category, but the admin service also knows five more, which the
      producer refuses. */
  lemma CategoriesDiffer(c: Category)
    ensures AdminModels.ParseCategory(CategoryValue(c)).Some?
    ensures ParseCategory(AdminModels.CategoryValue(AdminModels.Business)).None?
    ensures ParseCategory(AdminModels.CategoryValue(AdminModels.FoodDrinks)).None?
    ensures ParseCategory(AdminModels.CategoryValue(AdminModels.Health)).None?
    ensures ParseCategory(AdminModels.CategoryValue(AdminModels.SocialSciences)).None?
    ensures ParseCategory(AdminModels.CategoryValue(AdminModels.Technology)).None?
  {
    match c
    case History => assert AdminModels.CategoryValue(AdminModels.History) == CategoryValue(c);
    case Sciences => assert AdminModels.CategoryValue(AdminModels.Sciences) == CategoryValue(c);
    case ComputerScience => assert AdminModels.CategoryValue(AdminModels.ComputerScience) == CategoryValue(c);
    case Literature => assert AdminModels.CategoryValue(AdminModels.Literature) == CategoryValue(c);
    case Arts => assert AdminModels.CategoryValue(AdminModels.Arts) == CategoryValue(c);
    case Sports => assert AdminModels.CategoryValue(AdminModels.Sports) == CategoryValue(c);
    case Travel => assert AdminModels.CategoryValue(AdminModels.Travel) == CategoryValue(c);
    case Other => assert AdminModels.CategoryValue(AdminModels.Other) == CategoryValue(c);
  }

  datatype Reference = Reference(
    referenceId: Option<string>,
    title: string,
    category: string,
    description: string,
    books: seq<Book>,
    rating: Option<int>)

  /** `Optional[conint(gt=0, lt=6)]`. */
  predicate ValidRating(rating: Option<int>) {
    rating.Some? ==> 0 < rating.value < 6
  }

  predicate ValidReference(r: Reference) {
    && (r.referenceId.Some? ==> LengthWithin(r.referenceId.value, 36, 36))
    && LengthWithin(r.title, 5, 100)
    && ParseCategory(r.category).Some?
    && LengthWithin(r.description, 30, 600)
    && 1 <= |r.books| <= 50
    && (forall b :: b in r.books ==> ValidBook(b))
    && ValidRating(r.rating)
  }

  function RejectedReferenceFields(r: Reference): (fs: set<Field>)
    ensures fs <= {ReferenceId, Title, CategoryField, Description, Books, RatingField}
    ensures fs == {} <==> ValidReference(r)
    ensures ReferenceId in fs <==> r.referenceId.Some? && |r.referenceId.value| != 36
    ensures RatingField in fs <==> r.rating.Some? && !(1 <= r.rating.value <= 5)
  {
    Report(r.referenceId.None? || LengthWithin(r.referenceId.value, 36, 36), ReferenceId)
    + Report(LengthWithin(r.title, 5, 100), Title)
    + Report(ParseCategory(r.category).Some?, CategoryField)
    + Report(LengthWithin(r.description, 30, 600), Description)
    + Report(1 <= |r.books| <= 50 && forall b :: b in r.books ==> ValidBook(b), Books)
    + Report(ValidRating(r.rating), RatingField)
  }

  /** Each of these fields is reported exactly when its own constraint fails. */
  lemma RejectedReferenceFieldsEach(r: Reference)
    ensures Title in RejectedReferenceFields(r) <==> !(5 <= |r.title| <= 100)
    ensures CategoryField in RejectedReferenceFields(r) <==> forall c :: CategoryValue(c) != r.category
    ensures Description in RejectedReferenceFields(r) <==> !(30 <= |r.description| <= 600)
    ensures Books in RejectedReferenceFields(r) <==>
      (|r.books| == 0 || |r.books| > 50 || exists k :: 0 <= k < |r.books| && !ValidBook(r.books[k]))
  {
  }

  /** The admin view of a producer book: the same fields and no links. */
  function AdminBook(b: Book): (a: AdminModels.Book)
    ensures a.name == b.name && a.author == b.author && a.sections == b.sections && a.links.None?
  {
    AdminModels.Book(b.name, b.author, b.sections, None)
  }

  /** A book the producer accepts is accepted by the admin model too. */
  lemma AdminAcceptsProducerBook(b: Book)
    requires ValidBook(b)
    ensures AdminModels.ValidBook(AdminBook(b))
  {
  }


  /** An unrated reference the producer accepts is accepted by the admin
      model; the two rating shapes do not meet, so a rated one is not
      carried over. */
  lemma AdminAcceptsUnratedProducerReference(r: Reference)
    requires ValidReference(r) && r.rating.None?
    ensures AdminModels.ValidReference(AdminModels.Reference(
      r.referenceId, r.title, r.category, r.description, seq(|r.books|, k requires 0 <= k < |r.books| => AdminBook(r.books[k])), None))
  {
    var books := seq(|r.books|, k requires 0 <= k < |r.books| => AdminBook(r.books[k]));
    forall a | a in books
      ensures AdminModels.ValidBook(a)
    {
      var k :| 0 <= k < |books| && books[k] == a;
      AdminAcceptsProducerBook(r.books[k]);
    }
    CategoriesDiffer(ParseCategory(r.category).value);
  }
}

=== FILE: pydantic.dfy ===
/** What the pydantic models of both services share: a model is accepted
    when every field satisfies its constraint, and otherwise pydantic reports
    every failing field. Lengths are counted in characters of `seq<char>`. */
module Pydantic {
  predicate LengthWithin(s: string, lo: nat, hi: nat) {
    lo <= |s| <= hi
  }

  /** The fields pydantic can report, across all models here. */
  datatype Field =
    | StartingPage | EndingPage
    | Name | Author | BookSections | BookLinks
    | ReferenceId | Title | CategoryField | Description | Books | RatingField
    | Username | Password | InternalSubId

  /** The field's name as it appears in the document and in pydantic's error `loc`. */
  function FieldName(f: Field): string {
    match f
    case StartingPage => "starting_page"
    case EndingPage => "ending_page"
    case Name => "name"
    case Author => "author"
    case BookSections => "book_sections"
    case BookLinks => "book_links"
    case ReferenceId => "reference_id"
    case Title => "title"
    case CategoryField => "category"
    case Description => "description"
    case Books => "books"
    case RatingField => "rating"
    case Username => "username"
    case Password => "password"
    case InternalSubId => "internal_sub_id"
  }

  /** `{f}` when the constraint fails, nothing otherwise. */
  function Report(ok: bool, f: Field): (fs: set<Field>)
    ensures f in fs <==> !ok
    ensures fs <= {f}
  {
    if ok then {} else {f}
  }
}

=== FILE: reference_editor.dfy ===
/** The reference draft editor of the front end
    (react/apps/frontend/src/components/References.js): a user names books,
    adds page sections to each, and submits a reference to the producer.

    The component state is a record. `books` is a JavaScript object used as
    an ordered map; it is modelled as a list of (name, sections) entries in
    insertion order, where assigning an existing name keeps its place and
    deleting a name removes its entry. The page inputs are HTML number
    inputs, whose value is either "" or a decimal numeral. */
module ReferenceEditor {
  import opened Wrappers
  import Js
  import AdminModels
  import Pydantic
  import Text

  // ---------------------------------------------------------------------------
  // Page inputs
  // ---------------------------------------------------------------------------

  /** A numeral a number input can hold: an optional minus sign, digits
      before the point, digits after it; at least one digit in all. */
  datatype Numeral = Numeral(negative: bool, whole: string, fraction: string)

  predicate WellFormed(n: Numeral) {
    Text.AllDigits(n.whole) && Text.AllDigits(n.fraction) && (|n.whole| > 0 || |n.fraction| > 0)
  }

  /** The numeral as the input's `value` string. */
  function NumeralText(n: Numeral): string {
    (if n.negative then "-" else "") + n.whole + (if |n.fraction| > 0 then "." + n.fraction else "")
  }

  /** The content of one page input: empty, or a numeral. */
  datatype PageInput = Blank | Typed(n: Numeral)

  /** The contents a number input can actually hold. */
  type Page = p: PageInput | p.Blank? || WellFormed(p.n) witness Blank

  /** `event.target.value`: empty exactly for a blank input. */
  function PageText(p: Page): (s: string)
    ensures s == "" <==> p.Blank?
  {
    match p
    case Blank => ""
    case Typed(n) => NumeralText(n)
  }

  /** `Number(value)` (and `parseFloat(value)`, which agrees with it on
      numerals): the empty string converts to 0. */
  function JsNumber(p: PageInput): real {
    match p
    case Blank => 0.0
    case Typed(n) =>
      var magnitude := Text.DigitsValue(n.whole) as real + Text.DigitsValue(n.fraction) as real / Text.Pow10(|n.fraction|) as real;
      if n.negative then -magnitude else magnitude
  }

  /** `Number.isInteger(parseFloat(value))`: `parseFloat("")` is NaN, which
      is no integer; a numeral is an integer when its fraction is all zeros. */
  predicate IsIntegerText(p: PageInput) {
    p.Typed? && forall i :: 0 <= i < |p.n.fraction| ==> p.n.fraction[i] == '0'
  }

  // ---------------------------------------------------------------------------
  // Books: an insertion-ordered map
  // ---------------------------------------------------------------------------

  /** A section as pushed by `addSection`: the raw input strings. */
  datatype Section = Section(startingPage: string, endingPage: string)

  type Entry = (string, seq<Section>)

  function Names(books: seq<Entry>): (names: seq<string>)
    ensures |names| == |books|
    ensures forall i :: 0 <= i < |books| ==> names[i] == books[i].0
  {
    if |books| == 0 then [] else [books[0].0] + Names(books[1..])
  }

  predicate Distinct(names: seq<string>) {
    forall i, j :: 0 <= i < j < |names| ==> names[i] != names[j]
  }

  /** `books[name]`. */
  function Get(books: seq<Entry>, name: string): (r: Option<seq<Section>>)
    ensures r.None? <==> name !in Names(books)
  {
    if |books| == 0 then None
    else if books[0].0 == name then Some(books[0].1)
    else Get(books[1..], name)
  }

  /** `books[name] = sections`: an existing entry is overwritten in place,
      a new one goes last. */
  function Put(books: seq<Entry>, name: string, sections: seq<Section>): (r: seq<Entry>)
    ensures Get(r, name) == Some(sections)
    ensures forall other :: other != name ==> Get(r, other) == Get(books, other)
  {
    if |books| == 0 then [(name, sections)]
    else if books[0].0 == name then [(name, sections)] + books[1..]
    else [books[0]] + Put(books[1..], name, sections)
  }

  /** An existing name keeps its place; a new one goes last. */
  lemma {:induction false} PutNames(books: seq<Entry>, name: string, sections: seq<Section>)
    ensures name in Names(books) ==> Names(Put(books, name, sections)) == Names(books)
    ensures name !in Names(books) ==> Names(Put(books, name, sections)) == Names(books) + [name]
    decreases |books|
  {
    if |books| > 0 && books[0].0 != name {
      PutNames(books[1..], name, sections);
      assert Names(books) == [books[0].0] + Names(books[1..]);
      var r := Put(books, name, sections);
      assert r == [books[0]] + Put(books[1..], name, sections);
      assert Names(r) == [books[0].0] + Names(Put(books[1..], name, sections));
    }
  }

  /** `delete books[name]`. */
  function Remove(books: seq<Entry>, name: string): (r: seq<Entry>)
    ensures Get(r, name).None?
    ensures forall other :: other != name ==> Get(r, other) == Get(books, other)
    ensures forall k :: k in Names(r) <==> k in Names(books) && k != name
    ensures |r| <= |books|
  {
    if |books| == 0 then []
    else if books[0].0 == name then Remove(books[1..], name)
    else [books[0]] + Remove(books[1..], name)
  }

  /** Removing keeps the remaining names in their order and distinct. */
  lemma {:induction false} RemoveKeepsDistinct(books: seq<Entry>, name: string)
    requires Distinct(Names(books))
    ensures Distinct(Names(Remove(books, name)))
    decreases |books|
  {
    if |books| > 0 {
      assert Distinct(Names(books[1..])) by {
        forall i, j | 0 <= i < j < |books| - 1
          ensures Names(books[1..])[i] != Names(books[1..])[j]
        {
          assert Names(books)[i + 1] != Names(books)[j + 1];
        }
      }
      RemoveKeepsDistinct(books[1..], name);
      var rest := Remove(books[1..], name);
      if books[0].0 != name {
        var r := [books[0]] + rest;
        forall i, j | 0 <= i < j < |r|
          ensures Names(r)[i] != Names(r)[j]
        {
          if i == 0 {
            assert Names(r)[j] in Names(rest) by { assert Names(r)[j] == Names(rest)[j - 1]; }
            assert Names(r)[j] in Names(books[1..]);
            var m :| 0 <= m < |books| - 1 && Names(books[1..])[m] == Names(r)[j];
            assert Names(books)[0] != Names(books)[m + 1];
          } else {
            assert Names(r)[i] == Names(rest)[i - 1] && Names(r)[j] == Names(rest)[j - 1];
          }
        }
      }
    }
  }

  lemma PutKeepsDistinct(books: seq<Entry>, name: string, sections: seq<Section>)
    requires Distinct(Names(books))
    ensures Distinct(Names(Put(books, name, sections)))
  {
    var r := Put(books, name, sections);
    PutNames(books, name, sections);
    if name !in Names(books) {
      forall i, j | 0 <= i < j < |r|
        ensures Names(r)[i] != Names(r)[j]
      {
        if j == |books| {
          assert Names(r)[i] == Names(books)[i];
        } else {
          assert Names(r)[i] == Names(books)[i] && Names(r)[j] == Names(books)[j];
        }
      }
    }
  }

  // ---------------------------------------------------------------------------
  // Component state
  // ---------------------------------------------------------------------------

  /** The inputs of one book's "add section" row. */
  datatype SectionInput = SectionInput(startingPage: Page, endingPage: Page)

  const BlankSection := SectionInput(Blank, Blank)

  /** One book of the payload. */
  datatype BookPayload = BookPayload(name: string, bookSections: seq<Section>)

  /** The reference sent to the producer and listed on success. */
  datatype Payload = Payload(title: string, eventDate: Option<string>, description: string, books: seq<BookPayload>)

  /** The component's state; `null` fields are `None`. */
  datatype Draft = Draft(
    references: seq<Payload>,
    books: seq<Entry>,
    currentBook: string,
    currentSections: map<string, SectionInput>,
    title: Option<string>,
    date: Option<string>,
    description: Option<string>,
    error: Option<string>)

  /** The initial state (lines 12-25), with the references not loaded yet. */
  const Initial := Draft([], [], "", map[], None, None, None, None)

  /** What the render relies on: book names are distinct and every book has
      its row of page inputs. */
  predicate Inv(d: Draft) {
    Distinct(Names(d.books)) && forall k :: k in Names(d.books) ==> k in d.currentSections
  }

  lemma InitialInv()
    ensures Inv(Initial)
  {
  }

  const MSG_BOOK_NAME := "Please provide a name for the book"
  const MSG_NEGATIVE := "Page numbers should be positive numbers"
  const MSG_ORDER := "Starting page should be less than the ending page"
  const MSG_NOT_INTEGER := "Pages should be integer numbers"
  const MSG_TITLE := "Please provide a title for the event"
  const MSG_DESCRIPTION := "Please provide a description for the event"
  const MSG_SHORT := "The description is too small. Please add some more details"
  const MSG_NO_BOOKS := "Please provide at least one book as a reference"
  const MSG_NO_SECTIONS := "Please provide at least one book section for every book"
  const MSG_REJECTED := "Something went wrong. Please make sure you follow the instructions on how to create a reference"
  const MSG_FAILED := "Something went wrong. Please try again"

  /** `handleStartingPageChange` / `handleEndingPageChange`. */
  function SetPages(d: Draft, name: string, startingPage: Page, endingPage: Page): (r: Draft)
    requires name in d.currentSections
    ensures r.currentSections == d.currentSections[name := SectionInput(startingPage, endingPage)]
    ensures r.books == d.books && r.error == d.error
    ensures r == d.(currentSections := r.currentSections)
  {
    d.(currentSections := d.currentSections[name := SectionInput(startingPage, endingPage)])
  }

  /** A page change keeps the invariant. */
  lemma SetPagesInv(d: Draft, name: string, startingPage: Page, endingPage: Page)
    requires Inv(d) && name in d.currentSections
    ensures Inv(SetPages(d, name, startingPage, endingPage))
  {
  }

  // ---------------------------------------------------------------------------
  // addBook and removeBook
  // ---------------------------------------------------------------------------

  /** `addBook`: a named book starts with no sections and blank page inputs,
      replacing any book of the same name; a missing name is an error. */
  function AddBook(d: Draft): (r: Draft)
    ensures d.currentBook == "" ==> r == d.(error := Some(MSG_BOOK_NAME))
    ensures d.currentBook != "" ==>
      && Get(r.books, d.currentBook) == Some([])
      && (forall other :: other != d.currentBook ==> Get(r.books, other) == Get(d.books, other))
      && r.currentSections == d.currentSections[d.currentBook := BlankSection]
      && r.currentBook == ""
      && r.error == d.error && r.references == d.references
      && r.title == d.title && r.date == d.date && r.description == d.description
  {
    if d.currentBook == "" then d.(error := Some(MSG_BOOK_NAME))
    else
      d.(books := Put(d.books, d.currentBook, []),
         currentBook := "",
         currentSections := d.currentSections[d.currentBook := BlankSection])
  }

  /** Adding a name already present keeps the book where it was. */
  lemma AddBookKeepsPosition(d: Draft)
    requires d.currentBook in Names(d.books)
    ensures Names(AddBook(d).books) == Names(d.books)
  {
    PutNames(d.books, d.currentBook, []);
  }

  /** `removeBook`: only that book goes; its page inputs stay behind. */
  function RemoveBook(d: Draft, name: string): (r: Draft)
    ensures Get(r.books, name).None?
    ensures forall other :: other != name ==> Get(r.books, other) == Get(d.books, other)
    ensures r.currentSections == d.currentSections
    ensures r == d.(books := r.books)
  {
    d.(books := Remove(d.books, name))
  }

  lemma AddBookInv(d: Draft)
    requires Inv(d)
    ensures Inv(AddBook(d))
  {
    if d.currentBook != "" {
      PutKeepsDistinct(d.books, d.currentBook, []);
      PutNames(d.books, d.currentBook, []);
      var r := AddBook(d);
      forall k | k in Names(r.books)
        ensures k in r.currentSections
      {
        if k != d.currentBook {
          assert k in Names(d.books);
        }
      }
    }
  }

  lemma RemoveBookInv(d: Draft, name: string)
    requires Inv(d)
    ensures Inv(RemoveBook(d, name))
  {
    RemoveKeepsDistinct(d.books, name);
  }

  // ---------------------------------------------------------------------------
  // addSection
  // ---------------------------------------------------------------------------

  /** The first check of `addSection`: `page < 0` converts the input
      string to a number, and "" converts to 0. */
  predicate Negative(input: SectionInput) {
    JsNumber(input.startingPage) < 0.0 || JsNumber(input.endingPage) < 0.0
  }

  /** The messages differ (their lengths do). */
  lemma SectionMessagesDistinct()
    ensures MSG_NEGATIVE != MSG_ORDER && MSG_NEGATIVE != MSG_NOT_INTEGER && MSG_ORDER != MSG_NOT_INTEGER
  {
  }

  /** The checks of `addSection` as written (lines 133-146), first failure
      first: a negative page; then `startingPage > endingPage` on the two
      input strings, which JavaScript compares as strings; then a page that
      is not an integer. */
  function SectionVerdictAsWritten(input: SectionInput): (v: Option<string>)
    ensures v == Some(MSG_NEGATIVE) <==> Negative(input)
    ensures v == Some(MSG_ORDER) <==>
      !Negative(input) && Js.StringLess(PageText(input.endingPage), PageText(input.startingPage))
    ensures v == Some(MSG_NOT_INTEGER) <==>
      && !Negative(input) && !Js.StringLess(PageText(input.endingPage), PageText(input.startingPage))
      && !(IsIntegerText(input.startingPage) && IsIntegerText(input.endingPage))
    ensures v.None? <==>
      && !Negative(input)
      && !Js.StringLess(PageText(input.endingPage), PageText(input.startingPage))
      && IsIntegerText(input.startingPage) && IsIntegerText(input.endingPage)
  {
    SectionMessagesDistinct();
    var s, e := input.startingPage, input.endingPage;
    if JsNumber(s) < 0.0 || JsNumber(e) < 0.0 then Some(MSG_NEGATIVE)
    else if Js.StringLess(PageText(e), PageText(s)) then Some(MSG_ORDER)
    else if !IsIntegerText(s) || !IsIntegerText(e) then Some(MSG_NOT_INTEGER)
    else None
  }

  /** The same checks with the pages compared as numbers, as the message
      "Starting page should be less than the ending page" intends. */
  function SectionVerdict(input: SectionInput): (v: Option<string>)
    ensures v == Some(MSG_NEGATIVE) <==> Negative(input)
    ensures v == Some(MSG_ORDER) <==>
      !Negative(input) && JsNumber(input.startingPage) > JsNumber(input.endingPage)
    ensures v == Some(MSG_NOT_INTEGER) <==>
      && !Negative(input) && JsNumber(input.startingPage) <= JsNumber(input.endingPage)
      && !(IsIntegerText(input.startingPage) && IsIntegerText(input.endingPage))
    ensures v.None? <==>
      && !Negative(input)
      && JsNumber(input.startingPage) <= JsNumber(input.endingPage)
      && IsIntegerText(input.startingPage) && IsIntegerText(input.endingPage)
  {
    SectionMessagesDistinct();
    var s, e := input.startingPage, input.endingPage;
    if JsNumber(s) < 0.0 || JsNumber(e) < 0.0 then Some(MSG_NEGATIVE)
    else if JsNumber(s) > JsNumber(e) then Some(MSG_ORDER)
    else if !IsIntegerText(s) || !IsIntegerText(e) then Some(MSG_NOT_INTEGER)
    else None
  }

  /** Applies a verdict to the book `name`: an error leaves everything but
      the error alone; acceptance appends the section and blanks the row. */
  function ApplySection(d: Draft, name: string, verdict: Option<string>): (r: Draft)
    requires name in Names(d.books) && name in d.currentSections
    ensures Names(r.books) == Names(d.books)
    ensures verdict.Some? ==> r == d.(error := verdict)
    ensures verdict.None? ==>
      var input := d.currentSections[name];
      && Get(r.books, name) == Some(Get(d.books, name).value + [Section(PageText(input.startingPage), PageText(input.endingPage))])
      && (forall other :: other != name ==> Get(r.books, other) == Get(d.books, other))
      && r.currentSections == d.currentSections[name := BlankSection]
      && r == d.(books := r.books, currentSections := r.currentSections)
  {
    if verdict.Some? then d.(error := verdict)
    else
      var input := d.currentSections[name];
      var sections := Get(d.books, name).value;
      PutNames(d.books, name, sections + [Section(PageText(input.startingPage), PageText(input.endingPage))]);
      d.(books := Put(d.books, name, sections + [Section(PageText(input.startingPage), PageText(input.endingPage))]),
         currentSections := d.currentSections[name := BlankSection])
  }

  /** `addSection` as written. */
  function AddSectionAsWritten(d: Draft, name: string): (r: Draft)
    requires name in Names(d.books) && name in d.currentSections
    ensures Names(r.books) == Names(d.books)
    ensures var v := SectionVerdictAsWritten(d.currentSections[name]);
      v.Some? ==> r == d.(error := v)
    ensures var input := d.currentSections[name];
      SectionVerdictAsWritten(input).None? ==>
      && Get(r.books, name) == Some(Get(d.books, name).value + [Section(PageText(input.startingPage), PageText(input.endingPage))])
      && (forall other :: other != name ==> Get(r.books, other) == Get(d.books, other))
      && r.currentSections == d.currentSections[name := BlankSection]
      && r == d.(books := r.books, currentSections := r.currentSections)
  {
    ApplySection(d, name, SectionVerdictAsWritten(d.currentSections[name]))
  }

  /** `addSection` with the pages compared as numbers. */
  function AddSection(d: Draft, name: string): (r: Draft)
    requires name in Names(d.books) && name in d.currentSections
    ensures Names(r.books) == Names(d.books)
    ensures var v := SectionVerdict(d.currentSections[name]);
      v.Some? ==> r == d.(error := v)
    ensures var input := d.currentSections[name];
      SectionVerdict(input).None? ==>
      && Get(r.books, name) == Some(Get(d.books, name).value + [Section(PageText(input.startingPage), PageText(input.endingPage))])
      && (forall other :: other != name ==> Get(r.books, other) == Get(d.books, other))
      && r.currentSections == d.currentSections[name := BlankSection]
      && r == d.(books := r.books, currentSections := r.currentSections)
      && JsNumber(input.startingPage) <= JsNumber(input.endingPage)
  {
    ApplySection(d, name, SectionVerdict(d.currentSections[name]))
  }

  lemma ApplySectionInv(d: Draft, name: string, verdict: Option<string>)
    requires Inv(d) && name in Names(d.books)
    ensures Inv(ApplySection(d, name, verdict))
  {
  }

  function Digits(s: string): Page
    requires |s| > 0 && Text.AllDigits(s)
  {
    Typed(Numeral(false, s, ""))
  }

  /** Pages 9 to 10: the string "9" sorts after "10", so the code as
      written refuses the section; compared as numbers it is accepted. */
  lemma NineToTenRefused()
    ensures SectionVerdictAsWritten(SectionInput(Digits("9"), Digits("10"))) == Some(MSG_ORDER)
    ensures SectionVerdict(SectionInput(Digits("9"), Digits("10"))).None?
  {
    assert PageText(Digits("10")) == "10" && PageText(Digits("9")) == "9";
    assert Js.StringLess("10", "9");
    assert Text.DigitsValue("10") == 10 by {
      assert Text.DigitsValue("0") == 0;
      assert ("10")[1..] == "0";
    }
    assert Text.DigitsValue("9") == 9;
  }

  /** And the other way round: pages 10 to 9 are accepted as written. */
  lemma TenToNineAccepted()
    ensures SectionVerdictAsWritten(SectionInput(Digits("10"), Digits("9"))).None?
    ensures SectionVerdict(SectionInput(Digits("10"), Digits("9"))) == Some(MSG_ORDER)
  {
    assert PageText(Digits("10")) == "10" && PageText(Digits("9")) == "9";
    assert !Js.StringLess("9", "10");
    assert Text.DigitsValue("10") == 10 by {
      assert Text.DigitsValue("0") == 0;
      assert ("10")[1..] == "0";
    }
    assert Text.DigitsValue("9") == 9;
  }

  /** The two agree whenever both pages are plain digit strings of the same
      length: string order is numeric order there. */
  lemma SameLengthPagesAgree(a: string, b: string)
    requires Text.AllDigits(a) && Text.AllDigits(b) && |a| == |b| && |a| > 0
    ensures SectionVerdictAsWritten(SectionInput(Digits(a), Digits(b))) == SectionVerdict(SectionInput(Digits(a), Digits(b)))
  {
    assert PageText(Digits(a)) == a && PageText(Digits(b)) == b;
    assert JsNumber(Digits(a)) == Text.DigitsValue(a) as real;
    assert JsNumber(Digits(b)) == Text.DigitsValue(b) as real;
    DigitOrderIsNumericOrder(b, a);
  }

  lemma {:induction false} DigitsValueBound(s: string)
    ensures Text.DigitsValue(s) < Text.Pow10(|s|)
    decreases |s|
  {
    if |s| > 0 {
      DigitsValueBound(s[1..]);
      var p := Text.Pow10(|s| - 1);
      MulMono(Text.DigitValue(s[0]), 9, p);
    }
  }

  /** A digit string is worth 0 exactly when all its digits are '0'. */
  lemma {:induction false} DigitsValueZero(s: string)
    requires Text.AllDigits(s)
    ensures Text.DigitsValue(s) == 0 <==> forall i :: 0 <= i < |s| ==> s[i] == '0'
    decreases |s|
  {
    if |s| > 0 {
      assert Text.AllDigits(s[1..]);
      DigitsValueZero(s[1..]);
      var d, p := Text.DigitValue(s[0]), Text.Pow10(|s| - 1);
      assert Text.DigitsValue(s) == d * p + Text.DigitsValue(s[1..]);
      if d >= 1 {
        MulMono(1, d, p);
      }
      assert d == 0 <==> s[0] == '0';
      assert (forall i :: 0 <= i < |s| ==> s[i] == '0') <==>
        s[0] == '0' && forall i :: 0 <= i < |s[1..]| ==> s[1..][i] == '0';
    }
  }

  /** `Number.isInteger`: a typed page passes the integer check exactly when
      the number it reads as is a whole number. */
  lemma IntegerTextIsWholeNumber(p: Page)
    requires p.Typed?
    ensures IsIntegerText(p) <==> JsNumber(p).Floor as real == JsNumber(p)
  {
    var n := p.n;
    var w, f, q := Text.DigitsValue(n.whole), Text.DigitsValue(n.fraction), Text.Pow10(|n.fraction|);
    DigitsValueZero(n.fraction);
    DigitsValueBound(n.fraction);
    var frac := f as real / q as real;
    var x := w as real + frac;
    assert JsNumber(p) == if n.negative then -x else x;
    assert IsIntegerText(p) <==> f == 0;
    if f == 0 {
      assert x == w as real;
    } else {
      FractionBelowOne(f, q);
      NotWhole(w, frac);
    }
  }

  lemma FractionBelowOne(f: nat, q: nat)
    requires 0 < f < q
    ensures 0.0 < f as real / q as real < 1.0
  {
    var frac := f as real / q as real;
    assert frac * q as real == f as real;
  }

  /** A whole number plus a proper fraction is no whole number, either sign. */
  lemma NotWhole(w: int, frac: real)
    requires 0.0 < frac < 1.0
    ensures (w as real + frac).Floor == w && (w as real + frac).Floor as real != w as real + frac
    ensures (-(w as real + frac)).Floor == -w - 1 && (-(w as real + frac)).Floor as real != -(w as real + frac)
  {
  }

  lemma MulMono(x: nat, y: nat, p: nat)
    requires x <= y
    ensures x * p <= y * p
  {
  }

  lemma {:induction false} DigitOrderIsNumericOrder(a: string, b: string)
    requires Text.AllDigits(a) && Text.AllDigits(b) && |a| == |b|
    ensures Js.StringLess(a, b) <==> Text.DigitsValue(a) < Text.DigitsValue(b)
    decreases |a|
  {
    if |a| > 0 {
      if a[0] == b[0] {
        assert Text.AllDigits(a[1..]) && Text.AllDigits(b[1..]);
        DigitOrderIsNumericOrder(a[1..], b[1..]);
        assert Js.StringLess(a, b) == Js.StringLess(a[1..], b[1..]);
        assert Text.DigitsValue(a) - Text.DigitsValue(b) == Text.DigitsValue(a[1..]) - Text.DigitsValue(b[1..]);
      } else if a[0] < b[0] {
        LeadingDigitDecides(a, b);
      } else {
        LeadingDigitDecides(b, a);
      }
    }
  }

  /** A smaller leading digit makes the smaller number, whatever follows. */
  lemma LeadingDigitDecides(a: string, b: string)
    requires Text.AllDigits(a) && Text.AllDigits(b) && |a| == |b| > 0 && a[0] < b[0]
    ensures Text.DigitsValue(a) < Text.DigitsValue(b)
  {
    var p := Text.Pow10(|a| - 1);
    var da, db := Text.DigitValue(a[0]), Text.DigitValue(b[0]);
    assert Text.IsDigit(a[0]) && Text.IsDigit(b[0]);
    assert da + 1 <= db;
    DigitsValueBound(a[1..]);
    assert Text.DigitsValue(a) == da * p + Text.DigitsValue(a[1..]);
    assert Text.DigitsValue(b) == db * p + Text.DigitsValue(b[1..]);
    LeadingTermDecides(da, db, p, Text.DigitsValue(a[1..]), Text.DigitsValue(b[1..]));
  }

  /** `da·p + ra < db·p + rb` when `da < db` and the remainder `ra` is below `p`. */
  lemma LeadingTermDecides(da: nat, db: nat, p: nat, ra: nat, rb: nat)
    requires da + 1 <= db && ra < p
    ensures da * p + ra < db * p + rb
  {
    MulMono(da + 1, db, p);
    assert (da + 1) * p == da * p + p;
  }

  // ---------------------------------------------------------------------------
  // addReference
  // ---------------------------------------------------------------------------

  predicate HasTitle(d: Draft) {
    d.title.Some? && d.title.value != ""
  }

  /** A description that passes both description checks: `length` counts
      UTF-16 code units. */
  predicate HasDescription(d: Draft) {
    d.description.Some? && Js.Utf16Length(d.description.value) >= 30
  }

  /** The messages differ (their lengths do). */
  lemma ReferenceMessagesDistinct()
    ensures var ms := [MSG_TITLE, MSG_DESCRIPTION, MSG_SHORT, MSG_NO_BOOKS, MSG_NO_SECTIONS];
      forall i, j :: 0 <= i < j < |ms| ==> ms[i] != ms[j]
  {
  }

  /** The checks of `addReference` (lines 173-199), first failure first. */
  function ReferenceVerdict(d: Draft): (v: Option<string>)
    ensures v == Some(MSG_TITLE) <==> !HasTitle(d)
    ensures v == Some(MSG_DESCRIPTION) <==> HasTitle(d) && (d.description.None? || d.description == Some(""))
    ensures v == Some(MSG_SHORT) <==>
      HasTitle(d) && d.description.Some? && d.description.value != "" && Js.Utf16Length(d.description.value) < 30
    ensures v == Some(MSG_NO_BOOKS) <==> HasTitle(d) && HasDescription(d) && |d.books| == 0
    ensures v == Some(MSG_NO_SECTIONS) <==>
      HasTitle(d) && HasDescription(d) && exists i :: 0 <= i < |d.books| && |d.books[i].1| == 0
    ensures v.None? <==>
      && HasTitle(d) && HasDescription(d)
      && |d.books| > 0
      && forall i :: 0 <= i < |d.books| ==> |d.books[i].1| > 0
  {
    ReferenceMessagesDistinct();
    if d.title.None? || d.title.value == "" then Some(MSG_TITLE)
    else if d.description.None? || d.description.value == "" then Some(MSG_DESCRIPTION)
    else if Js.Utf16Length(d.description.value) < 30 then Some(MSG_SHORT)
    else if |d.books| == 0 then Some(MSG_NO_BOOKS)
    else if exists i :: 0 <= i < |d.books| && |d.books[i].1| == 0 then Some(MSG_NO_SECTIONS)
    else None
  }

  /** `booksList`: one entry per book, in entry order. */
  function BooksList(books: seq<Entry>): (r: seq<BookPayload>)
    ensures |r| == |books|
    ensures forall i :: 0 <= i < |books| ==> r[i] == BookPayload(books[i].0, books[i].1)
  {
    seq(|books|, i requires 0 <= i < |books| => BookPayload(books[i].0, books[i].1))
  }

  /** `eventDate`: the date with midnight appended, or `null`. */
  function EventDate(date: Option<string>): (r: Option<string>)
    ensures r.None? <==> date.None?
    ensures date.Some? ==> |r.value| == |date.value| + 9
    ensures date.Some? ==> r.value[..|date.value|] == date.value && r.value[|date.value|..] == " 00:00:00"
  {
    if date.Some? then Some(date.value + " 00:00:00") else None
  }

  /** `addReference` up to the request: either the error it sets, or the
      payload it sends. */
  function AddReference(d: Draft): (r: (Draft, Option<Payload>))
    ensures r.1.None? <==> ReferenceVerdict(d).Some?
    ensures r.1.None? ==> r.0 == d.(error := ReferenceVerdict(d))
    ensures r.1.Some? ==> r.0 == d
    ensures r.1.Some? ==>
      && r.1.value.title == d.title.value
      && r.1.value.description == d.description.value
      && r.1.value.eventDate == EventDate(d.date)
      && |r.1.value.books| == |d.books|
      && (forall i :: 0 <= i < |d.books| ==> r.1.value.books[i].name == Names(d.books)[i])
      && (forall i :: 0 <= i < |d.books| ==> |r.1.value.books[i].bookSections| > 0)
  {
    match ReferenceVerdict(d)
    case Some(message) => (d.(error := Some(message)), None)
    case None => (d, Some(Payload(d.title.value, EventDate(d.date), d.description.value, BooksList(d.books))))
  }

  /** In a reachable draft, each payload book carries exactly the sections
      the draft holds under its name. */
  lemma PayloadCarriesSections(d: Draft)
    requires Inv(d) && AddReference(d).1.Some?
    ensures forall i :: 0 <= i < |d.books| ==>
      AddReference(d).1.value.books[i].bookSections == Get(d.books, Names(d.books)[i]).value
  {
    forall i | 0 <= i < |d.books|
      ensures AddReference(d).1.value.books[i].bookSections == Get(d.books, Names(d.books)[i]).value
    {
      GetOfDistinct(d.books, i);
    }
  }

  lemma {:induction false} GetOfDistinct(books: seq<Entry>, i: nat)
    requires i < |books| && Distinct(Names(books))
    ensures Get(books, books[i].0) == Some(books[i].1)
    decreases i
  {
    if i > 0 {
      assert Names(books)[0] != Names(books)[i];
      assert Distinct(Names(books[1..])) by {
        forall x, y | 0 <= x < y < |books| - 1
          ensures Names(books[1..])[x] != Names(books[1..])[y]
        {
          assert Names(books)[x + 1] != Names(books)[y + 1];
        }
      }
      GetOfDistinct(books[1..], i - 1);
    }
  }

  /** The outcome of the PUT request (lines 225-242). Once the server
      answers, whatever the status, the reference is listed; a 422 also sets
      an error. A failed request sets an error and lists nothing. */
  function OnPutResponse(d: Draft, payload: Payload, outcome: Js.Fetch<()>): (r: Draft)
    ensures outcome.Responded? ==> r.references == d.references + [payload]
    ensures outcome.Failed? ==> r.references == d.references && r.error == Some(MSG_FAILED)
    ensures outcome.Responded? && outcome.status == 422 ==> r.error == Some(MSG_REJECTED)
    ensures outcome.Responded? && outcome.status != 422 ==> r.error == d.error
    ensures r.books == d.books && r.currentSections == d.currentSections
    ensures r == d.(references := r.references, error := r.error)
  {
    match outcome
    case Failed => d.(error := Some(MSG_FAILED))
    case Responded(status, _) =>
      var checked := if !Js.Ok(status) && status == 422 then d.(error := Some(MSG_REJECTED)) else d;
      checked.(references := d.references + [payload])
  }

  lemma AddReferenceInv(d: Draft, payload: Payload, outcome: Js.Fetch<()>)
    requires Inv(d)
    ensures Inv(AddReference(d).0)
    ensures Inv(OnPutResponse(d, payload, outcome))
  {
  }

  // ---------------------------------------------------------------------------
  // What the editor does not check
  // ---------------------------------------------------------------------------

  /** The editor checks less than the producer's model: it sends a title
      shorter than five characters, which the model refuses. */
  lemma EditorChecksLessThanProducer(title: string, description: string, book: string)
    requires 0 < |title| < 5 && Js.Utf16Length(description) >= 30
    ensures AddReference(Draft([], [(book, [Section("1", "2")])], "", map[], Some(title), None, Some(description), None)).1.Some?
    ensures !Pydantic.LengthWithin(title, 5, 100)
  {
    var d := Draft([], [(book, [Section("1", "2")])], "", map[], Some(title), None, Some(description), None);
    assert HasTitle(d) && HasDescription(d);
    assert forall i :: 0 <= i < |d.books| ==> |d.books[i].1| > 0;
  }

  /** Nor does it refuse page 0, which the model refuses too. */
  lemma EditorAcceptsPageZero()
    ensures SectionVerdict(SectionInput(Digits("0"), Digits("0"))).None? && !AdminModels.ValidPage(0)
  {
    assert Text.DigitsValue("0") == 0;
  }
}

=== FILE: search_view.dfy ===
/** The search page of the front end
    (react/apps/frontend/src/components/Search.js): the pagination bar drawn
    under the results, the categories toggle and the category options. */
module SearchView {

  // ---------------------------------------------------------------------------
  // Pagination
  // ---------------------------------------------------------------------------

  /** One entry of the pagination bar: a page button, labelled `number`,
      highlighted when `active`, calling `setPage(target)` when clicked; or
      a disabled ellipsis. */
  datatype Item = Page(number: int, active: bool, target: int) | Ellipsis

  /** The button for page `n` (pages are labelled from 1, `currentPage`
      counts from 0). */
  function PageItem(n: int, currentPage: int): Item {
    Page(n, n - 1 == currentPage, n - 1)
  }

  /** The items pushed by the iteration for `number` (lines 127-159). */
  function ItemsAt(number: int, totalPages: int, currentPage: int): seq<Item> {
    (if number == 1 then [PageItem(1, currentPage)] + (if currentPage > 2 then [Ellipsis] else []) else [])
    + (if (number == currentPage || number == currentPage + 1 || number == currentPage + 2)
          && number != 1 && number != totalPages
       then [PageItem(number, currentPage)] else [])
    + (if number == totalPages && number != 1
       then (if currentPage + 1 < totalPages - 2 then [Ellipsis] else []) + [PageItem(number, currentPage)]
       else [])
  }

  /** The items after the iterations for 1 to `k`. */
  function Loop(k: int, totalPages: int, currentPage: int): seq<Item>
    decreases k
  {
    if k < 1 then [] else Loop(k - 1, totalPages, currentPage) + ItemsAt(k, totalPages, currentPage)
  }

  /** `renderPagination`'s loop. */
  method RenderPagination(totalPages: int, currentPage: int) returns (items: seq<Item>)
    ensures items == Window(totalPages, currentPage)
  {
    items := [];
    var number := 1;
    while number <= totalPages
      invariant 1 <= number
      invariant totalPages >= 1 ==> number <= totalPages + 1
      invariant totalPages < 1 ==> number == 1
      invariant items == Loop(number - 1, totalPages, currentPage)
    {
      items := items + ItemsAt(number, totalPages, currentPage);
      number := number + 1;
    }
    if totalPages >= 1 {
      assert number == totalPages + 1;
      LoopIsWindow(totalPages, currentPage);
    } else {
      assert Loop(0, totalPages, currentPage) == [];
    }
  }

  /** A middle page: shown when it lies strictly between the first and last. */
  function Middle(n: int, totalPages: int, currentPage: int): seq<Item> {
    if 1 < n < totalPages then [PageItem(n, currentPage)] else []
  }

  /** The bar described directly: page 1; an ellipsis when the current page
      is past 2; the current page and the next two, those strictly between
      the first and last; then, when there are two pages or more, an
      ellipsis if the current page is far from the end, and the last page. */
  function Window(totalPages: int, currentPage: int): seq<Item> {
    if totalPages < 1 then []
    else
      [PageItem(1, currentPage)]
      + (if currentPage > 2 then [Ellipsis] else [])
      + Middle(currentPage, totalPages, currentPage)
      + Middle(currentPage + 1, totalPages, currentPage)
      + Middle(currentPage + 2, totalPages, currentPage)
      + (if totalPages >= 2
         then (if currentPage + 1 < totalPages - 2 then [Ellipsis] else []) + [PageItem(totalPages, currentPage)]
         else [])
  }

  /** The middle pages up to `k`. */
  function MiddleUpTo(k: int, n: int, totalPages: int, currentPage: int): seq<Item> {
    if n <= k then Middle(n, totalPages, currentPage) else []
  }

  /** The loop after `k` iterations, for `1 <= k < totalPages`. */
  function Partial(k: int, totalPages: int, currentPage: int): seq<Item> {
    [PageItem(1, currentPage)]
    + (if currentPage > 2 then [Ellipsis] else [])
    + MiddleUpTo(k, currentPage, totalPages, currentPage)
    + MiddleUpTo(k, currentPage + 1, totalPages, currentPage)
    + MiddleUpTo(k, currentPage + 2, totalPages, currentPage)
  }

  lemma {:induction false} LoopIsPartial(k: int, totalPages: int, currentPage: int)
    requires 1 <= k < totalPages
    ensures Loop(k, totalPages, currentPage) == Partial(k, totalPages, currentPage)
    decreases k
  {
    if k == 1 {
      assert Loop(0, totalPages, currentPage) == [];
    } else {
      LoopIsPartial(k - 1, totalPages, currentPage);
      StepPartial(k, totalPages, currentPage);
    }
  }

  /** One iteration strictly inside the bar adds page `k` when it is one of
      the three middle pages, and nothing otherwise. */
  lemma StepPartial(k: int, totalPages: int, currentPage: int)
    requires 2 <= k < totalPages
    ensures Partial(k - 1, totalPages, currentPage) + ItemsAt(k, totalPages, currentPage) == Partial(k, totalPages, currentPage)
  {
    var head := [PageItem(1, currentPage)] + (if currentPage > 2 then [Ellipsis] else []);
    var a0, b0, c0 := MiddleUpTo(k - 1, currentPage, totalPages, currentPage),
                      MiddleUpTo(k - 1, currentPage + 1, totalPages, currentPage),
                      MiddleUpTo(k - 1, currentPage + 2, totalPages, currentPage);
    var a1, b1, c1 := MiddleUpTo(k, currentPage, totalPages, currentPage),
                      MiddleUpTo(k, currentPage + 1, totalPages, currentPage),
                      MiddleUpTo(k, currentPage + 2, totalPages, currentPage);
    var step := ItemsAt(k, totalPages, currentPage);
    if k == currentPage {
      assert a1 == a0 + step && b0 == b1 == [] && c0 == c1 == [];
    } else if k == currentPage + 1 {
      assert a1 == a0 && b1 == b0 + step && c0 == c1 == [];
    } else if k == currentPage + 2 {
      assert a1 == a0 && b1 == b0 && c1 == c0 + step;
    } else {
      assert step == [];
      assert a1 == a0 && b1 == b0 && c1 == c0;
    }
    assert head + a0 + b0 + c0 + step == head + a1 + b1 + c1;
  }

  lemma LoopIsWindow(totalPages: int, currentPage: int)
    ensures Loop(totalPages, totalPages, currentPage) == Window(totalPages, currentPage)
  {
    if totalPages == 1 {
      assert Loop(0, totalPages, currentPage) == [];
    } else if totalPages >= 2 {
      LoopIsPartial(totalPages - 1, totalPages, currentPage);
      var p := Partial(totalPages - 1, totalPages, currentPage);
      assert MiddleUpTo(totalPages - 1, currentPage, totalPages, currentPage) == Middle(currentPage, totalPages, currentPage);
      assert MiddleUpTo(totalPages - 1, currentPage + 1, totalPages, currentPage) == Middle(currentPage + 1, totalPages, currentPage);
      assert MiddleUpTo(totalPages - 1, currentPage + 2, totalPages, currentPage) == Middle(currentPage + 2, totalPages, currentPage);
    }
  }

  /** The page numbers on the bar, in order. */
  predicate Increasing(items: seq<Item>) {
    forall i, j :: 0 <= i < j < |items| && items[i].Page? && items[j].Page? ==> items[i].number < items[j].number
  }

  /** Every page number on the bar lies between `lo` and `hi`. */
  predicate PagesWithin(items: seq<Item>, lo: int, hi: int) {
    forall i :: 0 <= i < |items| && items[i].Page? ==> lo <= items[i].number <= hi
  }

  lemma WithinConcat(a: seq<Item>, b: seq<Item>, lo: int, hi: int)
    requires PagesWithin(a, lo, hi) && PagesWithin(b, lo, hi)
    ensures PagesWithin(a + b, lo, hi)
  {
    forall i | 0 <= i < |a + b| && (a + b)[i].Page?
      ensures lo <= (a + b)[i].number <= hi
    {
      if i >= |a| {
        assert (a + b)[i] == b[i - |a|];
      }
    }
  }

  lemma IncreasingConcat(a: seq<Item>, b: seq<Item>, lo: int, mid: int, hi: int)
    requires Increasing(a) && Increasing(b)
    requires PagesWithin(a, lo, mid) && PagesWithin(b, mid + 1, hi)
    ensures Increasing(a + b)
  {
    forall i, j | 0 <= i < j < |a + b| && (a + b)[i].Page? && (a + b)[j].Page?
      ensures (a + b)[i].number < (a + b)[j].number
    {
      if j >= |a| && i < |a| {
        assert (a + b)[j] == b[j - |a|];
      } else if i >= |a| {
        assert (a + b)[i] == b[i - |a|] && (a + b)[j] == b[j - |a|];
      }
    }
  }

  /** The three middle pages. */
  function Middles(totalPages: int, currentPage: int): seq<Item> {
    Middle(currentPage, totalPages, currentPage)
    + Middle(currentPage + 1, totalPages, currentPage)
    + Middle(currentPage + 2, totalPages, currentPage)
  }

  lemma MiddlesIncreasing(totalPages: int, currentPage: int)
    ensures Increasing(Middles(totalPages, currentPage))
    ensures PagesWithin(Middles(totalPages, currentPage), 2, totalPages - 1)
  {
    var m0 := Middle(currentPage, totalPages, currentPage);
    var m1 := Middle(currentPage + 1, totalPages, currentPage);
    var m2 := Middle(currentPage + 2, totalPages, currentPage);
    IncreasingConcat(m0, m1, 2, currentPage, currentPage + 1);
    WithinConcat(m0, m1, 2, currentPage + 1);
    IncreasingConcat(m0 + m1, m2, 2, currentPage + 1, currentPage + 2);
    WithinConcat(m0, m1, 2, totalPages - 1);
    WithinConcat(m0 + m1, m2, 2, totalPages - 1);
  }

  /** Page numbers strictly increase along the bar, so none repeats, and
      they all lie between 1 and the last page. */
  lemma WindowIncreasing(totalPages: int, currentPage: int)
    ensures Increasing(Window(totalPages, currentPage))
    ensures PagesWithin(Window(totalPages, currentPage), 1, totalPages)
  {
    if totalPages >= 1 {
      var head := [PageItem(1, currentPage)] + (if currentPage > 2 then [Ellipsis] else []);
      var m := Middles(totalPages, currentPage);
      var tail := if totalPages >= 2
        then (if currentPage + 1 < totalPages - 2 then [Ellipsis] else []) + [PageItem(totalPages, currentPage)]
        else [];
      assert Window(totalPages, currentPage) == head + m + tail;
      if totalPages >= 2 {
        MiddlesIncreasing(totalPages, currentPage);
        assert PagesWithin(head, 1, 1) && PagesWithin(tail, totalPages, totalPages);
        ThreePartsIncreasing(head, m, tail, totalPages);
      } else {
        assert m == [] && tail == [];
        assert head + m + tail == head;
      }
    }
  }

  lemma ThreePartsIncreasing(head: seq<Item>, m: seq<Item>, tail: seq<Item>, totalPages: int)
    requires totalPages >= 2
    requires Increasing(head) && Increasing(m) && Increasing(tail)
    requires PagesWithin(head, 1, 1) && PagesWithin(m, 2, totalPages - 1) && PagesWithin(tail, totalPages, totalPages)
    ensures Increasing(head + m + tail) && PagesWithin(head + m + tail, 1, totalPages)
  {
    IncreasingConcat(head, m, 1, 1, totalPages - 1);
    WithinConcat(head, m, 1, totalPages - 1);
    IncreasingConcat(head + m, tail, 1, totalPages - 1, totalPages);
    WithinConcat(head + m, tail, 1, totalPages);
  }

  /** The facts the bar promises:
      - no pages, no items;
      - page 1 comes first;
      - with two pages or more, the last page comes last;
      - at most seven items;
      - every button is active exactly for the current page and jumps to its
        own page. */
  lemma WindowShape(totalPages: int, currentPage: int)
    ensures totalPages < 1 ==> Window(totalPages, currentPage) == []
    ensures totalPages >= 1 ==> Window(totalPages, currentPage)[0] == PageItem(1, currentPage)
    ensures totalPages >= 2 ==> Window(totalPages, currentPage)[|Window(totalPages, currentPage)| - 1] == PageItem(totalPages, currentPage)
    ensures |Window(totalPages, currentPage)| <= 7
    ensures forall it :: it in Window(totalPages, currentPage) && it.Page? ==>
      it.active == (it.number - 1 == currentPage) && it.target == it.number - 1
  {
  }

  /** For a current page that exists, an ellipsis follows page 1 exactly
      when the current page is past 2, and one precedes the last page
      exactly when the current page is more than two pages before it. */
  lemma WindowEllipses(totalPages: int, currentPage: int)
    requires 0 <= currentPage < totalPages
    ensures var w := Window(totalPages, currentPage);
      |w| > 1 ==> (w[1] == Ellipsis <==> currentPage > 2)
    ensures var w := Window(totalPages, currentPage);
      totalPages >= 2 ==> |w| >= 2 && (w[|w| - 2] == Ellipsis <==> currentPage + 1 < totalPages - 2)
  {
  }

  /** When the current page exists, its button is on the bar and is the
      only active one. */
  lemma ActivePagePresent(totalPages: int, currentPage: int)
    requires 0 <= currentPage < totalPages
    ensures PageItem(currentPage + 1, currentPage) in Window(totalPages, currentPage)
    ensures forall it :: it in Window(totalPages, currentPage) && it.Page? && it.active ==> it.number == currentPage + 1
  {
    var w := Window(totalPages, currentPage);
    if currentPage + 1 == 1 {
      assert w[0] == PageItem(1, currentPage);
    } else if currentPage + 1 == totalPages {
      WindowShape(totalPages, currentPage);
      assert w[|w| - 1] == PageItem(totalPages, currentPage);
    } else {
      assert Middle(currentPage + 1, totalPages, currentPage) == [PageItem(currentPage + 1, currentPage)];
    }
  }

  // ---------------------------------------------------------------------------
  // Categories
  // ---------------------------------------------------------------------------

  /** A style object: `{display: 'none'}` hides the category buttons, `{}`
      shows them. */
  type Style = map<string, string>

  const Hidden: Style := map["display" := "none"]
  const Shown: Style := map[]

  /** `toggleCategories`: an empty style becomes hidden, any other becomes
      shown. */
  function ToggleCategories(style: Style): (r: Style)
    ensures |style| == 0 ==> r == Hidden
    ensures |style| > 0 ==> r == Shown
  {
    if |style| == 0 then Hidden else Shown
  }

  /** On the two styles the page uses, toggling twice restores the style. */
  lemma ToggleTwice(style: Style)
    requires style == Hidden || style == Shown
    ensures ToggleCategories(ToggleCategories(style)) == style
    ensures ToggleCategories(style) != style
  {
    assert |Hidden| == 1;
  }

  /** One option of the category toggle. */
  datatype CategoryOption = CategoryOption(caption: string, value: string)

  /** `setCategories`: one option per category, in order, labelled with the
      translation of "search.categories." followed by the category. */
  function SetCategories(categories: seq<string>, t: string -> string): (options: seq<CategoryOption>)
    ensures |options| == |categories|
    ensures forall i :: 0 <= i < |categories| ==>
      options[i].value == categories[i] && options[i].caption == t("search.categories." + categories[i])
  {
    if |categories| == 0 then []
    else [CategoryOption(t("search.categories." + categories[0]), categories[0])] + SetCategories(categories[1..], t)
  }

  function Values(options: seq<CategoryOption>): seq<string> {
    if |options| == 0 then [] else [options[0].value] + Values(options[1..])
  }

  /** The options carry back exactly the categories they were built from. */
  lemma {:induction false} SetCategoriesValues(categories: seq<string>, t: string -> string)
    ensures Values(SetCategories(categories, t)) == categories
    decreases |categories|
  {
    if |categories| > 0 {
      SetCategoriesValues(categories[1..], t);
      assert categories == [categories[0]] + categories[1..];
    }
  }
}

=== FILE: text.dfy ===
/** String helpers standing in for the Python `str` methods the services call
    (`lower()`, `replace(" ", "")` and `split()` with no separator), and the
    decimal digits both the services and the front ends read. */
module Text {

  /** The ASCII characters `str.split()` treats as separators: tab, line
      feed, vertical tab, form feed, carriage return, the four information
      separators U+001C..U+001F, and space. */
  predicate IsSpace(c: char) {
    9 <= c as int <= 13 || 28 <= c as int <= 32
  }

  predicate NoSpace(s: string) {
    forall i :: 0 <= i < |s| ==> !IsSpace(s[i])
  }

  /** A word as `split()` returns it: non-empty and free of separators. */
  predicate IsWord(w: string) {
    |w| > 0 && NoSpace(w)
  }

  function LowerChar(c: char): (d: char)
    ensures 'A' <= c <= 'Z' ==> 'a' <= d <= 'z'
    ensures !('A' <= c <= 'Z') ==> d == c
  {
    if 'A' <= c <= 'Z' then (c as int + 32) as char else c
  }

  /** `s.lower()`, restricted to ASCII letters. */
  function Lower(s: string): (r: string)
    ensures |r| == |s|
    ensures forall i :: 0 <= i < |s| ==> r[i] == LowerChar(s[i])
  {
    seq(|s|, i requires 0 <= i < |s| => LowerChar(s[i]))
  }

  /** Lowering keeps every character that is not an ASCII letter, as often
      as it occurs. */
  lemma {:induction false} LowerKeepsOthers(s: string, c: char)
    requires !('A' <= c <= 'Z') && !('a' <= c <= 'z')
    ensures multiset(Lower(s))[c] == multiset(s)[c]
    decreases |s|
  {
    if |s| > 0 {
      assert s == [s[0]] + s[1..];
      assert Lower(s) == [LowerChar(s[0])] + Lower(s[1..]);
      LowerKeepsOthers(s[1..], c);
    }
  }

  /** `s.replace(" ", "")`: every plain space removed, all else kept in order. */
  function RemoveSpaces(s: string): (r: string)
    ensures ' ' !in r
    ensures |r| <= |s|
    ensures forall c :: c != ' ' ==> multiset(r)[c] == multiset(s)[c]
  {
    if |s| == 0 then ""
    else
      assert s == [s[0]] + s[1..];
      if s[0] == ' ' then RemoveSpaces(s[1..]) else [s[0]] + RemoveSpaces(s[1..])
  }

  /** A string without spaces is left as it is. */
  lemma {:induction false} RemoveSpacesOfSpaceless(s: string)
    requires ' ' !in s
    ensures RemoveSpaces(s) == s
    decreases |s|
  {
    if |s| > 0 {
      assert s[0] != ' ' && ' ' !in s[1..];
      RemoveSpacesOfSpaceless(s[1..]);
      assert s == [s[0]] + s[1..];
    }
  }

  /** Length of the run of non-separator characters that starts `s`. */
  function RunLength(s: string): (n: nat)
    ensures n <= |s|
    ensures forall i :: 0 <= i < n ==> !IsSpace(s[i])
    ensures n == |s| || IsSpace(s[n])
  {
    if |s| == 0 || IsSpace(s[0]) then 0 else 1 + RunLength(s[1..])
  }

  /** `s.split()`: the maximal runs of non-separator characters, in order. */
  function Words(s: string): (ws: seq<string>)
    ensures forall k :: 0 <= k < |ws| ==> IsWord(ws[k])
    decreases |s|
  {
    if |s| == 0 then []
    else if IsSpace(s[0]) then Words(s[1..])
    else
      var n := RunLength(s);
      [s[..n]] + Words(s[n..])
  }

  /** The characters of `s` that are not separators, in order. */
  function NonSeparators(s: string): string {
    if |s| == 0 then "" else (if IsSpace(s[0]) then "" else [s[0]]) + NonSeparators(s[1..])
  }

  /** The words joined without separators. */
  function Concat(ws: seq<string>): string {
    if |ws| == 0 then "" else ws[0] + Concat(ws[1..])
  }

  lemma {:induction false} NonSeparatorsConcat(a: string, b: string)
    ensures NonSeparators(a + b) == NonSeparators(a) + NonSeparators(b)
    decreases |a|
  {
    if |a| == 0 {
      assert a + b == b;
    } else {
      assert (a + b)[0] == a[0];
      assert (a + b)[1..] == a[1..] + b;
      NonSeparatorsConcat(a[1..], b);
    }
  }

  lemma {:induction false} NonSeparatorsOfWord(w: string)
    requires NoSpace(w)
    ensures NonSeparators(w) == w
    decreases |w|
  {
    if |w| > 0 {
      assert NoSpace(w[1..]);
      NonSeparatorsOfWord(w[1..]);
      assert w == [w[0]] + w[1..];
    }
  }

  /** `split()` loses nothing but separators: the words, joined, are exactly
      the non-separator characters of the string, in order. */
  lemma {:induction false} WordsKeepCharacters(s: string)
    ensures Concat(Words(s)) == NonSeparators(s)
    decreases |s|
  {
    if |s| > 0 {
      if IsSpace(s[0]) {
        WordsKeepCharacters(s[1..]);
      } else {
        var n := RunLength(s);
        WordsKeepCharacters(s[n..]);
        assert s == s[..n] + s[n..];
        NonSeparatorsConcat(s[..n], s[n..]);
        NonSeparatorsOfWord(s[..n]);
        var ws := Words(s);
        assert ws == [s[..n]] + Words(s[n..]);
        assert ws[1..] == Words(s[n..]);
      }
    }
  }

  /** A string of separators only splits into no words. */
  lemma {:induction false} WordsOfSpaces(s: string)
    requires forall i :: 0 <= i < |s| ==> IsSpace(s[i])
    ensures Words(s) == []
    decreases |s|
  {
    if |s| > 0 {
      WordsOfSpaces(s[1..]);
    }
  }

  /** A single word splits into itself. */
  lemma WordsOfWord(w: string)
    requires IsWord(w)
    ensures Words(w) == [w]
  {
    assert RunLength(w) == |w|;
    assert w[..|w|] == w;
    assert w[|w|..] == "";
    assert Words(w) == [w[..|w|]] + Words(w[|w|..]);
  }

  /** `"Bearer X".split()` is `["Bearer", "X"]`: two words joined by one space
      split back into exactly those two words. */
  lemma WordsOfPair(a: string, b: string)
    requires IsWord(a) && IsWord(b)
    ensures Words(a + " " + b) == [a, b]
  {
    var s := a + " " + b;
    RunLengthOfPrefix(a, " " + b);
    assert s == a + (" " + b);
    assert s[..|a|] == a;
    assert s[|a|..] == " " + b;
    assert (" " + b)[1..] == b;
    WordsOfWord(b);
  }

  lemma {:induction false} RunLengthOfPrefix(a: string, rest: string)
    requires NoSpace(a)
    requires |rest| > 0 && IsSpace(rest[0])
    ensures RunLength(a + rest) == |a|
    decreases |a|
  {
    if |a| > 0 {
      assert (a + rest)[1..] == a[1..] + rest;
      RunLengthOfPrefix(a[1..], rest);
    } else {
      assert a + rest == rest;
    }
  }

  predicate IsDigit(c: char) {
    '0' <= c <= '9'
  }

  predicate AllDigits(s: string) {
    forall i :: 0 <= i < |s| ==> IsDigit(s[i])
  }

  function DigitValue(c: char): (d: nat)
    ensures d <= 9
  {
    if IsDigit(c) then c as int - '0' as int else 0
  }

  function Pow10(k: nat): (p: nat)
    ensures p >= 1
  {
    if k == 0 then 1 else 10 * Pow10(k - 1)
  }

  /** The value of a digit string, most significant digit first. */
  function DigitsValue(s: string): nat {
    if |s| == 0 then 0 else DigitValue(s[0]) * Pow10(|s| - 1) + DigitsValue(s[1..])
  }
}

=== FILE: wrappers.dfy ===
/** Failure-compatible wrappers shared by every module of the model. */
module Wrappers {

  /** A value that may be absent (Python's None, JavaScript's null). */
  datatype Option<+T> = None | Some(value: T) {

    predicate IsFailure() {
      None?
    }

    function PropagateFailure<U>(): Option<U>
      requires None?
    {
      None
    }

    function Extract(): T
      requires Some?
    {
      value
    }

    function GetOr(default: T): T {
      match this
      case Some(v) => v
      case None => default
    }
  }

  /** The outcome of an operation that may raise: Ok(value) or Err(error). */
  datatype Result<+R, +E> = Ok(value: R) | Err(error: E) {

    predicate IsFailure() {
      Err?
    }

    function PropagateFailure<U>(): Result<U, E>
      requires Err?
    {
      Err(error)
    }

    function Extract(): R
      requires Ok?
    {
      value
    }
  }
}
